=== FILE: README.md ===
# A Dafny model of the SOF virtual memory heap, the sink/source API and the down-mixer

This project models a few pieces of the Sound Open Firmware (SOF) audio DSP firmware:

- **The virtual memory heap** (`zephyr/lib/regions_mm.c`).
  - A heap sits over one virtual region of the memory-management driver. It holds up to ten "bundles", each a run of equal power-of-two blocks. Two bitmaps per bundle record the blocks: the allocation bitmap marks the allocated blocks, and the size bitmap links the blocks of one allocation.
  - Pages are mapped in when an allocation needs them. They are unmapped on free, except for pages that a live block still uses.
  - Modules: `VmhBitmaps` (the run encoding), `VmhPages` (page boundaries and the page mapper), `VmhHeap` (`vmh_alloc`, `vmh_free`) and `VmhRegistry` (the list of heaps, with `vmh_init_heap`, `vmh_free_heap`, `vmh_reconfigure_heap`, `vmh_get_heap_by_attribute` and the default configuration).
- **The sink and source API** (`src/module/audio/sink_api.c`, `src/audio/sink_api_helper.c`, `src/include/sof_api/audio/source_api.h`).
  - A module writes through a sink and reads through a source. Each holds at most one outstanding fragment and counts the bytes it processed.
  - `AudioEndpoint` is the fragment protocol that both share. `SinkApi.Sink` and `SourceApi.Source` are the two handles, written as classes whose methods update their fields.
- **The down-mixer loadable module** (`lmdk/modules/down_mixer/downmixer.c`).
  - `DownMixerConfig` holds the configuration and the rules `init` checks.
  - `DownMixerKernel` holds the mixing loop over circular buffers.
  - `DownMixerModule.DownMixer` holds the module state, `init`, `process`, `reset` and the processing mode.
  - `DownMixerAsWritten` models the parts of `process` that behave differently from what the code evidently intends (see Findings).
- **Small headers**:
  - the IPC4 notification header word (`Ipc4Notification`);
  - the module API version word (`ModuleApiVersion`);
  - the module handle and instance placeholder sizes (`ModuleHandle`);
  - the mixin's lookup of a processing function by frame format (`MixinLookup`).
- **The glitch detector** (`src/lib/glitch.c`), in module `Glitch`.

Where the C code changes state step by step, the model is imperative:
- the heap, the driver's page table, the sink, the source, the down-mixer and the tick counter are classes;
- the sample buffers are arrays;
- loops are `while` loops with invariants.

Each such method is proved against a function or predicate that states what it computes. Lemmas then state the properties of those functions:
- allocation then free restores the bundle;
- every live block stays on a mapped page;
- at most one fragment is outstanding;
- every output frame holds the mixed sample.

Integers are unbounded. The source's `size_t` wrap-around, its `int16_t`/`int32_t` truncation and C's truncating division are written out where they matter:
- `AudioEndpoint.AddSize`;
- `DownMixerKernel.Wrap`;
- `DownMixerKernel.CDiv`;
- `Glitch.Int32`;
- `VmhRegistry.PrefixTotalAsWritten`, the running total of `vmh_init_heap` as written (see Findings).

## Model

| member | source | states |
|---|---|---|
| Align.DivRoundUp | zephyr/lib/regions_mm.c:390 | the block count is the least count whose blocks cover the size |
| Align.AlignDown | zephyr/lib/regions_mm.c:256 | the result is the multiple of the alignment at or just below the address |
| Align.AlignUp | zephyr/lib/regions_mm.c:255-257 | the result is the multiple of the alignment at or just above the value |
| Align.AlignDownMaximal | zephyr/lib/regions_mm.c:256 | no multiple of the alignment lies between the aligned-down value and the value |
| Align.AlignUpMinimal | zephyr/lib/regions_mm.c:255-257 | no multiple of the alignment lies between the value and its aligned-up value |
| Align.PowerOfTwoDivides | zephyr/lib/regions_mm.c:388-389 | a smaller power of two divides a larger one, so block sizes and the page size nest |
| AudioEndpoint.StreamParams.constructor | src/include/sof_api/audio/source_api.h:59-62 | the shared parameters hold exactly the given values |
| AudioEndpoint.FormatSetResult | src/audio/sink_api_helper.c:34-41 | a missing `on_audio_format_set` callback means success (0) |
| AudioEndpoint.AddSize | src/module/audio/sink_api.c:45 | the processed-bytes counter adds in `size_t`, wrapping at 2^32 |
| AudioEndpoint.Obtain | src/module/audio/sink_api.c:12-26 | a fragment is refused with -EBUSY while one is outstanding; otherwise the backend's answer is returned, and the fragment is outstanding exactly when that answer is 0; the processed count never changes |
| AudioEndpoint.Clamp | src/module/audio/sink_api.c:36-38 | the size handed back is the smaller of the size given and the fragment outstanding |
| AudioEndpoint.Finish | src/module/audio/sink_api.c:28-47 | handing back with nothing outstanding gives -ENODATA and changes nothing; otherwise the counter grows by the clamped size, and the fragment closes exactly when the backend returns 0 |
| AudioEndpoint.Frames | src/module/audio/sink_api.c:59-63 | the result is the number of whole frames in the bytes |
| AudioEndpoint.AtMostOneFragment | src/module/audio/sink_api.c:17-18 | after a granted fragment, a second request is refused with -EBUSY and the first fragment is kept |
| AudioEndpoint.ObtainFailureLeavesIdle | src/module/audio/sink_api.c:20-23 | a refused backend request leaves no fragment outstanding |
| AudioEndpoint.ObtainThenFinishAll | src/module/audio/sink_api.c:12-47 | obtaining a fragment and handing back `SIZE_MAX` counts exactly the fragment and leaves the endpoint idle |
| AudioEndpoint.FinishWhenIdleRefused | src/include/sof_api/audio/source_api.h:150-151 | handing back when nothing was obtained is refused with -ENODATA |
| AudioEndpoint.FinishCountsAtMostOutstanding | src/include/sof_api/audio/source_api.h:153-162 | one hand-back counts no more than the outstanding fragment |
| AudioEndpoint.FailedFinishCountsTwice | src/module/audio/sink_api.c:38-46 | a hand-back the backend refuses still counts its bytes and keeps the fragment, so a retry counts them again |
| SinkApi.Sink.constructor | src/audio/sink_api_helper.c:12-17 | a new sink has the given callbacks and parameters, no fragment and a zero counter |
| SinkApi.Sink.Init | src/audio/sink_api_helper.c:12-17 | `sink_init` sets the callbacks and parameters and leaves the bookkeeping alone |
| SinkApi.Sink.GetBuffer | src/module/audio/sink_api.c:12-26 | the sink's new bookkeeping and the result follow the fragment protocol's `Obtain` |
| SinkApi.Sink.CommitBuffer | src/module/audio/sink_api.c:28-47 | the backend commits the clamped size, and the bookkeeping and the result follow `Finish` |
| SinkApi.Sink.GetFreeFrames | src/module/audio/sink_api.c:59-63 | the result is the number of whole frames of the sink's own frame size (`sink_get_frame_bytes`) in the backend's free space |
| SinkApi.Sink.GetFrameBytes | src/include/module/audio/sink_api.h:70-71 | the frame size is computed from the sink's own frame format and channel count |
| SinkApi.Sink.ResetNumOfProcessedBytes | src/audio/sink_api_helper.c:24-27 | the counter reads 0 afterwards, and nothing else changes |
| SinkApi.Sink.GetNumOfProcessedBytes | src/audio/sink_api_helper.c:19-22 | the counter that each commit grows and the reset sets back to 0 |
| SinkApi.Sink.SetMinFreeSpace | src/audio/sink_api_helper.c:92-100 | the getter returns the value just set, and nothing else changes |
| SinkApi.Sink.GetMinFreeSpace | src/audio/sink_api_helper.c:97-100 | the minimum free space last set |
| SinkApi.Sink.SetFrmFmt | src/module/audio/sink_api.c:49-57 | only the frame format of the shared parameters changes, and the result is the format-set callback's verdict on the new parameters |
| SinkApi.Sink.SetValidFmt | src/audio/sink_api_helper.c:34-41 | only the valid sample format changes, and the callback's verdict is returned |
| SinkApi.Sink.SetRate | src/audio/sink_api_helper.c:43-49 | only the rate changes, and the callback's verdict is returned |
| SinkApi.Sink.SetChannels | src/audio/sink_api_helper.c:51-57 | only the channel count changes, and the callback's verdict is returned |
| SinkApi.Sink.SetBufferFmt | src/audio/sink_api_helper.c:59-65 | only the buffer format changes, and the callback's verdict is returned |
| SinkApi.Sink.SetOverrun | src/audio/sink_api_helper.c:67-73 | only the overrun flag changes, and the callback's verdict is returned |
| SinkApi.Sink.SetParams | src/audio/sink_api_helper.c:75-81 | the backend's answer when it has the callback, otherwise 0 |
| SinkApi.Sink.SetAlignmentConstants | src/audio/sink_api_helper.c:83-90 | the backend's answer when it has the callback, otherwise 0 |
| SourceApi.Source.constructor | src/include/sof_api/audio/source_api.h:54-57 | a new source has the given callbacks and parameters, no fragment and a zero counter |
| SourceApi.Source.GetFrameBytes | src/include/sof_api/audio/source_api.h:70-73 | the frame size is computed from the source's own frame format and channel count |
| SourceApi.Source.GetDataFramesAvailable | src/include/sof_api/audio/source_api.h:79-82 | the result is the number of whole frames in the bytes ready to read |
| SourceApi.Source.GetData | src/include/sof_api/audio/source_api.h:115-129 | the source's new bookkeeping and the result follow the fragment protocol's `Obtain` |
| SourceApi.Source.ReleaseData | src/include/sof_api/audio/source_api.h:145-164 | the backend frees the clamped size, and the bookkeeping and the result follow `Finish` |
| DownMixerConfig.PinTable | lmdk/modules/down_mixer/downmixer.c:159-176 | the input table has one entry per input pin |
| DownMixerConfig.Inputs | lmdk/modules/down_mixer/downmixer.c:159-176 | the input formats of an accepted configuration form one entry per pin |
| DownMixerConfig.PinTableLastWins | lmdk/modules/down_mixer/downmixer.c:170-174 | a pin's entry is the last format given for that pin |
| DownMixerConfig.PinTableUnnamed | lmdk/modules/down_mixer/downmixer.c:159-176 | a pin that no format names stays unconfigured (zero buffer size) |
| DownMixerConfig.SizeCoversPinFormats | lmdk/modules/down_mixer/downmixer.c:101-120 | a message that passes the size checks holds every pin format its header declares |
| DownMixerConfig.AcceptedBounds | lmdk/modules/down_mixer/downmixer.c:179-283 | an accepted configuration has 16- or 32-bit samples, 1-4 channels on pin 0, at most 2 on pin 1 and 1-2 on the output, so both dividers lie in 1..6 |
| DownMixerConfig.FormatsSupported | lmdk/modules/down_mixer/downmixer.c:179-283 | the format rules of `init`, stated by `DownMixerModule.DownMixer.CheckFormats` |
| DownMixerConfig.Accepted | lmdk/modules/down_mixer/downmixer.c:101-283 | the size, pin-count and format checks of `init` together, stated by `DownMixerModule.DownMixer.Init` |
| DownMixerKernel.CDiv | lmdk/modules/down_mixer/downmixer.c:432-437 | the quotient is truncated toward zero, as in C, for either sign of the sample |
| DownMixerKernel.Wrap | lmdk/modules/down_mixer/downmixer.c:440 | the cast to the sample width gives the value in the signed range that is congruent to the sum |
| DownMixerKernel.ChunkFrames | lmdk/modules/down_mixer/downmixer.c:413-421 | corrected, see Findings: a chunk never runs past any buffer's wrap point or past the frames still to process, and it stops at one of them |
| DownMixerKernel.MixSample | lmdk/modules/down_mixer/downmixer.c:429-437 | the mixed value is input 0's frame, channel by channel divided by its divider, plus the same for input 1 |
| DownMixerKernel.FillFrame | lmdk/modules/down_mixer/downmixer.c:439-440 | every channel of the output frame holds the value, and no other cell changes |
| DownMixerKernel.MixChunk | lmdk/modules/down_mixer/downmixer.c:428-441 | every channel of every frame of the chunk holds its frame's output sample, and no cell outside the chunk changes |
| DownMixerKernel.ChunkFrameMix | lmdk/modules/down_mixer/downmixer.c:429-437 | corrected, see Findings: the value read at the chunk's positions is the mixed sample of that frame of the rings |
| DownMixerKernel.ProcessFrames | lmdk/modules/down_mixer/downmixer.c:410-479 | after the loop, the first `frames` output frames after the write position (with wrap-around) hold their mixed samples, and every other cell is unchanged |
| DownMixerKernel.NextChunk | lmdk/modules/down_mixer/downmixer.c:413-421 | corrected, see Findings: each chunk has at least one frame, no more than remain, and fits before every buffer's wrap |
| DownMixerKernel.FramesLeft | lmdk/modules/down_mixer/downmixer.c:413 | at least one whole frame lies between a frame-aligned position and its buffer's end |
| DownMixerKernel.Advance | lmdk/modules/down_mixer/downmixer.c:464-476 | moving a position by `n` frames and wrapping once lands where the total frames done place it, modulo the buffer |
| DownMixerKernel.AdvanceAll | lmdk/modules/down_mixer/downmixer.c:464-478 | after a chunk, every position in use points at the frame after the frames done |
| DownMixerKernel.ChunkExtends | lmdk/modules/down_mixer/downmixer.c:411-479 | one more chunk extends the written frames by its frames and leaves the cells after them unchanged |
| DownMixerModule.UsesSource1 | lmdk/modules/down_mixer/downmixer.c:371 | corrected, see Findings: source 1 is read exactly when the reference pin has channels and a second source exists |
| DownMixerModule.Divider0 | lmdk/modules/down_mixer/downmixer.c:402-408 | in bypass mode input 0 is divided by its channel count, otherwise by the configured divider |
| DownMixerModule.MulSize | lmdk/modules/down_mixer/downmixer.c:482-485 | the product is exact while it fits in `size_t` |
| DownMixerModule.Source1Release | lmdk/modules/down_mixer/downmixer.c:482-485 | source 1 gets nothing counted back when it was not mixed (corrected behaviour) |
| DownMixerModule.HandBackFits | lmdk/modules/down_mixer/downmixer.c:482-485 | the bytes handed back for the processed frames fit in the fragment obtained, so the clamp keeps them whole |
| DownMixerModule.DownMixer.constructor | lmdk/modules/down_mixer/downmixer.c:72 | the module data starts zeroed, in normal mode |
| DownMixerModule.DownMixer.Init | lmdk/modules/down_mixer/downmixer.c:93-312 | `init` succeeds exactly when the configuration is accepted; then the depth and channel counts come from the pin formats and both dividers are `ch0 + ch1`; otherwise it returns `ADSP_INVALID_SETTINGS` and changes nothing |
| DownMixerModule.DownMixer.ReadInputFormats | lmdk/modules/down_mixer/downmixer.c:159-176 | the reading succeeds exactly when every input format names pin 0 or 1, and then yields the pin table |
| DownMixerModule.DownMixer.CheckFormats | lmdk/modules/down_mixer/downmixer.c:179-283 | the check passes exactly when the formats are supported |
| DownMixerModule.DownMixer.SetProcessingMode | lmdk/modules/down_mixer/downmixer.c:729-739 | the mode is stored and read back, 0 is returned, and nothing else changes |
| DownMixerModule.DownMixer.Reset | lmdk/modules/down_mixer/downmixer.c:760-768 | the mode is back to normal, 0 is returned, and nothing else changes |
| DownMixerModule.DownMixer.GetProcessingMode | lmdk/modules/down_mixer/downmixer.c:745-752 | the mode that the last `set_processing_mode` or `reset` stored |
| DownMixerModule.DownMixer.MixAndHandBack | lmdk/modules/down_mixer/downmixer.c:390-485 | corrected, see Findings: the frames to process are the fewer of the sink's free frames and source 0's available frames; those output frames hold the mix, the rest of the sink buffer is untouched, and every endpoint is handed back the processed frames |
| DownMixerModule.DownMixer.TakeFragments | lmdk/modules/down_mixer/downmixer.c:351-388 | corrected, see Findings: taking fragments succeeds exactly when every endpoint grants one; on failure every fragment already taken is handed back empty |
| DownMixerModule.DownMixer.HandBack | lmdk/modules/down_mixer/downmixer.c:482-485 | corrected, see Findings: each endpoint counts exactly the processed frames' bytes and ends idle |
| DownMixerModule.DownMixer.Process | lmdk/modules/down_mixer/downmixer.c:333-488 | corrected, see Findings: `process` succeeds exactly when the sink and the sources grant fragments. On success the output frames hold the mix and the rest of the sink buffer is untouched, with every endpoint handed back the processed frames. On failure the output is untouched and every fragment taken is handed back empty |
| DownMixerAsWritten.LoopFramesAsWritten | lmdk/modules/down_mixer/downmixer.c:413-421 | the code as written computes a chunk only when all three frame sizes are non-zero |
| DownMixerAsWritten.LoopFramesDividesByZero | lmdk/modules/down_mixer/downmixer.c:415 | without a reference input, the code as written divides by a zero frame size |
| DownMixerAsWritten.LoopFramesOverrun | lmdk/modules/down_mixer/downmixer.c:413-421 | the chunk as written can exceed the frames still to process |
| DownMixerAsWritten.In1StrideAsWritten16 | lmdk/modules/down_mixer/downmixer.c:436 | the 16-bit path as written reads input 1 with input 0's stride and mixes another sample |
| DownMixerAsWritten.UsesSource1PastEnd | lmdk/modules/down_mixer/downmixer.c:371 | with one source, the guard as written still reads source 1 |
| DownMixerAsWritten.Source1LeftOutstanding | lmdk/modules/down_mixer/downmixer.c:483-484 | a source 1 fragment obtained but not mixed is never released, so the next `process` gets -EBUSY from it |
| DownMixerAsWritten.Source1HandedBack | lmdk/modules/down_mixer/downmixer.c:483-484 | with the corrected release the fragment closes, and the next request reaches the backend |
| Ipc4Notification.NotifHeader | src/include/ipc4/notification.h:45-56 | the header carries the notification type in bits 16-23 and the global notification type in bits 24-28, with request direction and firmware target |
| Ipc4Notification.FwReadyIsHeader | src/include/ipc4/notification.h:50-52 | the FW_READY constant is the notification header of the FW_READY type |
| Ipc4Notification.WatchdogTimeoutNotification.Init | src/include/ipc4/notification.h:154-170 | the watchdog notification names its core in bits 0-3 and the first-timeout flag in bit 4, zeroes the reserved bits, has the watchdog header and an extension of 0 |
| Ipc4Notification.SetField | src/include/ipc4/notification.h:160-168 | a bit-field assignment: the value cut to the field's width, the other bits kept, as `WatchdogTimeoutNotification.Init` uses it |
| ModuleApiVersion.Fields | src/include/module/module/api_ver.h:23-31 | each bitfield stays within its width |
| ModuleApiVersion.PackVersion | src/include/module/module/api_ver.h:38-46 | the packed word reads back each component masked to 10 bits, with a zero reserved field |
| ModuleApiVersion.PackThenRead | src/include/module/module/api_ver.h:23-31 | packing components that fit and reading them back is the identity |
| ModuleApiVersion.ReadThenPack | src/include/module/module/api_ver.h:23-31 | a word with a zero reserved field is the packing of its own fields |
| ModuleApiVersion.DeclareApiVersion | src/include/module/module/api_ver.h:13-46 | the build info has format 0x80000000 and API version 5.0.0 |
| ModuleHandle.ModuleAlignSize | src/include/module/module/handle.h:34 | the result is the least count of alignment units that covers the size |
| ModuleHandle.PlaceholderSize | src/include/module/module/handle.h:59-61 | the placeholder is aligned and strictly larger than the instance data, by at most one alignment unit |
| ModuleHandle.PlaceholderLength | src/include/module/module/handle.h:62-63 | the placeholder's words hold its bytes |
| ModuleHandle.SlotInsideArray | src/include/module/module/handle.h:65-66 | every instance's slot lies inside the placeholder array and holds the instance data |
| ModuleHandle.SlotsDisjoint | src/include/module/module/handle.h:79-81 | the slots of two different instances do not overlap |
| ModuleHandle.InstanceSlot | src/include/module/module/handle.h:79-81 | the first word of an instance's slot, whose bounds `SlotInsideArray` and `SlotsDisjoint` prove |
| ModuleHandle.PlaceholderWords | src/include/module/module/handle.h:65-66 | the words of the placeholder array, one placeholder per instance |
| ModuleHandle.HandleBufferWords | src/include/module/module/handle.h:28-29 | the handle buffer has the least count of pointer-sized words that holds the pass buffer |
| ModuleHandle.HandleBufferIsAlignSize | src/include/module/module/handle.h:28-34 | the handle buffer is sized by `MODULE_ALIGN_SIZE` |
| MixinLookup.UnityGainIs0x400 | src/audio/mixin_mixout/mixin_mixout.h:88-89 | unity gain is 1 shifted by the gain shift, 0x400 |
| MixinLookup.FirstMatch | src/audio/mixin_mixout/mixin_mixout.h:140-146 | the result is the first table entry for the format, or none when no entry has it |
| MixinLookup.GetProcessingFunctions | src/audio/mixin_mixout/mixin_mixout.h:132-149 | the lookup succeeds exactly when the format is listed, and then returns the first matching entry's functions; otherwise both are NULL |
| MixinLookup.FoundExactlyWhenListed | src/audio/mixin_mixout/mixin_mixout.h:132-149 | a format is found exactly when some entry lists it |
| Glitch.PosDiffAdvances | src/lib/glitch.c:242-252 | the distance is below the buffer size, and moving the previous position by it lands on the current one, modulo the buffer |
| Glitch.CalcPosDiff | src/lib/glitch.c:242-252 | the distance in `uintptr_t` arithmetic from the previous to the current position around the ring, whose meaning `PosDiffAdvances` proves |
| Glitch.TicksWrap | src/lib/glitch.c:284-293 | after `n` ticks the counter is the start plus `n` modulo 1000, and printing is on exactly in the last nine ticks of each thousand |
| Glitch.NextTick | src/lib/glitch.c:288-290 | one tick counts up and goes back to 0 at 1000, as `TicksWrap` proves over many ticks |
| Glitch.LlTicker.constructor | src/lib/glitch.c:284 | the counter starts at 0 and printing is off |
| Glitch.LlTicker.Begin | src/lib/glitch.c:286-293 | one tick advances the counter modulo 1000 and turns printing on exactly in the print window |
| Glitch.MarkBytes | src/lib/glitch.c:97-104 | the mark is no longer than the debug size, nor than one frame (in 32-bit arithmetic) |
| Glitch.MarkSplit | src/lib/glitch.c:99-110 | the mark splits into a head up to the buffer end and a tail, which is non-empty exactly when the mark crosses the end |
| Glitch.MarkBuffer | src/lib/glitch.c:97-118 | the head is filled with the fill symbol's high byte and the wrapped tail with its low byte, and nothing else changes |
| Glitch.AbsDiff | src/lib/glitch.c:165 | corrected, see Findings: the difference is non-negative and is one of the two subtractions |
| Glitch.FindGlitch | src/lib/glitch.c:145-176 | corrected, see Findings: the search reports a glitch exactly when some sample jumps by more than `ALLOWED_DIFF` from the previous sample of its channel (around the ring) |
| Glitch.HasGlitch | src/lib/glitch.c:145-176 | the specification `find_glitch` is proved against: some sample past the first frame jumps from the same channel's sample one frame earlier |
| Glitch.CheckBufferConnect | src/lib/glitch.c:179-216 | corrected, see Findings: with more than two channels nothing is checked or kept; with no channels nothing is read, no glitch is reported and the history is kept; otherwise a glitch is reported exactly when a channel's first sample jumps from its kept sample, and the kept samples become the frame before the chunk's end, wrapped at either end of the buffer (for an empty chunk, the frame before the pointer) |
| Glitch.CompareFirstFrame | src/lib/glitch.c:192-204 | a glitch is reported exactly when some channel's first sample jumps from its kept sample |
| Glitch.CopyLastFrame | src/lib/glitch.c:206-213 | the kept samples become the buffer's last frame |
| Glitch.LastFrameAligned | src/lib/glitch.c:206-213 | the last frame starts on a frame boundary inside the buffer, also for an empty chunk |
| Glitch.EmptyChunkReadsBeforeBuffer | src/lib/glitch.c:206-210 | for an empty chunk at the buffer start, the position as written is one frame before the buffer, while the frame before the chunk is the buffer's last |
| Glitch.LastFramePosAgrees | src/lib/glitch.c:206-210 | when the chunk ends at least a frame past the buffer start, the position as written is the corrected one |
| Glitch.Int32 | src/lib/glitch.c:162-165 | the stored difference is in the `int32_t` range |
| Glitch.AsWrittenMissesFullScaleJump | src/lib/glitch.c:165 | the 32-bit difference as written misses a full-scale jump |
| Glitch.AsWrittenAgreesWithoutOverflow | src/lib/glitch.c:165 | when the difference fits in 32 bits, the code as written and the intended check agree |
| VmhBitmaps.SetRegion | zephyr/lib/regions_mm.c:451-453 | exactly the bits of the region take the value |
| VmhBitmaps.ContinuationCount | zephyr/lib/regions_mm.c:563-612 | the count is the length of the run of set size bits from the position |
| VmhBitmaps.AllocThenFree | zephyr/lib/regions_mm.c:444-453 | recording an allocation keeps the run encoding, makes the position a run start whose run decodes to the allocation, and clearing both bitmaps restores them |
| VmhBitmaps.RunLengthIs | zephyr/lib/regions_mm.c:563-612 | the decoded run length is the length of the set run |
| VmhBitmaps.FreeDecodedRun | zephyr/lib/regions_mm.c:563-619 | the decoded run of an allocation start is allocated, and freeing it keeps the encoding |
| VmhBitmaps.FreeKeepsWellFormed | zephyr/lib/regions_mm.c:613-619 | clearing a run from a run start keeps the encoding well formed |
| VmhBitmaps.FreeOfFreeBlock | zephyr/lib/regions_mm.c:563-619 | a free block decodes to a run of one, which is not allocated |
| VmhBitmaps.ScanRunLength | zephyr/lib/regions_mm.c:563-612 | the scan counts the blocks of the run, one more than its set size bits |
| VmhPages.MapRegionBoundaries | zephyr/lib/regions_mm.c:247-279 | the page span to map: the pages of the allocation, minus a first or last page that other live blocks use |
| VmhPages.RegionPages | zephyr/lib/regions_mm.c:291-335 | the span is page aligned and lies in the bundle |
| VmhPages.MmDriver.constructor | zephyr/lib/regions_mm.c:291-312 | the page table starts with nothing mapped |
| VmhPages.MmDriver.MapPages | zephyr/lib/regions_mm.c:305 | mapping adds only pages of the span; on success every page of the span is mapped, otherwise -ENOMEM |
| VmhPages.MmDriver.UnmapPages | zephyr/lib/regions_mm.c:329 | the span's pages are removed, and -EFAULT is returned exactly when one of them was not mapped |
| VmhPages.MapRegion | zephyr/lib/regions_mm.c:291-312 | on success the region's pages are added, and on failure they are all unmapped again |
| VmhPages.UnmapRegion | zephyr/lib/regions_mm.c:323-335 | the region's pages are removed, with success exactly when all of them were mapped |
| VmhPages.RegionPagesSpareLiveBlocks | zephyr/lib/regions_mm.c:262-269 | the span never contains the page of a live block outside the allocation |
| VmhPages.RegionPagesSpareLiveBlockPages | zephyr/lib/regions_mm.c:291-335 | the span contains no page holding any byte of a live block outside the allocation; for blocks of a page or more that is every page the block spans |
| VmhPages.LargeSpanSparesBlock | zephyr/lib/regions_mm.c:297-299 | for blocks of a page or more, the page-rounded range holds no page of any block outside the allocation |
| VmhPages.BlockPageInBundle | zephyr/lib/regions_mm.c:291-335 | every page holding a byte of a block lies in the block's bundle |
| VmhPages.RegionPagesCoverRun | zephyr/lib/regions_mm.c:247-279 | every block of the allocation is on a page of the span or on a page a live block shares |
| VmhPages.BlocksUsedIff | zephyr/lib/regions_mm.c:228-234 | a range of blocks is in use exactly when an allocated block starts in it |
| VmhPages.RangeUsedIff | zephyr/lib/regions_mm.c:228-234 | a block-aligned address range is in use exactly when an allocated block starts in it |
| VmhPages.RegionUsed | zephyr/lib/regions_mm.c:228-234 | `vmh_is_region_used`, whose meaning `BlocksUsedIff` and `RangeUsedIff` prove |
| VmhHeap.AllocInBundle | zephyr/lib/regions_mm.c:404-453 | the allocation's blocks are set, and the bundle keeps its memory and size |
| VmhHeap.BitarrayFreeError | zephyr/lib/regions_mm.c:613-626 | the block allocator's free succeeds exactly when every bit to free is set; otherwise -EINVAL or -EFAULT |
| VmhHeap.FreeInBundle | zephyr/lib/regions_mm.c:556-626 | a successful free clears exactly the allocated run starting at the block and keeps the bundle's geometry; a refusal is a negative error |
| VmhHeap.DecodeFree | zephyr/lib/regions_mm.c:556-626 | the decoding loop and the frees give the outcome `FreeInBundle` describes |
| VmhHeap.FindBundle | zephyr/lib/regions_mm.c:538-554 | the result is the first bundle whose memory holds the pointer, or none |
| VmhHeap.FindBundleAsWritten | zephyr/lib/regions_mm.c:538-554 | where the lookup as written finds a bundle, it is the corrected lookup's bundle |
| VmhHeap.ForeignPointerReachesEmptySlot | zephyr/lib/regions_mm.c:541-548 | a pointer outside every bundle makes the lookup as written read an empty slot |
| VmhHeap.NoBundleFrom | zephyr/lib/regions_mm.c:538-554 | past the last bundle, no slot matches |
| VmhHeap.BlocksAlloc | zephyr/lib/regions_mm.c:402-410 | the block allocator returns the first free run of the count, or -ENOMEM when there is none |
| VmhHeap.AllocFreeRoundTrip | zephyr/lib/regions_mm.c:354-630 | freeing an allocation's first block gives back exactly the bundle before the allocation |
| VmhHeap.RoundTripContiguous | zephyr/lib/regions_mm.c:444-619 | in contiguous mode, free after alloc restores the bundle |
| VmhHeap.RoundTripSingle | zephyr/lib/regions_mm.c:404-410 | in single-block mode, free after alloc restores the bundle |
| VmhHeap.FreeInsideRunRefused | zephyr/lib/regions_mm.c:586-587 | freeing a pointer inside an allocation is refused with -EINVAL |
| VmhHeap.FreeOfFreeBlockRefused | zephyr/lib/regions_mm.c:613-626 | freeing an unallocated block is refused with -EFAULT |
| VmhHeap.FreeKeepsBundleWellFormed | zephyr/lib/regions_mm.c:613-623 | a successful free keeps the run encoding |
| VmhHeap.RollbackRestores | zephyr/lib/regions_mm.c:469-474 | the corrected failure path gives back the bundle as it was before the allocation |
| VmhHeap.RollbackAsWrittenLeaksBlock | zephyr/lib/regions_mm.c:469-474 | the failure path as written leaves a size bit set, so a later single block there cannot be freed |
| VmhHeap.RollbackAllocAsWritten | zephyr/lib/regions_mm.c:469-474 | the failure path as written: only the allocation bits are cleared |
| VmhHeap.RollbackAlloc | zephyr/lib/regions_mm.c:469-474 | corrected, see Findings: the failure path clears the allocation bits and the size bits of the run |
| VmhHeap.OtherBundleStaysBacked | zephyr/lib/regions_mm.c:291-335 | page changes in one bundle leave every other bundle's live blocks mapped, and leave every page of every block of the other bundles as it was |
| VmhHeap.AllocStaysBacked | zephyr/lib/regions_mm.c:467 | after mapping a new allocation's pages, every live block of the bundle is on a mapped page |
| VmhHeap.FailedAllocStaysBacked | zephyr/lib/regions_mm.c:469-474 | undoing a failed mapping leaves the other live blocks backed, and every mapped page holding a byte of a live block stays mapped |
| VmhHeap.FreeStaysBacked | zephyr/lib/regions_mm.c:628-629 | unmapping a freed run's pages leaves the remaining live blocks backed, and every mapped page holding a byte of a remaining live block stays mapped |
| VmhHeap.RequestedBytesMapped | zephyr/lib/regions_mm.c:467 | every byte of a mapped allocation lies on a mapped page |
| VmhHeap.RunPagesIgnoreRun | zephyr/lib/regions_mm.c:247-335 | the pages of a run depend on the bitmaps only outside the run |
| VmhHeap.SmallRegionPagesSame | zephyr/lib/regions_mm.c:247-279 | for blocks under a page, the boundaries look only at live blocks outside the allocation |
| VmhHeap.AllocThenFreeUnmapsMapped | zephyr/lib/regions_mm.c:628-629 | corrected, see Findings: with the whole run mapped at allocation (line 467 as corrected), freeing it at its first block restores the bundle and unmaps only mapped pages, so the driver reports success |
| VmhHeap.LargeFreeUnmapsUnmapped | zephyr/lib/regions_mm.c:467-468 | a 9000-byte allocation in a 64 KiB block, mapped as written, is freed by unmapping page 3 (lines 628-629), which was never mapped |
| VmhHeap.AllocKeepsValid | zephyr/lib/regions_mm.c:444-453 | an allocation changes only the bitmaps |
| VmhHeap.FindServingBundle | zephyr/lib/regions_mm.c:378-410 | the chosen bundle is the first that can serve the size; none is chosen when no bundle can |
| VmhHeap.LocateBundle | zephyr/lib/regions_mm.c:538-554 | the lookup loop finds exactly the bundle `FindBundle` names |
| VmhHeap.VmHeap.constructor | zephyr/lib/regions_mm.c:195-197 | the heap holds the given core, region, mode and bundles |
| VmhHeap.VmHeap.Alloc | zephyr/lib/regions_mm.c:354-477 | corrected, see Findings: `vmh_alloc` refuses a zero size and a foreign core, and allocates at the first free run of the first bundle that can serve; every byte of the run, and so every requested byte, is then on a mapped page, and the layout and backing invariants hold |
| VmhHeap.VmHeap.AllocRun | zephyr/lib/regions_mm.c:444-474 | corrected, see Findings: the run is recorded and the pages of the whole run are mapped, or on a mapping failure everything is undone |
| VmhHeap.VmHeap.UndoAlloc | zephyr/lib/regions_mm.c:469-474 | corrected, see Findings: after a failed map the bundles are as they were before the allocation, and the pages outside the region are untouched |
| VmhHeap.VmHeap.Free | zephyr/lib/regions_mm.c:526-630 | `vmh_free` refuses a foreign core or a pointer in no bundle with -EINVAL; otherwise it frees as `FreeInBundle` decodes, unmaps exactly the freed pages no live block uses, and keeps the invariants |
| VmhHeap.VmHeap.FreeBlocks | zephyr/lib/regions_mm.c:556-630 | the bundle changes as `FreeInBundle` says, and the freed pages are unmapped |
| VmhRegistry.PrefixAligned | zephyr/lib/regions_mm.c:70-93 | under a fitting configuration every prefix of the bundles fits the region and ends on a page |
| VmhRegistry.BuiltLayoutValid | zephyr/lib/regions_mm.c:98-189 | the bundles built from a fitting configuration are valid, disjoint, in order, inside the region and empty |
| VmhRegistry.BuiltBundleEnd | zephyr/lib/regions_mm.c:98-189 | each bundle ends where the memory of the entries up to it ends |
| VmhRegistry.StaticHeapBuffers | zephyr/lib/alloc.c:262-274 | the static configuration has ten entries |
| VmhRegistry.StaticConfigFits | zephyr/lib/alloc.c:262-274 | the static configuration takes exactly 1 MiB, and it fits a region exactly when the region has at least 1 MiB |
| VmhRegistry.DefaultHeapConfig | zephyr/lib/regions_mm.c:669-684 | the configuration filled in is `DefaultConfig(region)`: entry `i` of it has block size `DCACHE_LINE_SIZE << i` (64, 128, 256, 512, 1024) and as many blocks as fill one of five equal page-aligned shares of the region; the other entries are unused, and the configuration fits the region |
| VmhRegistry.DefaultBlockSizes | zephyr/lib/regions_mm.c:677-678 | the five default block sizes are 64, 128, 256, 512 and 1024 bytes |
| VmhRegistry.DefaultConfigFits | zephyr/lib/regions_mm.c:669-684 | five shares of a fifth of the region, rounded down to pages, fit it |
| VmhRegistry.HeapRegistry.constructor | zephyr/lib/regions_mm.c:12 | the registry starts with no heaps |
| VmhRegistry.HeapRegistry.GetHeapByAttribute | zephyr/lib/regions_mm.c:696-727 | the result is a listed heap for the core or attribute, or null when none matches |
| VmhRegistry.HeapRegistry.SelectRegion | zephyr/lib/regions_mm.c:51-68 | the region is the core's own for the core-heap attribute, otherwise the first non-core region with the attribute; none only when no non-core region has it |
| VmhRegistry.HeapRegistry.CheckConfig | zephyr/lib/regions_mm.c:70-93 | corrected, see Findings: the check accepts exactly the configurations that fit the region |
| VmhRegistry.PrefixTotalAsWritten | zephyr/lib/regions_mm.c:79-91 | as written, the running total of the configuration check stays below 2^32: it is kept in a 32-bit `size_t` and wraps |
| VmhRegistry.PrefixTotalNoWrap | zephyr/lib/regions_mm.c:79-91 | while the true total stays below 2^32, the wrapped running total equals it |
| VmhRegistry.ConfigChecksAgree | zephyr/lib/regions_mm.c:79-93 | for a configuration of less than 4 GiB in all, the check as written and the exact check accept the same configurations |
| VmhRegistry.ExactCheckStricter | zephyr/lib/regions_mm.c:79-93 | on a region below 4 GiB, every configuration the exact check accepts passes the check as written |
| VmhRegistry.WrappedTotalAccepted | zephyr/lib/regions_mm.c:86-91 | one bundle of 2^20 page-sized blocks passes the check as written, fails the exact check, and is laid out to end 4 GiB past the region base |
| VmhRegistry.HeapRegistry.BuildBundles | zephyr/lib/regions_mm.c:98-189 | the build loop yields the bundles `BuiltBundles` describes |
| VmhRegistry.HeapRegistry.InitHeap | zephyr/lib/regions_mm.c:28-217 | `vmh_init_heap` refuses a key some heap already has and a configuration that fits no region; a new heap takes the core's own region or the first non-core region with the attribute, and is appended with empty bundles built from the given configuration, or from `DefaultConfig` of its region when none is given |
| VmhRegistry.HeapRegistry.AppendHeap | zephyr/lib/regions_mm.c:195-197 | the new heap goes to the end of the list |
| VmhRegistry.HeapRegistry.UniqueRegion | zephyr/lib/regions_mm.c:36-37 | a region chosen for an unmatched key is used by no listed heap |
| VmhRegistry.HeapRegistry.FreeHeap | zephyr/lib/regions_mm.c:488-512 | `vmh_free_heap` succeeds exactly when no block is allocated, and then removes the heap; otherwise -ENOTEMPTY and nothing changes |
| VmhRegistry.HeapRegistry.ReconfigureHeap | zephyr/lib/regions_mm.c:646-656 | a heap with live allocations is not reconfigured and the list is unchanged. Otherwise the heap is taken off the list, and the list ends with the new heap when `vmh_init_heap` builds one. The rebuild is refused when another heap has the key or the configuration fits no region. A new heap has the core, the mode and the first non-core region with the old heap's attribute (the core's own region for a core heap), is valid and empty, and has the bundles built from the given configuration, or from `DefaultConfig` of its region when none is given |
| VmhRegistry.AllocatedHeapNotEmpty | zephyr/lib/regions_mm.c:492-498 | a heap holding an allocation is not empty, so freeing it is refused |

## Left out

- Heap memory is modelled as addresses and bitmaps. The bytes stored in the blocks, the `sys_mem_blocks` internals and the `sys_bitarray` code are not part of this model. Block placement is the first free run (`VmhHeap.BlocksAlloc`).
- The memory-management driver's page table is a set of mapped page numbers in `VmhPages.MmDriver`. A failure to map is a nondeterministic `-ENOMEM`. Unmapping a page that is not mapped removes it and reports `-EFAULT`.
- `cpu_get_id()` is a parameter of `VmHeap.Alloc` and `VmHeap.Free`. Spinlocks, concurrency, cache writeback and invalidation, and the uncached aliases of addresses are left out.
- VmhHeap.VmHeap.Free: requires a pointer inside a bundle to be block-aligned. The source takes this for granted and does not check it.
- VmhRegistry.HeapRegistry.InitHeap: the out-of-memory paths of `vmh_init_heap` (rfree of partial bundles, lines 198-216) are not modelled. The heap's own memory is not allocated in this model.
- Constants whose defining headers are not part of this model take these values:
  - `MEM_REG_ATTR_CORE_HEAP` is 1;
  - `SOF_IPC4_GLB_NOTIFICATION` is 27, and `SOF_IPC4_MESSAGE_DIR_MSG_REQUEST` and `SOF_IPC4_MESSAGE_TARGET_FW_GEN_MSG` are 0;
  - the IPC4 structure sizes are 40 bytes (`BASE_MODULE_CFG_SIZE`), 16 bytes (`BASE_MODULE_CFG_EXT_SIZE`) and 32 bytes (`PIN_FORMAT_SIZE`);
  - `CONFIG_MM_DRV_PAGE_SIZE` is 4096, `MAX_MEMORY_ALLOCATORS_COUNT` 10, `DEFAULT_CONFIG_ALOCATORS_COUNT` 5 and `DCACHE_LINE_SIZE` 64;
  - `size_t` and `intptr_t` are 32 bits wide;
  - the error numbers are `EBUSY` 16, `ENODATA` 61, `EINVAL` 22, `ENOMEM` 12, `EFAULT` 14 and `ENOTEMPTY` 39.
- Of `zephyr/lib/alloc.c` only the `static_hp_buffers` table is modelled. The heap front end that calls `vmh_alloc` is not part of this model.
- The sink and source backends (`struct sink_ops`, `struct source_ops`) are pure functions of their arguments. Their buffers are not modelled, and the pointers they return are left out.
- Buffers in the down-mixer and the glitch detector are counted in samples, not bytes. A sample is an unbounded integer, truncated explicitly where the source casts.
- DownMixerModule.DownMixer.Process: the sample buffers are parameters rather than the pointers the fragments return. The down-mixer's `comp_err` logging is left out.
- The down-mixer's `process_raw_data` and `passthrough_codec_process` are left out. So are `prepare` and `free`, which are stubs, and the module manifest and entry point. `set_configuration` and `get_configuration` sit inside `#if 0` and are not compiled.
- DownMixerModule.DownMixer.Init: requires that the message really holds as many pin formats as its size claims, because the model cannot read past the end of a sequence.
- Glitch.FindGlitch: requires at least one frame (`bytes / sampleBytes >= channels`). Otherwise `samples -= channels` wraps around in the source's unsigned arithmetic.
- Some parts of `glitch.c` are left out because they are debug wiring and logging: `mark_end`, the `comp_err` messages, the `glitch_config` table, the copier callbacks, pointer saving and printing, and `glitcher_ll_end`.
- VmhRegistry.HeapRegistry.CheckConfig: adds up the configuration exactly, with no 32-bit wrap. This is the correction of the Findings row for lines 86-91; the wrapped sum as written is `VmhRegistry.PrefixTotalAsWritten`. Under the exact check the `uint32_t offset` of lines 98 and 187-188 never exceeds the region size, so it cannot wrap for a region below 4 GiB.
- VmhRegistry.HeapRegistry.InitHeap: uses the exact check of `CheckConfig`, not the wrapping check as written.
- VmhRegistry.HeapRegistry.ReconfigureHeap: rebuilds through `InitHeap`, so it uses the exact check too.
- VmhHeap.VmHeap.AllocRun: on a mapping failure it also clears the size bits (`UndoAlloc`). This is the correction of the Findings row for lines 469-474, which clear only the allocation bits.
- VmhHeap.VmHeap.Alloc: its failure path is the corrected `AllocRun`, and it maps the pages of the whole block-rounded run, the pages `vmh_free` unmaps. Line 467 maps only `ALIGN_UP(alloc_size)` (Findings).
- VmhHeap.VmHeap.AllocRun: maps the pages of the whole run, not the requested size rounded up to pages as line 467 does (Findings).
- VmhHeap.VmHeap.UndoAlloc: is the corrected failure path of lines 469-474.
- VmhHeap.RollbackAlloc: is the corrected failure path of lines 469-474; the code as written is `RollbackAllocAsWritten`.
- Glitch.AbsDiff: takes the difference of two samples in unbounded arithmetic. The `int32_t` subtraction of lines 165 and 196 wraps; that subtraction is `JumpAsWritten` (Findings).
- Glitch.FindGlitch: reports jumps measured with the corrected `AbsDiff`, not the wrapping difference of line 165.
- Glitch.CheckBufferConnect: measures with the corrected `AbsDiff`, not the wrapping difference of line 196.
- Glitch.CheckBufferConnect: wraps the last-frame position at the buffer start as well as at its end. Lines 206-210 wrap only at the end, so an empty chunk at the buffer start reads the frame before `stream.addr`; that position is `Glitch.LastFramePosAsWritten` (Findings).
- Glitch.CheckBufferConnect: requires the buffer, the pointer and the chunk to be whole frames and the chunk to be no longer than the buffer, as the copier hands them over. The source does not check this.
- DownMixerKernel.ChunkFrames: leaves out the reference input's wrap point when that input is not mixed, and caps the chunk at the frames remaining. Lines 413-421 divide by 0 in the first case and do not cap the chunk (Findings).
- DownMixerKernel.NextChunk: caps the chunk at the frames remaining, which lines 413-421 do not (Findings).
- DownMixerKernel.ChunkFrameMix: reads input 1 with its own channel stride on the 16-bit path as well. Line 436 uses input 0's stride (Findings).
- DownMixerModule.DownMixer.TakeFragments: reads `sources[1]` only when there are at least two sources. Line 371 tests only that there is some source (Findings).
- DownMixerModule.DownMixer.HandBack: releases source 1 whenever it was obtained, with 0 bytes when it was not mixed. Lines 483-484 release it only when mixed (Findings).
- DownMixerModule.DownMixer.MixAndHandBack: runs the corrected kernel and the corrected `HandBack`.
- DownMixerModule.DownMixer.Process: is `process` with every correction of the down-mixer rows of Findings; `DownMixerAsWritten` holds the code as written.
- DownMixerModule.UsesSource1: tests for at least two sources. Line 371 tests `num_of_sources` only for being non-zero, so it also reads `sources[1]` with one source; the code as written is `DownMixerAsWritten.UsesSource1AsWritten` (see Findings).
- VmhPages.MapRegionBoundaries: its contract gives the span by its defining formula. Its properties are stated in `RegionPagesSpareLiveBlocks` and `RegionPagesCoverRun`.
- `Ipc4Notification`: only the FW_READY and watchdog-timeout notifications are modelled. The other notification types are header constants with no code.

## Findings

| source | as written | input that shows it | evidently intended | confidence | as-written member | corrected member |
|---|---|---|---|---|---|---|
| zephyr/lib/regions_mm.c:469-474 | when mapping fails, `vmh_alloc` frees the blocks but leaves the size bits it set | in contiguous mode, a two-block allocation at block 0 (64-byte blocks) whose mapping fails; a one-block allocation later made at block 1 can never be freed, as `vmh_free` returns -EINVAL for it | clear the size bits as well, giving back the bundle unchanged | not executed | VmhHeap.RollbackAsWrittenLeaksBlock | VmhHeap.RollbackRestores |
| zephyr/lib/regions_mm.c:86-91 | the running total is a 32-bit `size_t`, so a product or a sum of 4 GiB or more wraps before it is compared with the region size | one bundle of 2^20 blocks of 4096 bytes: the product wraps to 0, the check passes, and the bundle is laid out 4 GiB long from the region base | refuse a configuration whose total does not fit in 32 bits, so that every bundle lies inside the region | not executed | VmhRegistry.WrappedTotalAccepted | VmhRegistry.HeapRegistry.CheckConfig |
| zephyr/lib/regions_mm.c:541-548 | the lookup loop dereferences every slot, including unused (NULL) ones | a heap with one bundle and a pointer outside it: the loop reaches slot 1, which is NULL | skip unused slots, as `vmh_alloc` does | not executed | VmhHeap.ForeignPointerReachesEmptySlot | VmhHeap.LocateBundle |
| lmdk/modules/down_mixer/downmixer.c:415 | the chunk size divides by `input1_frame_bytes` even when there is no reference input, where it is 0 | no second source, or a reference pin with no channels | compute the reference's wrap only when it is mixed | not executed | DownMixerAsWritten.LoopFramesDividesByZero | DownMixerKernel.ChunkFrames |
| lmdk/modules/down_mixer/downmixer.c:413-421 | the chunk is not capped by the frames still to process | 1 frame to process with 4 frames to every wrap: 4 frames are mixed and written | cap the chunk at the frames remaining | not executed | DownMixerAsWritten.LoopFramesOverrun | DownMixerKernel.NextChunk |
| lmdk/modules/down_mixer/downmixer.c:436 | the 16-bit path reads input 1 with input 0's channel count as its stride | input 0 with 2 channels, input 1 with 1 channel: frame 1 reads input 1's sample 2, not sample 1 | use input 1's channel count, as the 32-bit path does | not executed | DownMixerAsWritten.In1StrideAsWritten16 | DownMixerKernel.ChunkFrameMix |
| lmdk/modules/down_mixer/downmixer.c:371 | the guard tests `num_of_sources` for non-zero and so accesses `sources[1]` with one source | one source with a configured reference pin | test for at least two sources | not executed | DownMixerAsWritten.UsesSource1PastEnd | DownMixerModule.UsesSource1 |
| lmdk/modules/down_mixer/downmixer.c:483-484 | source 1's fragment is released only when it was mixed, though it is obtained whenever it is read | reference data no larger than input 0's, or bypass mode: the next `process` gets -EBUSY from source 1 | release source 1's fragment whenever it was obtained (with 0 bytes when unmixed) | not executed | DownMixerAsWritten.Source1LeftOutstanding | DownMixerAsWritten.Source1HandedBack |
| src/lib/glitch.c:206-210 | the position of the chunk's last frame is wrapped only past the buffer end, never below its start | a copy of 0 bytes with the read pointer at the buffer start: the history is loaded from the frame before `stream.addr` | wrap below the start as well, giving the frame just before the pointer | not executed | Glitch.EmptyChunkReadsBeforeBuffer | Glitch.CheckBufferConnect |
| zephyr/lib/regions_mm.c:467 | `vmh_alloc` maps only the requested size rounded up to pages, while `vmh_free` unmaps the whole block-rounded run (lines 628-629) | in the fixed-mode heap of `static_hp_buffers`, a 9000-byte allocation in a 64 KiB block: the free unmaps pages that were never mapped, the driver reports -EFAULT, and `virtual_heap_free` panics | map the whole run, so that the free unmaps exactly what the allocation mapped | not executed; plausible: it rests on the driver reporting -EFAULT for a page that is not mapped | VmhHeap.LargeFreeUnmapsUnmapped | VmhHeap.AllocThenFreeUnmapsMapped |
| src/lib/glitch.c:165 | the difference of two `int32_t` samples is computed in 32 bits and overflows (the same expression is at line 196) | last sample `INT32_MAX`, next `INT32_MIN`: the jump is not reported | compute the difference in a wider type | not executed | Glitch.AsWrittenMissesFullScaleJump | Glitch.FindGlitch |

=== FILE: align.dfy ===
/**
 * Alignment arithmetic shared by the heap and its page mapper: `ALIGN_DOWN`,
 * `ALIGN_UP`, `SOF_DIV_ROUND_UP` and the power-of-two test, together with the
 * facts about multiples that the page proofs rest on.
 */
module Align {

  /** A positive integer that is a power of two (Zephyr `is_power_of_2`, for non-zero values). */
  predicate IsPowerOfTwo(n: nat)
    decreases n
  {
    n == 1 || (n >= 2 && n % 2 == 0 && IsPowerOfTwo(n / 2))
  }

  /** `SOF_DIV_ROUND_UP(x, a)`: the number of `a`-sized pieces needed to hold `x`. */
  function DivRoundUp(x: nat, a: nat): (r: nat)
    requires a > 0
    ensures r * a >= x
    ensures r == 0 || (r - 1) * a < x
  {
    DivModUnique(x + a - 1, a, (x + a - 1) / a, (x + a - 1) % a);
    (x + a - 1) / a
  }

  /** `ALIGN_DOWN(x, a)`: the largest multiple of `a` that is not above `x`. */
  function AlignDown(x: nat, a: nat): (r: nat)
    requires a > 0
    ensures r <= x < r + a
    ensures r % a == 0
  {
    MulModZero(x / a, a);
    (x / a) * a
  }

  /** `ALIGN_UP(x, a)`: the smallest multiple of `a` that is not below `x`. */
  function AlignUp(x: nat, a: nat): (r: nat)
    requires a > 0
    ensures x <= r < x + a
    ensures r % a == 0
  {
    MulModZero(DivRoundUp(x, a), a);
    DivRoundUp(x, a) * a
  }

  // ---------------------------------------------------------------------
  // Division and multiples
  // ---------------------------------------------------------------------

  lemma DivModUnique(x: int, d: int, q: int, r: int)
    requires d > 0 && x == q * d + r && 0 <= r < d
    ensures x / d == q && x % d == r
  {
    var q', r' := x / d, x % d;
    assert x == q' * d + r';
    if q' < q {
      assert q * d - q' * d == (q - q') * d;
      MulAtLeast(q - q', d);
    } else if q' > q {
      assert q' * d - q * d == (q' - q) * d;
      MulAtLeast(q' - q, d);
    }
  }

  lemma DivIsNat(x: nat, d: nat)
    requires d > 0
    ensures x / d >= 0
  {
    DivModUnique(x, d, x / d, x % d);
  }

  lemma MulAtLeast(k: int, d: int)
    requires k >= 1 && d > 0
    ensures k * d >= d
  {
    assert k * d == (k - 1) * d + d;
    assert (k - 1) * d >= 0;
  }

  lemma MulModZero(k: nat, d: nat)
    requires d > 0
    ensures (k * d) % d == 0
  {
    DivModUnique(k * d, d, k, 0);
  }

  /** Two multiples of `d` that are less than `d` apart are equal. */
  lemma MultipleUnique(y1: nat, y2: nat, d: nat)
    requires d > 0 && y1 % d == 0 && y2 % d == 0
    requires y1 <= y2 < y1 + d
    ensures y1 == y2
  {
    var k1, k2 := y1 / d, y2 / d;
    assert y1 == k1 * d && y2 == k2 * d;
    if k1 < k2 {
      assert k2 * d - k1 * d == (k2 - k1) * d;
      MulAtLeast(k2 - k1, d);
    } else if k1 > k2 {
      assert k1 * d - k2 * d == (k1 - k2) * d;
      MulAtLeast(k1 - k2, d);
    }
  }

  lemma MultipleAdd(x: nat, y: nat, d: nat)
    requires d > 0 && x % d == 0 && y % d == 0
    ensures (x + y) % d == 0
  {
    DivModUnique(x + y, d, x / d + y / d, 0);
  }

  lemma MultipleSub(x: nat, y: nat, d: nat)
    requires d > 0 && x % d == 0 && y % d == 0 && y <= x
    ensures (x - y) % d == 0
  {
    assert x == (x / d) * d && y == (y / d) * d;
    assert x - y == (x / d - y / d) * d;
    DivModUnique(x - y, d, x / d - y / d, 0);
  }

  /** A multiple of `m` is a multiple of every divisor `d` of `m`. */
  lemma MultipleTrans(x: nat, m: nat, d: nat)
    requires d > 0 && m > 0 && x % m == 0 && m % d == 0
    ensures x % d == 0
  {
    var a, b := x / m, m / d;
    assert x == a * m && m == b * d;
    assert x == (a * b) * d;
    DivModUnique(x, d, a * b, 0);
  }

  /** `AlignDown(x, a)` is the only multiple of `a` in `(x - a, x]`. */
  lemma AlignDownIs(x: nat, a: nat, y: nat)
    requires a > 0 && y % a == 0 && y <= x < y + a
    ensures AlignDown(x, a) == y
  {
    var z := AlignDown(x, a);
    if z <= y { MultipleUnique(z, y, a); } else { MultipleUnique(y, z, a); }
  }

  /** `AlignUp(x, a)` is the only multiple of `a` in `[x, x + a)`. */
  lemma AlignUpIs(x: nat, a: nat, y: nat)
    requires a > 0 && y % a == 0 && x <= y < x + a
    ensures AlignUp(x, a) == y
  {
    var z := AlignUp(x, a);
    if z <= y { MultipleUnique(z, y, a); } else { MultipleUnique(y, z, a); }
  }

  /** A multiple of `a` that is not above `x` is not above `AlignDown(x, a)`. */
  lemma AlignDownMaximal(x: nat, a: nat, y: nat)
    requires a > 0 && y % a == 0 && y <= x
    ensures y <= AlignDown(x, a)
  {
    var z := AlignDown(x, a);
    if y > z { MultipleUnique(z, y, a); }
  }

  /** A multiple of `a` that is not below `x` is not below `AlignUp(x, a)`. */
  lemma AlignUpMinimal(x: nat, a: nat, y: nat)
    requires a > 0 && y % a == 0 && x <= y
    ensures AlignUp(x, a) <= y
  {
    var z := AlignUp(x, a);
    if y < z { MultipleUnique(y, z, a); }
  }

  /** Of two powers of two, the smaller divides the larger. */
  lemma {:induction false} PowerOfTwoDivides(small: nat, big: nat)
    requires IsPowerOfTwo(small) && IsPowerOfTwo(big) && small <= big
    ensures big % small == 0
    decreases big
  {
    if small == big {
      DivModUnique(big, small, 1, 0);
    } else {
      assert big >= 2;
      assert small <= big / 2 by { PowerOfTwoHalfBound(small, big); }
      PowerOfTwoDivides(small, big / 2);
      var k := (big / 2) / small;
      assert big / 2 == k * small;
      assert big == (2 * k) * small;
      DivModUnique(big, small, 2 * k, 0);
    }
  }

  lemma {:induction false} PowerOfTwoHalfBound(small: nat, big: nat)
    requires IsPowerOfTwo(small) && IsPowerOfTwo(big) && small < big
    ensures small <= big / 2
    decreases small
  {
    if small == 1 {
      assert big >= 2;
    } else {
      assert small >= 2 && big >= 2;
      assert big / 2 > small / 2;
      PowerOfTwoHalfBound(small / 2, big / 2);
    }
  }
}

=== FILE: audio_endpoint.dfy ===
/**
 * What the sink and the source APIs share: the audio stream parameters and
 * the fragment protocol.
 *
 * An endpoint hands out at most one fragment at a time: a sink a piece of
 * free space to write (`sink_get_buffer`), a source a piece of data to read
 * (`source_get_data`). The endpoint remembers the size of the outstanding
 * fragment (0 when there is none) and counts the bytes that were committed
 * or released. The backend behind the endpoint is only asked for a fragment
 * while none is outstanding, and only asked to commit or release at most the
 * size it handed out.
 *
 * Sizes are the 32-bit `size_t` of the DSP, so the processed-bytes counter
 * wraps around.
 */
module AudioEndpoint {
  import opened Common

  const EBUSY: int := 16
  const ENODATA: int := 61

  /** One more than the largest `size_t` of the 32-bit DSP. */
  const SIZE_T_LIMIT: int := 0x1_0000_0000

  /** A `size_t`. */
  type SizeT = x: int | 0 <= x < SIZE_T_LIMIT

  /** A `uint32_t` (the same range as `size_t` on this DSP). */
  type U32 = SizeT

  /** `enum sof_ipc_frame`: the PCM frame formats. */
  datatype FrameFormat = S16_LE | S24_4LE | S32_LE | FLOAT | S24_3LE | S24_4LE_MSB | U8

  /** A snapshot of `struct sof_audio_stream_params`, as a backend's format callback sees it. */
  datatype AudioParams = AudioParams(frameFmt: FrameFormat, validSampleFmt: FrameFormat, rate: U32,
                                     channels: U32, bufferFmt: U32, overrunPermitted: bool)

  /**
   * `struct sof_audio_stream_params`: the parameters an endpoint points to.
   * The setters write one field each.
   */
  class StreamParams {
    var frameFmt: FrameFormat
    var validSampleFmt: FrameFormat
    var rate: U32
    var channels: U32
    var bufferFmt: U32
    var overrunPermitted: bool

    constructor (p: AudioParams)
      ensures Value() == p
    {
      frameFmt, validSampleFmt, rate := p.frameFmt, p.validSampleFmt, p.rate;
      channels, bufferFmt, overrunPermitted := p.channels, p.bufferFmt, p.overrunPermitted;
    }

    function Value(): AudioParams
      reads this
    {
      AudioParams(frameFmt, validSampleFmt, rate, channels, bufferFmt, overrunPermitted)
    }
  }

  /**
   * The result of an optional `on_audio_format_set` callback: what it
   * returns for the new parameters when it exists, 0 when it does not.
   */
  function FormatSetResult(callback: Option<AudioParams -> int>, p: AudioParams): (r: int)
    ensures callback.None? ==> r == 0
  {
    match callback
    case None => 0
    case Some(f) => f(p)
  }

  /** The largest `size_t`, the "MAXINT" a caller passes to commit or release everything. */
  const SIZE_MAX: SizeT := SIZE_T_LIMIT - 1

  /** `a + b` in `size_t`: the sum, less 2^32 when it overflows. */
  function AddSize(a: SizeT, b: SizeT): (r: SizeT)
    ensures a + b < SIZE_T_LIMIT ==> r == a + b
    ensures a + b >= SIZE_T_LIMIT ==> r == a + b - SIZE_T_LIMIT
  {
    (a + b) % SIZE_T_LIMIT
  }

  /**
   * The bookkeeping of an endpoint: the size of the outstanding fragment
   * (`requested_write_frag_size` / `requested_read_frag_size`, 0 for none)
   * and the processed-bytes counter (`num_of_bytes_processed`).
   */
  datatype Fragment = Fragment(outstanding: SizeT, processed: SizeT)

  /** The endpoint has no fragment outstanding. */
  predicate Idle(f: Fragment)
  {
    f.outstanding == 0
  }

  /**
   * Asking for a fragment of `req` bytes, where `backendRet` is what the
   * backend's `get_buffer` / `get_data` returns: the new bookkeeping and the
   * return code.
   */
  function Obtain(f: Fragment, req: SizeT, backendRet: int): (r: (Fragment, int))
    ensures r.0.processed == f.processed
    ensures !Idle(f) ==> r == (f, -EBUSY)
    ensures Idle(f) ==> r.1 == backendRet
    ensures r.0.outstanding == (if Idle(f) && backendRet == 0 then req else f.outstanding)
    ensures r.1 == 0 <==> Granted(f, backendRet)
  {
    if !Idle(f) then (f, -EBUSY)
    else if backendRet == 0 then (f.(outstanding := req), 0)
    else (f, backendRet)
  }

  /** A fragment is handed out: none was outstanding and the backend succeeded. */
  predicate Granted(f: Fragment, backendRet: int)
  {
    Idle(f) && backendRet == 0
  }

  /** The size actually committed or released: the request, cut down to the outstanding fragment. */
  function Clamp(size: SizeT, outstanding: SizeT): (n: SizeT)
    ensures n <= size && n <= outstanding
    ensures n == size || n == outstanding
  {
    if size > outstanding then outstanding else size
  }

  /**
   * Committing (sink) or releasing (source) `size` bytes, where `backendRet`
   * is what the backend returns when it is handed `Clamp(size, outstanding)`
   * bytes: the new bookkeeping and the return code.
   */
  function Finish(f: Fragment, size: SizeT, backendRet: int): (r: (Fragment, int))
    ensures Idle(f) ==> r == (f, -ENODATA)
    ensures !Idle(f) ==> r.1 == backendRet
    ensures !Idle(f) ==> r.0.processed == AddSize(f.processed, Clamp(size, f.outstanding))
    ensures !Idle(f) ==> (Idle(r.0) <==> backendRet == 0)
    ensures !Idle(f) && backendRet != 0 ==> r.0.outstanding == f.outstanding
    ensures r.0.processed == AddSize(f.processed, Clamp(size, f.outstanding))
    ensures backendRet == 0 ==> Idle(r.0)
  {
    if Idle(f) then (f, -ENODATA)
    else
      var n := Clamp(size, f.outstanding);
      (Fragment(if backendRet == 0 then 0 else f.outstanding, AddSize(f.processed, n)), backendRet)
  }

  /** `bytes / frameBytes` in C: the number of whole frames the bytes hold. */
  function Frames(bytes: SizeT, frameBytes: SizeT): (frames: SizeT)
    requires frameBytes > 0
    ensures frames * frameBytes <= bytes < (frames + 1) * frameBytes
  {
    bytes / frameBytes
  }

  // ---------------------------------------------------------------------
  // Properties of the protocol
  // ---------------------------------------------------------------------

  /**
   * While a fragment is outstanding, asking for another one is refused with
   * `-EBUSY` whatever the backend would say, and changes nothing: there is
   * never more than one fragment.
   */
  lemma AtMostOneFragment(f: Fragment, req: SizeT, req2: SizeT, ret2: int)
    requires Idle(f) && req > 0
    ensures var g := Obtain(f, req, 0).0;
            !Idle(g) && Obtain(g, req2, ret2) == (g, -EBUSY)
  {
  }

  /**
   * A fragment is recorded only when the backend hands it out: when the
   * backend fails, the endpoint stays idle and the failure is passed on.
   */
  lemma ObtainFailureLeavesIdle(f: Fragment, req: SizeT, backendRet: int)
    requires Idle(f) && backendRet != 0
    ensures Obtain(f, req, backendRet) == (f, backendRet)
  {
  }

  /**
   * Get followed by a successful commit (or release) of "MAXINT" hands back
   * the whole fragment: the endpoint is idle again and the counter has grown
   * by exactly the size obtained.
   */
  lemma ObtainThenFinishAll(f: Fragment, req: SizeT)
    requires Idle(f)
    ensures var (g, r1) := Obtain(f, req, 0);
            var (h, r2) := Finish(g, SIZE_MAX, 0);
            r1 == 0 && Idle(h) && h.processed == AddSize(f.processed, req) &&
            (req > 0 ==> r2 == 0)
  {
    var g := Obtain(f, req, 0).0;
    if req > 0 {
      assert Clamp(SIZE_MAX, g.outstanding) == req;
    }
  }

  /** Committing or releasing with nothing outstanding is refused with `-ENODATA` and changes nothing. */
  lemma FinishWhenIdleRefused(f: Fragment, size: SizeT, backendRet: int)
    requires Idle(f)
    ensures Finish(f, size, backendRet) == (f, -ENODATA)
  {
  }

  /**
   * The counter never grows by more than the outstanding fragment: at most
   * `outstanding` bytes are counted per call, whatever size the caller
   * passes and whatever the backend returns.
   */
  lemma FinishCountsAtMostOutstanding(f: Fragment, size: SizeT, backendRet: int)
    requires !Idle(f) && f.processed + f.outstanding < SIZE_T_LIMIT
    ensures f.processed <= Finish(f, size, backendRet).0.processed <= f.processed + f.outstanding
  {
  }

  /**
   * When the backend refuses a commit or release, the fragment stays
   * outstanding but its bytes are counted anyway; a retry that succeeds
   * counts them a second time.
   */
  lemma FailedFinishCountsTwice(f: Fragment, size: SizeT, err: int)
    requires !Idle(f) && err != 0
    ensures var g := Finish(f, size, err).0;
            var h := Finish(g, size, 0).0;
            Idle(h) && h.processed == AddSize(AddSize(f.processed, Clamp(size, f.outstanding)), Clamp(size, f.outstanding))
  {
  }
}

=== FILE: common.dfy ===
/** Small shared vocabulary: an optional value, used wherever the C code returns NULL. */
module Common {
  datatype Option<T> = None | Some(value: T)
}

=== FILE: downmixer.dfy ===
/**
 * The down-mixer module: its state, its `init` (the configuration
 * validator), its processing-mode operations and its `process`, which takes
 * a fragment from the sink and from each source it uses, runs the mixing
 * kernel over them and hands every fragment back.
 *
 * The sample buffers the backends hand out are parameters: `out` is the
 * sink's circular buffer, `in0` and `in1` the sources' circular buffers with
 * their read positions, all counted in samples rather than bytes.
 */
module DownMixerModule {
  import opened AudioEndpoint
  import opened SinkApi
  import opened SourceApi
  import opened DownMixerConfig
  import opened DownMixerKernel
  import opened Align

  /** `enum module_processing_mode`. */
  datatype ProcessingMode = Normal | Bypass

  /** The value `process` returns when it has done its work. */
  const PROCESS_SUCCEED: int := 0

  /**
   * Whether `process` asks the reference source (input 1) for data: pin 1
   * was configured and a second source is connected.
   */
  function UsesSource1(input1ChannelsCount: nat, numSources: nat): (r: bool)
    ensures r <==> input1ChannelsCount != 0 && numSources >= 2
  {
    input1ChannelsCount != 0 && numSources > 1
  }

  /**
   * Whether the samples of input 1 are mixed in: it was obtained, it has
   * more bytes available than input 0, and the module is in normal mode.
   */
  function MixesSource1(obtained1: bool, avail0: SizeT, avail1: SizeT, mode: ProcessingMode): bool
  {
    obtained1 && !(avail1 <= avail0) && mode == Normal
  }

  /** The divider of input 0: the configured one, or the channel count of input 0 in bypass mode. */
  function Divider0(mode: ProcessingMode, input0ChannelsCount: nat, dividerInput0: int): (d: int)
    ensures mode == Bypass ==> d == input0ChannelsCount
    ensures mode == Normal ==> d == dividerInput0
  {
    if mode == Bypass then input0ChannelsCount else dividerInput0
  }

  /** `a * b` in `size_t`. */
  function MulSize(a: SizeT, b: SizeT): (r: SizeT)
    ensures a * b < SIZE_T_LIMIT ==> r == a * b
  {
    if a * b < SIZE_T_LIMIT then
      DivModUnique(a * b, SIZE_T_LIMIT, 0, a * b);
      (a * b) % SIZE_T_LIMIT
    else
      (a * b) % SIZE_T_LIMIT
  }

  /**
   * The bytes released on input 1 once the kernel has run, when input 1 was
   * obtained: the frames processed when it was mixed in, none otherwise. In
   * both cases the fragment is handed back.
   */
  function Source1Release(mixed: bool, frames: SizeT, frameBytes1: SizeT): (n: SizeT)
    ensures !mixed ==> n == 0
  {
    if mixed then MulSize(frames, frameBytes1) else 0
  }

  /** The bookkeeping of the sink, source 0 and source 1 (zero when there is no source 1). */
  datatype Endpoints = Endpoints(sink: Fragment, src0: Fragment, src1: Fragment)

  /** The callbacks and parameters of the sink, source 0 and source 1 (source 0's again when there is none). */
  datatype EndpointOps = EndpointOps(sinkOps: SinkOps, sinkParams: StreamParams, src0Ops: SourceOps,
                                     src0Params: StreamParams, src1Ops: SourceOps, src1Params: StreamParams)

  ghost function Ops(sources: seq<Source>, sinks: seq<Sink>): EndpointOps
    requires |sources| >= 1 && |sinks| >= 1
    reads sinks[0], sources[0], if |sources| > 1 then {sources[1]} else {}
  {
    var src1 := if |sources| > 1 then sources[1] else sources[0];
    EndpointOps(sinks[0].ops, sinks[0].params, sources[0].ops, sources[0].params, src1.ops, src1.params)
  }

  /** The endpoints still have the callbacks and parameters `o`. */
  ghost predicate OpsKept(sources: seq<Source>, sinks: seq<Sink>, o: EndpointOps)
    requires |sources| >= 1 && |sinks| >= 1
    reads sinks[0], sources[0], if |sources| > 1 then {sources[1]} else {}
  {
    Ops(sources, sinks) == o
  }

  /** `struct module_self_data`: what `init` derives from the configuration. */
  class DownMixer {
    var bitsPerSample: nat
    var input0ChannelsCount: nat
    var input1ChannelsCount: nat
    var outputChannelsCount: nat
    var dividerInput0: int
    var dividerInput1: int
    var processingMode: ProcessingMode

    /** The state `init` leaves after accepting a configuration. */
    predicate Ready()
      reads this
    {
      (bitsPerSample == IPC4_DEPTH_16BIT || bitsPerSample == IPC4_DEPTH_32BIT) &&
      1 <= input0ChannelsCount <= 4 && input1ChannelsCount <= 2 && 1 <= outputChannelsCount <= 2 &&
      dividerInput0 == input0ChannelsCount + input1ChannelsCount && dividerInput1 == dividerInput0
    }

    /** The module data starts zero filled. */
    constructor ()
      ensures bitsPerSample == 0 && input0ChannelsCount == 0 && input1ChannelsCount == 0
      ensures outputChannelsCount == 0 && dividerInput0 == 0 && dividerInput1 == 0
      ensures processingMode == Normal
    {
      bitsPerSample, input0ChannelsCount, input1ChannelsCount, outputChannelsCount := 0, 0, 0, 0;
      dividerInput0, dividerInput1, processingMode := 0, 0, Normal;
    }

    /**
     * `init`: the configuration is accepted exactly when it passes every
     * size, pin and format check; the module is then set up from it in
     * normal mode with both dividers equal to the total input channel count.
     * A refused configuration changes nothing.
     */
    method Init(cfg: ExtendedCfg) returns (ret: int)
      requires MessageHolds(cfg)
      modifies this
      ensures ret == ADSP_NO_ERROR || ret == ADSP_INVALID_SETTINGS
      ensures ret == ADSP_NO_ERROR <==> Accepted(cfg)
      ensures ret == ADSP_NO_ERROR ==>
                var t, out := Inputs(cfg), Output(cfg);
                bitsPerSample == out.fmt.depth && input0ChannelsCount == t[0].fmt.channelsCount &&
                input1ChannelsCount == (if DownMixerConfig.Configured(t[1]) then t[1].fmt.channelsCount else 0) &&
                outputChannelsCount == out.fmt.channelsCount && processingMode == Normal &&
                dividerInput0 == input0ChannelsCount + input1ChannelsCount && dividerInput1 == dividerInput0 &&
                Ready()
      ensures ret != ADSP_NO_ERROR ==> unchanged(this)
    {
      if cfg.size < EXTENDED_CFG_SIZE {
        return ADSP_INVALID_SETTINGS;
      }
      var inCount, outCount := cfg.nbInputPins, cfg.nbOutputPins;
      if cfg.size < BASE_MODULE_CFG_SIZE + CalcExtSize(inCount, outCount) {
        return ADSP_INVALID_SETTINGS;
      }
      if inCount < 1 || inCount > INPUT_NUMBER {
        return ADSP_INVALID_SETTINGS;
      }
      if outCount != 1 {
        return ADSP_INVALID_SETTINGS;
      }
      SizeCoversPinFormats(cfg);
      var out := cfg.pinFormats[inCount];
      if out.pinIndex != 0 {
        return ADSP_INVALID_SETTINGS;
      }
      var ok, table := ReadInputFormats(cfg.pinFormats, inCount);
      if !ok {
        return ADSP_INVALID_SETTINGS;
      }
      assert PinsOk(cfg) && table == Inputs(cfg);
      ret := CheckFormats(table[0], table[1], out);
      if ret != ADSP_NO_ERROR {
        return;
      }
      var in1Channels := if table[1].bufferSize != 0 then table[1].fmt.channelsCount else 0;
      bitsPerSample := out.fmt.depth;
      input0ChannelsCount := table[0].fmt.channelsCount;
      input1ChannelsCount := in1Channels;
      outputChannelsCount := out.fmt.channelsCount;
      processingMode := Normal;
      dividerInput0 := input0ChannelsCount + input1ChannelsCount;
      dividerInput1 := dividerInput0;
    }

    /**
     * The input-format loop of `init`: every entry of the table starts
     * unconfigured, then each of the first `count` formats, in order, is
     * stored at its pin; a format naming a pin past the table stops it.
     */
    static method ReadInputFormats(formats: seq<PinFormat>, count: nat) returns (ok: bool, t: seq<PinFormat>)
      requires count <= |formats|
      ensures ok <==> forall j :: 0 <= j < count ==> formats[j].pinIndex < INPUT_NUMBER
      ensures ok ==> t == PinTable(formats[..count])
    {
      var table := new PinFormat[INPUT_NUMBER];
      var k := 0;
      while k < INPUT_NUMBER
        invariant k <= INPUT_NUMBER
        invariant forall j :: 0 <= j < k ==> table[j] == Unconfigured
      {
        table[k] := Unconfigured;
        k := k + 1;
      }
      var i := 0;
      while i < count
        invariant i <= count
        invariant forall j :: 0 <= j < i ==> formats[j].pinIndex < INPUT_NUMBER
        invariant table[..] == PinTable(formats[..i])
      {
        var pin := formats[i];
        if pin.pinIndex >= INPUT_NUMBER {
          return false, [];
        }
        assert formats[..i + 1][..i] == formats[..i];
        table[pin.pinIndex] := pin;
        i := i + 1;
      }
      return true, table[..];
    }

    /** The format checks of `init`, in their order: `ADSP_NO_ERROR` exactly when the formats are supported. */
    static method CheckFormats(in0: PinFormat, in1: PinFormat, out: PinFormat) returns (ret: int)
      ensures ret == ADSP_NO_ERROR || ret == ADSP_INVALID_SETTINGS
      ensures ret == ADSP_NO_ERROR <==> FormatsSupported([in0, in1], out)
    {
      if in0.bufferSize == 0 {
        return ADSP_INVALID_SETTINGS;
      }
      if in0.fmt.samplingFrequency != out.fmt.samplingFrequency || in0.fmt.depth != out.fmt.depth {
        return ADSP_INVALID_SETTINGS;
      }
      if in0.fmt.channelsCount != 1 && in0.fmt.channelsCount != 2 &&
         in0.fmt.channelsCount != 3 && in0.fmt.channelsCount != 4 {
        return ADSP_INVALID_SETTINGS;
      }
      if out.fmt.depth != IPC4_DEPTH_16BIT && out.fmt.depth != IPC4_DEPTH_32BIT {
        return ADSP_INVALID_SETTINGS;
      }
      if out.fmt.channelsCount != 1 && out.fmt.channelsCount != 2 {
        return ADSP_INVALID_SETTINGS;
      }
      if (in0.bufferSize * 8) % SIZE_T_LIMIT % (in0.fmt.depth * in0.fmt.channelsCount) != 0 {
        return ADSP_INVALID_SETTINGS;
      }
      if (out.bufferSize * 8) % SIZE_T_LIMIT % (out.fmt.depth * out.fmt.channelsCount) != 0 {
        return ADSP_INVALID_SETTINGS;
      }
      if in1.bufferSize != 0 {
        if in0.fmt.samplingFrequency != in1.fmt.samplingFrequency || in0.fmt.depth != in1.fmt.depth {
          return ADSP_INVALID_SETTINGS;
        }
        if in1.fmt.channelsCount != 1 && in1.fmt.channelsCount != 2 {
          return ADSP_INVALID_SETTINGS;
        }
        if (in1.bufferSize * 8) % SIZE_T_LIMIT % (in1.fmt.depth * in1.fmt.channelsCount) != 0 {
          return ADSP_INVALID_SETTINGS;
        }
      }
      return ADSP_NO_ERROR;
    }

    /** `set_processing_mode`: stores the mode and returns 0; nothing else changes. */
    method SetProcessingMode(mode: ProcessingMode) returns (ret: int)
      modifies this
      ensures ret == 0 && GetProcessingMode() == mode
      ensures bitsPerSample == old(bitsPerSample) && input0ChannelsCount == old(input0ChannelsCount)
      ensures input1ChannelsCount == old(input1ChannelsCount) && outputChannelsCount == old(outputChannelsCount)
      ensures dividerInput0 == old(dividerInput0) && dividerInput1 == old(dividerInput1)
    {
      processingMode := mode;
      ret := 0;
    }

    /** `get_processing_mode`. */
    function GetProcessingMode(): ProcessingMode
      reads this
    {
      processingMode
    }

    /** `reset`: back to normal mode, returning 0; nothing else changes. */
    method Reset() returns (ret: int)
      modifies this
      ensures ret == 0 && GetProcessingMode() == Normal
      ensures bitsPerSample == old(bitsPerSample) && input0ChannelsCount == old(input0ChannelsCount)
      ensures input1ChannelsCount == old(input1ChannelsCount) && outputChannelsCount == old(outputChannelsCount)
      ensures dividerInput0 == old(dividerInput0) && dividerInput1 == old(dividerInput1)
    {
      processingMode := Normal;
      ret := 0;
    }

    /**
     * `process`. It takes the sink's free space, then the data of source 0,
     * then, when pin 1 is configured and a second source is connected, the
     * data of source 1; if any of them is refused it hands back what it took
     * with 0 bytes and fails. Otherwise it mixes as many frames as both the
     * sink's free space and source 0's data hold, mixing in source 1 only
     * in normal mode and when source 1 has more bytes than source 0, and
     * dividing input 0 by its channel count in bypass mode. It then
     * releases the frames it read from each source it took (0 bytes of
     * source 1 when it was not mixed in), commits the frames it wrote, and
     * succeeds.
     */
    method Process(sources: seq<Source>, sinks: seq<Sink>, getFrameBytes: (FrameFormat, U32) -> SizeT,
                   out: array<int>, outPos: nat, in0: Ring, in1: Ring) returns (ret: int)
      requires Ready() && |sources| >= 1 && |sinks| >= 1
      requires |sources| > 1 ==> sources[0] != sources[1]
      requires var chOut := sinks[0].params.channels;
               chOut > 0 && out.Length % chOut == 0 && outPos < out.Length && outPos % chOut == 0
      requires sinks[0].GetFrameBytes(getFrameBytes) > 0 && sources[0].GetFrameBytes(getFrameBytes) > 0
      requires sinks[0].GetFreeFrames(getFrameBytes) * sinks[0].params.channels <= out.Length
      requires RingOk(in0) && in0.channels == sources[0].params.channels
      requires UsesSource1(input1ChannelsCount, |sources|) ==>
                 RingOk(in1) && in1.channels == sources[1].params.channels
      modifies out, sinks[0], sources[0], if |sources| > 1 then sources[1] else sources[0]
      ensures ret == PROCESS_SUCCEED || ret == ADSP_FATAL_FAILURE
      ensures OpsKept(sources, sinks, old(Ops(sources, sinks)))
      ensures ret == PROCESS_SUCCEED <==> Grants(sources, sinks, old(Fragments(sources, sinks)), input1ChannelsCount)
      ensures ret == ADSP_FATAL_FAILURE ==> out[..] == old(out[..])
      ensures ret == ADSP_FATAL_FAILURE ==>
                HandedBackEmpty(sources, sinks, old(Fragments(sources, sinks)), Fragments(sources, sinks))
      ensures ret == PROCESS_SUCCEED ==>
                var m := KernelMix(sources, in0, in1);
                var frames := FramesToProcess(sources, sinks, getFrameBytes);
                |out[..]| > 0 &&
                Written(out[..], outPos, sinks[0].params.channels, m, frames) &&
                Untouched(old(out[..]), out[..], outPos, frames * sinks[0].params.channels)
      ensures ret == PROCESS_SUCCEED ==>
                HandedBackFrames(sources, sinks, getFrameBytes, old(Fragments(sources, sinks)), Fragments(sources, sinks))
    {
      ghost var before := Fragments(sources, sinks);
      var ok := TakeFragments(sources, sinks);
      if !ok {
        return ADSP_FATAL_FAILURE;
      }
      MixAndHandBack(sources, sinks, getFrameBytes, out, outPos, in0, in1, before);
      ret := PROCESS_SUCCEED;
    }

    /** The bookkeeping of the endpoints `process` works with. */
    function Fragments(sources: seq<Source>, sinks: seq<Sink>): Endpoints
      requires |sources| >= 1 && |sinks| >= 1
      reads sinks[0], sources[0], if |sources| > 1 then {sources[1]} else {}
    {
      Endpoints(sinks[0].State(), sources[0].State(), if |sources| > 1 then sources[1].State() else Fragment(0, 0))
    }

    /**
     * Every fragment `process` asks for is handed out: the sink's free space,
     * source 0's data and, when it is used, source 1's data.
     */
    predicate Grants(sources: seq<Source>, sinks: seq<Sink>, e: Endpoints, input1Count: nat)
      requires |sources| >= 1 && |sinks| >= 1
      reads sinks[0], sources[0], if |sources| > 1 then {sources[1]} else {}
    {
      var sink, src0 := sinks[0], sources[0];
      Granted(e.sink, sink.ops.getBuffer(sink.ops.getFreeSize())) &&
      Granted(e.src0, src0.ops.getData(src0.ops.getDataAvailable())) &&
      (UsesSource1(input1Count, |sources|) ==>
         Granted(e.src1, sources[1].ops.getData(sources[1].ops.getDataAvailable())))
    }

    /** The bookkeeping once every fragment was handed out: each endpoint holds all that was on offer. */
    function Taken(sources: seq<Source>, sinks: seq<Sink>, e: Endpoints, input1Count: nat): Endpoints
      requires |sources| >= 1 && |sinks| >= 1
      reads sinks[0], sources[0], if |sources| > 1 then {sources[1]} else {}
    {
      Endpoints(Fragment(sinks[0].ops.getFreeSize(), e.sink.processed),
                Fragment(sources[0].ops.getDataAvailable(), e.src0.processed),
                if UsesSource1(input1Count, |sources|) then Fragment(sources[1].ops.getDataAvailable(), e.src1.processed)
                else e.src1)
    }

    /**
     * A failed `process` hands back what it took with 0 bytes: no counter
     * moves, source 1 is as it was, and an endpoint that was idle is idle
     * again when its backend accepts the empty hand-back.
     */
    predicate HandedBackEmpty(sources: seq<Source>, sinks: seq<Sink>, e0: Endpoints, e1: Endpoints)
      requires |sources| >= 1 && |sinks| >= 1
      reads sinks[0], sources[0]
    {
      e1.sink.processed == e0.sink.processed && e1.src0.processed == e0.src0.processed && e1.src1 == e0.src1 &&
      (Idle(e0.sink) && sinks[0].ops.commitBuffer(0) == 0 ==> Idle(e1.sink)) &&
      (Idle(e0.src0) && sources[0].ops.releaseData(0) == 0 ==> Idle(e1.src0))
    }

    /** The number of frames `process` mixes: as many as both the sink's free space and source 0's data hold. */
    function FramesToProcess(sources: seq<Source>, sinks: seq<Sink>, getFrameBytes: (FrameFormat, U32) -> SizeT): SizeT
      requires |sources| >= 1 && |sinks| >= 1
      requires sinks[0].GetFrameBytes(getFrameBytes) > 0 && sources[0].GetFrameBytes(getFrameBytes) > 0
      reads sinks[0], sinks[0].params, sources[0], sources[0].params
    {
      Min(sinks[0].GetFreeFrames(getFrameBytes), sources[0].GetDataFramesAvailable(getFrameBytes))
    }

    /** Whether `process` mixes source 1 in, once every fragment was handed out. */
    function Source1Mixed(sources: seq<Source>): bool
      requires |sources| >= 1
      reads this, sources[0], if |sources| > 1 then {sources[1]} else {}
    {
      MixesSource1(UsesSource1(input1ChannelsCount, |sources|), sources[0].ops.getDataAvailable(),
                   if |sources| > 1 then sources[1].ops.getDataAvailable() else 0, processingMode)
    }

    /** What the kernel mixes: the two inputs, whether input 1 takes part, the dividers and the sample width. */
    function KernelMix(sources: seq<Source>, in0: Ring, in1: Ring): Mix
      requires |sources| >= 1
      reads this, sources[0], if |sources| > 1 then {sources[1]} else {}
    {
      Mix(in0, in1, Source1Mixed(sources), Divider0(processingMode, input0ChannelsCount, dividerInput0),
          dividerInput1, bitsPerSample)
    }

    /**
     * A successful `process` hands back what it used: each counter grows by
     * the bytes of the frames mixed (none for source 1 when it was not mixed
     * in), cut down to the fragment taken, and each endpoint is idle again
     * when its backend accepts the hand-back.
     */
    predicate HandedBackFrames(sources: seq<Source>, sinks: seq<Sink>, getFrameBytes: (FrameFormat, U32) -> SizeT,
                               e0: Endpoints, e1: Endpoints)
      requires |sources| >= 1 && |sinks| >= 1
      requires sinks[0].GetFrameBytes(getFrameBytes) > 0 && sources[0].GetFrameBytes(getFrameBytes) > 0
      reads this, sinks[0], sinks[0].params, sources[0], sources[0].params
      reads if |sources| > 1 then {sources[1], sources[1].params} else {}
    {
      var sink, src0 := sinks[0], sources[0];
      var frames := FramesToProcess(sources, sinks, getFrameBytes);
      var nOut := Clamp(MulSize(frames, sink.GetFrameBytes(getFrameBytes)), sink.ops.getFreeSize());
      var n0 := Clamp(MulSize(frames, src0.GetFrameBytes(getFrameBytes)), src0.ops.getDataAvailable());
      e1.sink.processed == AddSize(e0.sink.processed, nOut) &&
      (sink.ops.commitBuffer(nOut) == 0 ==> Idle(e1.sink)) &&
      e1.src0.processed == AddSize(e0.src0.processed, n0) &&
      (src0.ops.releaseData(n0) == 0 ==> Idle(e1.src0)) &&
      (UsesSource1(input1ChannelsCount, |sources|) ==>
         var src1 := sources[1];
         var n1 := Clamp(Source1Release(Source1Mixed(sources), frames, src1.GetFrameBytes(getFrameBytes)),
                         src1.ops.getDataAvailable());
         e1.src1.processed == AddSize(e0.src1.processed, n1) &&
         (src1.ops.releaseData(n1) == 0 ==> Idle(e1.src1)))
    }

    /**
     * The first part of `process`: the sink's free space, source 0's data
     * and, when it is used, source 1's data are asked for in that order;
     * the first refusal hands back what was taken with 0 bytes.
     */
    method TakeFragments(sources: seq<Source>, sinks: seq<Sink>) returns (ok: bool)
      requires |sources| >= 1 && |sinks| >= 1
      requires |sources| > 1 ==> sources[0] != sources[1]
      modifies sinks[0], sources[0], if |sources| > 1 then sources[1] else sources[0]
      ensures OpsKept(sources, sinks, old(Ops(sources, sinks)))
      ensures ok <==> Grants(sources, sinks, old(Fragments(sources, sinks)), input1ChannelsCount)
      ensures ok ==> Fragments(sources, sinks) == Taken(sources, sinks, old(Fragments(sources, sinks)), input1ChannelsCount)
      ensures !ok ==> HandedBackEmpty(sources, sinks, old(Fragments(sources, sinks)), Fragments(sources, sinks))
    {
      var sink, src0 := sinks[0], sources[0];
      var availOut := sink.ops.getFreeSize();
      var ret := sink.GetBuffer(availOut);
      if ret != 0 {
        return false;
      }
      var avail0 := src0.GetDataAvailable();
      ret := src0.GetData(avail0);
      if ret != 0 {
        var _ := sink.CommitBuffer(0);
        return false;
      }
      if UsesSource1(input1ChannelsCount, |sources|) {
        var src1 := sources[1];
        var avail1 := src1.GetDataAvailable();
        ret := src1.GetData(avail1);
        if ret != 0 {
          var _ := sink.CommitBuffer(0);
          var _ := src0.ReleaseData(0);
          return false;
        }
      }
      return true;
    }

    /**
     * The second part of `process`, once every fragment was handed out: the
     * kernel mixes the frames, then each source taken is released and the
     * sink committed.
     */
    method MixAndHandBack(sources: seq<Source>, sinks: seq<Sink>, getFrameBytes: (FrameFormat, U32) -> SizeT,
                          out: array<int>, outPos: nat, in0: Ring, in1: Ring, ghost before: Endpoints)
      requires Ready() && |sources| >= 1 && |sinks| >= 1
      requires |sources| > 1 ==> sources[0] != sources[1]
      requires var chOut := sinks[0].params.channels;
               chOut > 0 && out.Length % chOut == 0 && outPos < out.Length && outPos % chOut == 0
      requires sinks[0].GetFrameBytes(getFrameBytes) > 0 && sources[0].GetFrameBytes(getFrameBytes) > 0
      requires sinks[0].GetFreeFrames(getFrameBytes) * sinks[0].params.channels <= out.Length
      requires RingOk(in0) && in0.channels == sources[0].params.channels
      requires UsesSource1(input1ChannelsCount, |sources|) ==>
                 RingOk(in1) && in1.channels == sources[1].params.channels
      requires Fragments(sources, sinks) == Taken(sources, sinks, before, input1ChannelsCount)
      modifies out, sinks[0], sources[0], if |sources| > 1 then sources[1] else sources[0]
      ensures OpsKept(sources, sinks, old(Ops(sources, sinks)))
      ensures var m := KernelMix(sources, in0, in1);
              var frames := FramesToProcess(sources, sinks, getFrameBytes);
              |out[..]| > 0 &&
              Written(out[..], outPos, sinks[0].params.channels, m, frames) &&
              Untouched(old(out[..]), out[..], outPos, frames * sinks[0].params.channels)
      ensures HandedBackFrames(sources, sinks, getFrameBytes, before, Fragments(sources, sinks))
    {
      var sink, src0 := sinks[0], sources[0];
      var chOut := sink.GetChannels();
      var freeFrames := sink.GetFreeFrames(getFrameBytes);
      var frames := freeFrames;
      var i := src0.GetDataFramesAvailable(getFrameBytes);
      if i < frames {
        frames := i;
      }
      FramesFit(frames, freeFrames, chOut, out.Length);
      var m := KernelMix(sources, in0, in1);
      ProcessFrames(out, outPos, chOut, m, frames);
      HandBack(sources, sinks, getFrameBytes, frames, m.use1, before);
    }

    /**
     * The end of `process`: releases the bytes of `frames` frames of source 0,
     * those of source 1 when it was taken (0 bytes when it was not mixed in),
     * and commits the bytes of `frames` frames to the sink.
     */
    method HandBack(sources: seq<Source>, sinks: seq<Sink>, getFrameBytes: (FrameFormat, U32) -> SizeT,
                    frames: SizeT, use1: bool, ghost before: Endpoints)
      requires |sources| >= 1 && |sinks| >= 1
      requires |sources| > 1 ==> sources[0] != sources[1]
      requires sinks[0].GetFrameBytes(getFrameBytes) > 0 && sources[0].GetFrameBytes(getFrameBytes) > 0
      requires frames == FramesToProcess(sources, sinks, getFrameBytes) && use1 == Source1Mixed(sources)
      requires Fragments(sources, sinks) == Taken(sources, sinks, before, input1ChannelsCount)
      modifies sinks[0], sources[0], if |sources| > 1 then sources[1] else sources[0]
      ensures OpsKept(sources, sinks, old(Ops(sources, sinks)))
      ensures HandedBackFrames(sources, sinks, getFrameBytes, before, Fragments(sources, sinks))
    {
      var sink, src0 := sinks[0], sources[0];
      var fbOut := sink.GetFrameBytes(getFrameBytes);
      var fb0 := src0.GetFrameBytes(getFrameBytes);
      var _ := src0.ReleaseData(MulSize(frames, fb0));
      if UsesSource1(input1ChannelsCount, |sources|) {
        var fb1 := sources[1].GetFrameBytes(getFrameBytes);
        var _ := sources[1].ReleaseData(Source1Release(use1, frames, fb1));
      }
      var _ := sink.CommitBuffer(MulSize(frames, fbOut));
    }
  }


  /**
   * The hand-backs of `process` are never cut down: the frames it mixes are
   * no more than the whole frames of an endpoint's fragment, so their bytes
   * fit in it and exactly those bytes are committed or released.
   */
  lemma HandBackFits(frames: SizeT, bytes: SizeT, frameBytes: SizeT)
    requires frameBytes > 0 && frames <= Frames(bytes, frameBytes)
    ensures frames * frameBytes <= bytes
    ensures Clamp(MulSize(frames, frameBytes), bytes) == frames * frameBytes
  {
    MulLe(frames, Frames(bytes, frameBytes), frameBytes);
  }

  /** `frames <= count` frames of `size` cells fit where `count` of them do. */
  lemma FramesFit(frames: nat, count: nat, size: nat, room: nat)
    requires frames <= count && count * size <= room
    ensures frames * size <= room
  {
    MulLe(frames, count, size);
  }

  function Min(a: SizeT, b: SizeT): (r: SizeT)
    ensures r <= a && r <= b && (r == a || r == b)
  {
    if b < a then b else a
  }
}

=== FILE: downmixer_config.dfy ===
/**
 * The configuration the down-mixer is created with, and the rules its `init`
 * checks it against.
 *
 * The configuration is an IPC4 "extended base module config": the base
 * config, a header with the number of input and output pin formats, then the
 * input pin formats followed by the output pin formats. Each pin format names
 * a pin, its buffer size (`ibs` for an input, `obs` for the output) and its
 * audio format.
 */
module DownMixerConfig {
  import opened AudioEndpoint

  /** The number of input pins: pin 0 (the main input) and pin 1 (the reference). */
  const INPUT_NUMBER: nat := 2

  const IPC4_DEPTH_16BIT: nat := 16
  const IPC4_DEPTH_32BIT: nat := 32

  const ADSP_NO_ERROR: int := 0
  const ADSP_FATAL_FAILURE: int := 6
  /** `ADSP_MAX_VALUE + 4`, where `ADSP_MAX_VALUE` is `ADSP_FATAL_FAILURE`. */
  const ADSP_INVALID_SETTINGS: int := ADSP_FATAL_FAILURE + 4

  /** Byte sizes of the IPC4 structures of the message. */
  const BASE_MODULE_CFG_SIZE: nat := 40
  const BASE_MODULE_CFG_EXT_SIZE: nat := 16
  const PIN_FORMAT_SIZE: nat := 32
  const EXTENDED_CFG_SIZE: nat := BASE_MODULE_CFG_SIZE + BASE_MODULE_CFG_EXT_SIZE

  /** `ipc4_calc_base_module_cfg_ext_size`: the extension header and its pin formats. */
  function CalcExtSize(inPins: nat, outPins: nat): nat
  {
    BASE_MODULE_CFG_EXT_SIZE + (inPins + outPins) * PIN_FORMAT_SIZE
  }

  /** The fields of `struct ipc4_audio_format` the down-mixer looks at. */
  datatype AudioFormat = AudioFormat(samplingFrequency: U32, depth: U32, channelsCount: nat)

  /** An input or output pin format: the pin, its buffer size (`ibs` / `obs`) and its audio format. */
  datatype PinFormat = PinFormat(pinIndex: U32, bufferSize: U32, fmt: AudioFormat)

  /**
   * The configuration message: its size in bytes, the pin-format counts of
   * its header, and the pin formats that follow (inputs first, then outputs).
   */
  datatype ExtendedCfg = ExtendedCfg(size: nat, nbInputPins: nat, nbOutputPins: nat, pinFormats: seq<PinFormat>)

  /** The message really holds as many pin formats as its size covers. */
  predicate MessageHolds(cfg: ExtendedCfg)
  {
    cfg.size <= EXTENDED_CFG_SIZE + |cfg.pinFormats| * PIN_FORMAT_SIZE
  }

  /** The entry of a pin no format was given for: only its zero buffer size is ever read. */
  const Unconfigured: PinFormat := PinFormat(0, 0, AudioFormat(0, 0, 0))

  /** A pin with a format: its buffer size is not zero. */
  predicate Configured(p: PinFormat)
  {
    p.bufferSize != 0
  }

  /**
   * The table of input formats indexed by pin, as `init` fills it: every
   * entry starts unconfigured and each format, in order, overwrites the entry
   * of its pin.
   */
  function PinTable(inputs: seq<PinFormat>): (t: seq<PinFormat>)
    requires forall i :: 0 <= i < |inputs| ==> inputs[i].pinIndex < INPUT_NUMBER
    ensures |t| == INPUT_NUMBER
  {
    if |inputs| == 0 then [Unconfigured, Unconfigured]
    else
      var last := inputs[|inputs| - 1];
      PinTable(inputs[..|inputs| - 1])[last.pinIndex := last]
  }

  /** `(size * 8) % (depth * channels) == 0` in 32-bit unsigned arithmetic: the buffer holds whole frames. */
  predicate WholeFrames(p: PinFormat)
    requires p.fmt.depth * p.fmt.channelsCount != 0
  {
    (p.bufferSize * 8) % SIZE_T_LIMIT % (p.fmt.depth * p.fmt.channelsCount) == 0
  }

  /**
   * The format rules: pin 0 is configured, matches the output's rate and
   * depth and has 1 to 4 channels; the depth is 16 or 32 bits; the output has
   * 1 or 2 channels; both buffers hold whole frames; and a configured pin 1
   * matches pin 0's rate and depth, has 1 or 2 channels and holds whole
   * frames.
   */
  predicate FormatsSupported(t: seq<PinFormat>, out: PinFormat)
    requires |t| == INPUT_NUMBER
  {
    var in0, in1 := t[0], t[1];
    Configured(in0) &&
    in0.fmt.samplingFrequency == out.fmt.samplingFrequency && in0.fmt.depth == out.fmt.depth &&
    1 <= in0.fmt.channelsCount <= 4 &&
    (out.fmt.depth == IPC4_DEPTH_16BIT || out.fmt.depth == IPC4_DEPTH_32BIT) &&
    1 <= out.fmt.channelsCount <= 2 &&
    WholeFrames(in0) && WholeFrames(out) &&
    (Configured(in1) ==>
       in1.fmt.samplingFrequency == in0.fmt.samplingFrequency && in1.fmt.depth == in0.fmt.depth &&
       1 <= in1.fmt.channelsCount <= 2 && WholeFrames(in1))
  }

  /** The message is long enough for its header and for the pin formats the header declares. */
  predicate SizeOk(cfg: ExtendedCfg)
  {
    cfg.size >= EXTENDED_CFG_SIZE &&
    cfg.size >= BASE_MODULE_CFG_SIZE + CalcExtSize(cfg.nbInputPins, cfg.nbOutputPins)
  }

  /** The pin-format counts are 1 or 2 inputs and exactly 1 output, and every input names pin 0 or 1. */
  predicate PinsOk(cfg: ExtendedCfg)
  {
    1 <= cfg.nbInputPins <= INPUT_NUMBER && cfg.nbOutputPins == 1 &&
    |cfg.pinFormats| > cfg.nbInputPins &&
    cfg.pinFormats[cfg.nbInputPins].pinIndex == 0 &&
    forall i :: 0 <= i < cfg.nbInputPins ==> cfg.pinFormats[i].pinIndex < INPUT_NUMBER
  }

  /** The input pin formats of an accepted configuration, indexed by pin. */
  function Inputs(cfg: ExtendedCfg): (t: seq<PinFormat>)
    requires PinsOk(cfg)
    ensures |t| == INPUT_NUMBER
  {
    PinTable(cfg.pinFormats[..cfg.nbInputPins])
  }

  /** The output pin format of the configuration. */
  function Output(cfg: ExtendedCfg): PinFormat
    requires PinsOk(cfg)
  {
    cfg.pinFormats[cfg.nbInputPins]
  }

  /** `init` accepts the configuration. */
  predicate Accepted(cfg: ExtendedCfg)
  {
    SizeOk(cfg) && PinsOk(cfg) && FormatsSupported(Inputs(cfg), Output(cfg))
  }

  // ---------------------------------------------------------------------
  // Properties
  // ---------------------------------------------------------------------

  /**
   * The pin table holds, for each pin, the LAST format given for it: a later
   * format for the same pin overwrites an earlier one.
   */
  lemma {:induction false} PinTableLastWins(inputs: seq<PinFormat>, i: nat)
    requires forall j :: 0 <= j < |inputs| ==> inputs[j].pinIndex < INPUT_NUMBER
    requires i < |inputs|
    requires forall j :: i < j < |inputs| ==> inputs[j].pinIndex != inputs[i].pinIndex
    ensures PinTable(inputs)[inputs[i].pinIndex] == inputs[i]
    decreases |inputs|
  {
    var n := |inputs| - 1;
    if i < n {
      PinTableLastWins(inputs[..n], i);
    }
  }

  /** A pin no format names stays unconfigured. */
  lemma {:induction false} PinTableUnnamed(inputs: seq<PinFormat>, p: nat)
    requires forall j :: 0 <= j < |inputs| ==> inputs[j].pinIndex < INPUT_NUMBER
    requires p < INPUT_NUMBER && forall j :: 0 <= j < |inputs| ==> inputs[j].pinIndex != p
    ensures PinTable(inputs)[p] == Unconfigured
    decreases |inputs|
  {
    if |inputs| > 0 {
      PinTableUnnamed(inputs[..|inputs| - 1], p);
    }
  }

  /**
   * A message that passes the size checks holds every pin format the header
   * declares, so `init` never reads past it.
   */
  lemma SizeCoversPinFormats(cfg: ExtendedCfg)
    requires MessageHolds(cfg) && SizeOk(cfg)
    ensures |cfg.pinFormats| >= cfg.nbInputPins + cfg.nbOutputPins
  {
  }

  /**
   * What an accepted configuration guarantees the mixing kernel: a 16- or
   * 32-bit depth shared by all pins, 1 to 4 channels on pin 0, 0 to 2 on
   * pin 1 (0 when unconfigured), 1 or 2 on the output, so both dividers
   * `ch0 + ch1` lie in 1 .. 6.
   */
  lemma AcceptedBounds(cfg: ExtendedCfg)
    requires Accepted(cfg)
    ensures var t, out := Inputs(cfg), Output(cfg);
            var ch1 := if Configured(t[1]) then t[1].fmt.channelsCount else 0;
            (out.fmt.depth == 16 || out.fmt.depth == 32) && t[0].fmt.depth == out.fmt.depth &&
            1 <= t[0].fmt.channelsCount <= 4 && ch1 <= 2 && 1 <= out.fmt.channelsCount <= 2 &&
            1 <= t[0].fmt.channelsCount + ch1 <= 6
  {
  }
}

=== FILE: downmixer_findings.dfy ===
/**
 * The down-mixer's `process` as it is written, where it departs from what it
 * evidently means to do. Each definition here stands beside the corrected
 * one the rest of the model uses, with an input on which the two part.
 */
module DownMixerAsWritten {
  import opened Common
  import opened AudioEndpoint
  import opened DownMixerKernel
  import opened DownMixerModule

  /**
   * The length of a chunk as the loop computes it, from the bytes left up
   * to the end of each buffer and the frame sizes: `None` where it divides
   * by zero. Input 1's distance is divided by its frame size whether or not
   * input 1 was obtained, and the frames still to process play no part.
   */
  function LoopFramesAsWritten(rem0: nat, fb0: nat, rem1: nat, fb1: nat, input1Channels: nat,
                               remOut: nat, fbOut: nat): (r: Option<nat>)
    ensures r.Some? ==> fb0 > 0 && fb1 > 0 && fbOut > 0
  {
    if fb0 == 0 || fb1 == 0 || fbOut == 0 then None
    else
      var n0 := rem0 / fb0;
      var n1 := if input1Channels != 0 && rem1 / fb1 < n0 then rem1 / fb1 else n0;
      Some(if remOut / fbOut < n1 then remOut / fbOut else n1)
  }

  /**
   * Without input 1 its frame size is 0, so the first chunk already divides
   * by zero, whatever the other buffers hold.
   */
  lemma LoopFramesDividesByZero(rem0: nat, fb0: nat, rem1: nat, remOut: nat, fbOut: nat)
    ensures LoopFramesAsWritten(rem0, fb0, rem1, 0, 0, remOut, fbOut).None?
  {
  }

  /**
   * The chunk is not cut down to the frames still to process: with one frame
   * to process and four frames to every buffer end, the loop mixes four
   * frames (three more than it commits), where the corrected chunk is one.
   */
  lemma LoopFramesOverrun()
    ensures LoopFramesAsWritten(8, 2, 0, 2, 0, 8, 2) == Some(4)
    ensures ChunkFrames(4, false, 0, 4, 1) == 1
  {
  }

  /** The sum of input 1 in the 16-bit path: its samples are read with input 0's frame stride. */
  function In1SumAsWritten16(r: Ring, j: nat, stride: nat, n: nat, d: int): int
    requires |r.buf| > 0 && d > 0
  {
    if n == 0 then 0 else In1SumAsWritten16(r, j, stride, n - 1, d) + CDiv(r.buf[(r.pos + j * stride + n - 1) % |r.buf|], d)
  }

  /** The mixed value of frame `j` in the 16-bit path as written. */
  function MixedFrameAsWritten16(m: Mix, j: nat): int
    requires MixOk(m)
  {
    FrameSum(m.in0, j, m.in0.channels, m.div0) +
    (if m.use1 then In1SumAsWritten16(m.in1, j, m.in0.channels, m.in1.channels, m.div1) else 0)
  }

  /**
   * With stereo input 0 and mono input 1 holding 10, 20, 30 (dividers 3),
   * frame 1 mixes in input 1's third sample (30 / 3) instead of its second
   * (20 / 3).
   */
  lemma In1StrideAsWritten16()
    ensures var m := Mix(Ring([0, 0, 0, 0], 0, 2), Ring([10, 20, 30], 0, 1), true, 3, 3, 16);
            MixOk(m) && MixedFrameAsWritten16(m, 1) == 10 && MixedFrame(m, 1) == 6
  {
    var m := Mix(Ring([0, 0, 0, 0], 0, 2), Ring([10, 20, 30], 0, 1), true, 3, 3, 16);
    assert Sample(m.in0, 1, 0) == 0 && Sample(m.in0, 1, 1) == 0;
    assert Sample(m.in1, 1, 0) == 20;
    assert m.in1.buf[(0 + 1 * 2 + 0) % 3] == 30;
  }

  /** Whether `process` asks source 1 for data, as written: any non-zero number of sources will do. */
  function UsesSource1AsWritten(input1ChannelsCount: nat, numSources: nat): bool
  {
    input1ChannelsCount != 0 && numSources != 0
  }

  /**
   * With pin 1 configured and one source connected, `process` reads
   * `sources[1]`, past the end of the sources; the corrected test does not.
   */
  lemma UsesSource1PastEnd()
    ensures UsesSource1AsWritten(1, 1) && !UsesSource1(1, 1)
  {
  }

  /**
   * What is released on source 1 after the kernel, as written: its frames
   * when it was mixed in, and nothing at all (`None`) when it was obtained
   * but not mixed in.
   */
  function Source1ReleaseAsWritten(mixed: bool, frames: SizeT, frameBytes1: SizeT): Option<SizeT>
  {
    if mixed then Some(MulSize(frames, frameBytes1)) else None
  }

  /**
   * Source 1 obtained with some data and then not mixed in (its data is no
   * more than source 0's, or bypass mode) keeps its fragment outstanding, so
   * the next `process` is refused it with `-EBUSY` and fails.
   */
  lemma Source1LeftOutstanding(f: Fragment, avail1: SizeT, nextAvail1: SizeT, backendRet: int)
    requires Idle(f) && avail1 > 0
    ensures Source1ReleaseAsWritten(false, 0, 0).None?
    ensures var (g, r) := Obtain(f, avail1, 0);
            r == 0 && Obtain(g, nextAvail1, backendRet).1 == -EBUSY
  {
  }

  /**
   * The corrected hand-back: releasing 0 bytes of a source 1 that was
   * obtained but not mixed in closes its fragment when the backend accepts,
   * so the next `process` asks the backend again.
   */
  lemma Source1HandedBack(f: Fragment, avail1: SizeT, frames: SizeT, frameBytes1: SizeT,
                          nextAvail1: SizeT, backendRet: int)
    requires Idle(f)
    ensures var g := Obtain(f, avail1, 0).0;
            var h := Finish(g, Source1Release(false, frames, frameBytes1), 0).0;
            Idle(h) && h.processed == f.processed && Obtain(h, nextAvail1, backendRet).1 == backendRet
  {
    var g := Obtain(f, avail1, 0).0;
    assert Clamp(0, g.outstanding) == 0;
  }
}

=== FILE: downmixer_kernel.dfy ===
/**
 * The mixing kernel of the down-mixer.
 *
 * Every output frame is one mixed sample copied to every output channel: the
 * sum of the samples of an input-0 frame, each divided by `div0`, plus the
 * sum of the samples of an input-1 frame, each divided by `div1`, when
 * input 1 takes part. The division is C's, truncating toward zero, and the
 * sum is truncated to the sample width when it is stored.
 *
 * The buffers are circular and hold whole frames. The kernel works through
 * them in chunks that end where one of the buffers wraps, so that inside a
 * chunk every frame is contiguous.
 */
module DownMixerKernel {
  import opened Align

  /** C's integer division for a positive divisor: the quotient truncated toward zero. */
  function CDiv(a: int, b: int): (q: int)
    requires b > 0
    ensures a >= 0 ==> q * b <= a < q * b + b
    ensures a < 0 ==> q * b - b < a <= q * b
  {
    if a >= 0 then a / b else -((-a) / b)
  }

  /** 2^bits for the two sample widths. */
  function Modulus(bits: nat): int
    requires bits == 16 || bits == 32
  {
    if bits == 16 then 0x1_0000 else 0x1_0000_0000
  }

  /** The cast to `int16_t` / `int32_t`: the value of the same residue in the signed range. */
  function Wrap(x: int, bits: nat): (r: int)
    requires bits == 16 || bits == 32
    ensures -Modulus(bits) / 2 <= r < Modulus(bits) / 2
    ensures (x - r) % Modulus(bits) == 0
  {
    var m := Modulus(bits);
    var r := (x + m / 2) % m - m / 2;
    DivModUnique(x - r, m, (x + m / 2) / m, 0);
    r
  }

  /** `n` samples from `base`, each divided by `d`, summed: the inner loop of the kernel. */
  function SliceSum(buf: seq<int>, base: nat, n: nat, d: int): int
    requires d > 0 && base + n <= |buf|
  {
    if n == 0 then 0 else SliceSum(buf, base, n - 1, d) + CDiv(buf[base + n - 1], d)
  }

  /**
   * A circular buffer of samples with a read (or write) position, in samples,
   * and the number of channels of a frame.
   */
  datatype Ring = Ring(buf: seq<int>, pos: nat, channels: nat)

  /** The buffer holds whole frames and the position is at the start of a frame. */
  predicate RingOk(r: Ring)
  {
    r.channels > 0 && |r.buf| > 0 && |r.buf| % r.channels == 0 &&
    r.pos < |r.buf| && r.pos % r.channels == 0
  }

  /** Sample `k` of the `j`-th frame after the position, with wrap-around. */
  function Sample(r: Ring, j: nat, k: nat): int
    requires |r.buf| > 0
  {
    r.buf[(r.pos + j * r.channels + k) % |r.buf|]
  }

  /** The first `n` samples of frame `j`, each divided by `d`, summed. */
  function FrameSum(r: Ring, j: nat, n: nat, d: int): int
    requires |r.buf| > 0 && d > 0
  {
    if n == 0 then 0 else FrameSum(r, j, n - 1, d) + CDiv(Sample(r, j, n - 1), d)
  }

  /**
   * What one call of the kernel mixes: input 0, input 1 and whether it takes
   * part, the two dividers and the sample width in bits.
   */
  datatype Mix = Mix(in0: Ring, in1: Ring, use1: bool, div0: int, div1: int, bits: nat)

  predicate MixOk(m: Mix)
  {
    RingOk(m.in0) && (m.use1 ==> RingOk(m.in1)) && m.div0 > 0 && m.div1 > 0 &&
    (m.bits == 16 || m.bits == 32)
  }

  /**
   * The mixed value of frame `j`: every input-0 sample divided by `div0`,
   * plus every input-1 sample divided by `div1` when input 1 takes part.
   */
  function MixedFrame(m: Mix, j: nat): int
    requires MixOk(m)
  {
    FrameSum(m.in0, j, m.in0.channels, m.div0) + (if m.use1 then FrameSum(m.in1, j, m.in1.channels, m.div1) else 0)
  }

  /** The sample stored in every channel of output frame `j`: the mixed value truncated to the sample width. */
  function OutSample(m: Mix, j: nat): int
    requires MixOk(m)
  {
    Wrap(MixedFrame(m, j), m.bits)
  }

  /**
   * The length of the next chunk: up to the first buffer wrap, and no more
   * than the frames still to process.
   */
  function ChunkFrames(wrap0: nat, use1: bool, wrap1: nat, wrapOut: nat, remaining: nat): (n: nat)
    ensures n <= wrap0 && (use1 ==> n <= wrap1) && n <= wrapOut && n <= remaining
    ensures n == wrap0 || (use1 && n == wrap1) || n == wrapOut || n == remaining
  {
    var n0 := if use1 && wrap1 < wrap0 then wrap1 else wrap0;
    var n1 := if wrapOut < n0 then wrapOut else n0;
    if remaining < n1 then remaining else n1
  }

  // ---------------------------------------------------------------------
  // Arithmetic of positions in a circular buffer
  // ---------------------------------------------------------------------

  /** Moving `x` on from a position that is `w` after `b` stays below the end: the position `w + x` after `b`. */
  lemma ModAdvance(b: nat, w: nat, x: nat, len: nat)
    requires len > 0 && (b + w) % len + x < len
    ensures (b + w + x) % len == (b + w) % len + x
  {
    DivModUnique(b + w + x, len, (b + w) / len, (b + w) % len + x);
  }

  /** Advancing a position by a chunk that ends at or before the buffer end, and wrapping at the end. */
  lemma ModStep(b: nat, w: nat, x: nat, len: nat)
    requires len > 0 && (b + w) % len + x <= len
    ensures (b + w + x) % len == (if (b + w) % len + x == len then 0 else (b + w) % len + x)
  {
    if (b + w) % len + x == len {
      DivModUnique(b + w + x, len, (b + w) / len + 1, 0);
    } else {
      ModAdvance(b, w, x, len);
    }
  }

  /** In a buffer of whole frames, a frame-aligned position stays frame aligned. */
  lemma ModAligned(p: nat, len: nat, c: nat)
    requires c > 0 && len > 0 && len % c == 0 && p % c == 0
    ensures (p % len) % c == 0
  {
    var q := p / len;
    assert p == q * len + p % len;
    MultipleTrans(q * len, len, c) by { MulModZero(q, len); }
    MultipleSub(p, q * len, c);
  }

  /** `(q * c + r) / c == q` for `r < c`. */
  lemma DivSplit(q: nat, c: nat, r: nat)
    requires c > 0 && r < c
    ensures (q * c + r) / c == q && (q * c + r) % c == r
  {
    DivModUnique(q * c + r, c, q, r);
  }

  /** `(a / c) * c <= a`, so a chunk of `a / c` frames fits in `a` samples. */
  lemma DivMulBelow(a: nat, c: nat, n: nat)
    requires c > 0 && n <= a / c
    ensures n * c <= a
  {
    assert a == (a / c) * c + a % c;
    assert n * c <= (a / c) * c;
  }

  /** A whole number of frames before the end of a buffer of whole frames: at least one frame. */
  lemma AtLeastOneFrame(p: nat, len: nat, c: nat)
    requires c > 0 && p < len && len % c == 0 && p % c == 0
    ensures (len - p) / c >= 1
  {
    MultipleSub(len, p, c);
    var d := len - p;
    assert d == (d / c) * c;
  }

  /**
   * The offset of a cell from the start of the written window, in a buffer of
   * length `len`: cell `(start + d) % len` is `d` after `start` when `d < len`.
   */
  lemma OffsetOf(start: nat, d: nat, len: nat)
    requires start < len && d < len
    ensures ((start + d) % len - start) % len == d
  {
    var idx := (start + d) % len;
    if start + d < len {
      DivModUnique(start + d, len, 0, start + d);
      DivModUnique(idx - start, len, 0, d);
    } else {
      DivModUnique(start + d, len, 1, start + d - len);
      DivModUnique(idx - start, len, -1, d);
    }
  }

  /**
   * The cells of a chunk: with `po` the position `w` after `start`, the cells
   * `po .. po + n - 1` are exactly those whose offset from `start` lies in
   * `w .. w + n - 1`.
   */
  lemma ChunkCells(start: nat, w: nat, n: nat, len: nat, idx: nat)
    requires start < len && w + n <= len && (start + w) % len + n <= len && idx < len
    ensures var po := (start + w) % len;
            (po <= idx < po + n) <==> (w <= (idx - start) % len < w + n)
  {
    ChunkCellsForward(start, w, n, len, idx);
    ChunkCellsBackward(start, w, n, len, idx);
  }

  lemma ChunkCellsForward(start: nat, w: nat, n: nat, len: nat, idx: nat)
    requires start < len && w + n <= len && (start + w) % len + n <= len && idx < len
    ensures var po := (start + w) % len;
            po <= idx < po + n ==> w <= (idx - start) % len < w + n
  {
    var po := (start + w) % len;
    if po <= idx < po + n {
      ChunkCellOffset(start, w, len, idx - po, (start + w) / len, (idx - start) / len);
    }
  }

  lemma ChunkCellsBackward(start: nat, w: nat, n: nat, len: nat, idx: nat)
    requires start < len && w + n <= len && (start + w) % len + n <= len && idx < len
    ensures var po := (start + w) % len;
            w <= (idx - start) % len < w + n ==> po <= idx < po + n
  {
    var e := (idx - start) % len;
    if w <= e < w + n {
      ChunkOffsetCell(start, w, len, idx, e - w, (start + w) / len, (idx - start) / len);
    }
  }

  lemma ChunkCellOffset(start: nat, w: nat, len: nat, t: nat, a: int, b: int)
    requires start < len && w + t < len
    requires start + w == a * len + (start + w) % len
    requires (start + w) % len + t - start == b * len + ((start + w) % len + t - start) % len
    ensures ((start + w) % len + t - start) % len == w + t
  {
    var po := (start + w) % len;
    var e := (po + t - start) % len;
    assert w + t == (a + b) * len + e;
    DivModUnique(w + t, len, a + b, e);
    DivModUnique(w + t, len, 0, w + t);
  }

  lemma ChunkOffsetCell(start: nat, w: nat, len: nat, idx: nat, t: nat, a: int, b: int)
    requires start < len && idx < len && (start + w) % len + t < len
    requires start + w == a * len + (start + w) % len
    requires idx - start == b * len + (idx - start) % len
    requires (idx - start) % len == w + t
    ensures idx == (start + w) % len + t
  {
    var po := (start + w) % len;
    assert idx == (a + b) * len + (po + t);
    DivModUnique(idx, len, a + b, po + t);
    DivModUnique(idx, len, 0, idx);
  }

  /**
   * Inside a chunk the samples are contiguous: the slice of frame `i` of the
   * chunk that starts `f` frames after the ring position is frame `f + i` of
   * the ring.
   */
  lemma {:induction false} SliceIsFrame(r: Ring, f: nat, p: nat, i: nat, n: nat, d: int)
    requires RingOk(r) && d > 0 && n <= r.channels
    requires p == (r.pos + f * r.channels) % |r.buf| && p + (i + 1) * r.channels <= |r.buf|
    ensures p + i * r.channels + n <= |r.buf|
    ensures SliceSum(r.buf, p + i * r.channels, n, d) == FrameSum(r, f + i, n, d)
    decreases n
  {
    FrameStep(i, i + 1, r.channels);
    if n > 0 {
      SliceIsFrame(r, f, p, i, n - 1, d);
      SliceCell(r, f, p, i, n - 1);
    }
  }

  /** Channel `k` of frame `i` of the chunk is channel `k` of frame `f + i` of the ring. */
  lemma SliceCell(r: Ring, f: nat, p: nat, i: nat, k: nat)
    requires RingOk(r) && k < r.channels
    requires p == (r.pos + f * r.channels) % |r.buf| && p + (i + 1) * r.channels <= |r.buf|
    ensures p + i * r.channels + k < |r.buf|
    ensures r.buf[p + i * r.channels + k] == Sample(r, f + i, k)
  {
    var c := r.channels;
    var a, b := f * c, i * c;
    assert (i + 1) * c == b + c;
    assert (f + i) * c == a + b;
    ModAdvance(r.pos, a, b + k, |r.buf|);
    assert r.pos + (f + i) * c + k == r.pos + a + (b + k);
  }

  // ---------------------------------------------------------------------
  // The kernel
  // ---------------------------------------------------------------------

  /**
   * One mixed sample: the `ch0` samples of input 0 from `b0`, each divided by
   * `div0`, plus the `ch1` samples of input 1 from `b1`, each divided by
   * `div1` (no input-1 samples when `ch1` is 0).
   */
  method MixSample(in0: seq<int>, b0: nat, ch0: nat, div0: int,
                   in1: seq<int>, b1: nat, ch1: nat, div1: int) returns (mixed: int)
    requires div0 > 0 && div1 > 0 && b0 + ch0 <= |in0| && b1 + ch1 <= |in1|
    ensures mixed == SliceSum(in0, b0, ch0, div0) + SliceSum(in1, b1, ch1, div1)
  {
    mixed := 0;
    var k := 0;
    while k < ch0
      invariant k <= ch0 && mixed == SliceSum(in0, b0, k, div0)
    {
      mixed := mixed + CDiv(in0[b0 + k], div0);
      k := k + 1;
    }
    k := 0;
    while k < ch1
      invariant k <= ch1 && mixed == SliceSum(in0, b0, ch0, div0) + SliceSum(in1, b1, k, div1)
    {
      mixed := mixed + CDiv(in1[b1 + k], div1);
      k := k + 1;
    }
  }

  /** The index of channel `k` of frame `i` in a run of frames of `c` channels starting at `base`. */
  function Cell(base: nat, i: nat, c: nat, k: nat): nat
  {
    base + i * c + k
  }

  /** The innermost output loop: the mixed sample goes to every channel of the output frame at `o`. */
  method FillFrame(out: array<int>, o: nat, chOut: nat, v: int)
    requires o + chOut <= out.Length
    modifies out
    ensures forall idx :: o <= idx < o + chOut ==> out[idx] == v
    ensures forall idx :: 0 <= idx < out.Length && !(o <= idx < o + chOut) ==> out[idx] == old(out[idx])
  {
    var k := 0;
    while k < chOut
      invariant k <= chOut
      invariant forall idx :: o <= idx < o + k ==> out[idx] == v
      invariant forall idx :: 0 <= idx < out.Length && !(o <= idx < o + k) ==> out[idx] == old(out[idx])
    {
      out[o + k] := v;
      k := k + 1;
    }
  }

  /**
   * One chunk of `n` frames, contiguous in every buffer, starting `f` frames
   * after the ring positions: the input frames start at `p0` and `p1`, the
   * output frames at `po`. Every channel `k` of output frame `i` gets the
   * output sample of frame `f + i`; nothing outside the chunk's output cells
   * changes.
   */
  method MixChunk(out: array<int>, po: nat, chOut: nat, m: Mix, p0: nat, p1: nat, f: nat, n: nat)
    requires MixOk(m) && po + n * chOut <= out.Length
    requires p0 == (m.in0.pos + f * m.in0.channels) % |m.in0.buf| && p0 + n * m.in0.channels <= |m.in0.buf|
    requires m.use1 ==> p1 == (m.in1.pos + f * m.in1.channels) % |m.in1.buf| && p1 + n * m.in1.channels <= |m.in1.buf|
    modifies out
    ensures ChunkWritten(out[..], po, chOut, m, f, n)
    ensures Outside(old(out[..]), out[..], po, po + n * chOut)
  {
    var i := 0;
    var o := po;
    while i < n
      invariant i <= n && o == po + i * chOut && |out[..]| == out.Length
      invariant ChunkWritten(out[..], po, chOut, m, f, i)
      invariant Outside(old(out[..]), out[..], po, o)
    {
      MixFrame(out, po, chOut, m, p0, p1, f, i, n, o, old(out[..]));
      i, o := i + 1, o + chOut;
    }
  }

  /** One pass of the chunk loop: chunk frame `i`, at `o`, gets the output sample of frame `f + i`. */
  method MixFrame(out: array<int>, po: nat, chOut: nat, m: Mix, p0: nat, p1: nat, f: nat, i: nat, n: nat, o: nat,
                  ghost orig: seq<int>)
    requires MixOk(m) && i < n && po + n * chOut <= out.Length && o == po + i * chOut
    requires p0 == (m.in0.pos + f * m.in0.channels) % |m.in0.buf| && p0 + n * m.in0.channels <= |m.in0.buf|
    requires m.use1 ==> p1 == (m.in1.pos + f * m.in1.channels) % |m.in1.buf| && p1 + n * m.in1.channels <= |m.in1.buf|
    requires ChunkWritten(out[..], po, chOut, m, f, i) && Outside(orig, out[..], po, o)
    modifies out
    ensures ChunkWritten(out[..], po, chOut, m, f, i + 1) && Outside(orig, out[..], po, o + chOut)
  {
    FrameStep(i, n, chOut);
    var mixed := ChunkFrameMix(m, p0, p1, f, i, n);
    ghost var before := out[..];
    FillFrame(out, o, chOut, Wrap(mixed, m.bits));
    ChunkGrows(before, out[..], po, chOut, m, f, i, n, o);
  }

  /**
   * Writing the output sample of frame `f + i` to every channel of chunk
   * frame `i`, and nothing else, extends the written frames by one.
   */
  lemma ChunkGrows(before: seq<int>, after: seq<int>, po: nat, chOut: nat, m: Mix,
                    f: nat, i: nat, n: nat, o: nat)
    requires MixOk(m) && i < n && |before| == |after| && po + n * chOut <= |before|
    requires o == po + i * chOut && o + chOut <= |after|
    requires ChunkWritten(before, po, chOut, m, f, i)
    requires forall idx :: o <= idx < o + chOut ==> after[idx] == OutSample(m, f + i)
    requires forall idx :: 0 <= idx < |after| && !(o <= idx < o + chOut) ==> after[idx] == before[idx]
    ensures ChunkWritten(after, po, chOut, m, f, i + 1)
  {
    FrameStep(i, n, chOut);
    forall j, k | 0 <= j < i + 1 && 0 <= k < chOut
      ensures Cell(po, j, chOut, k) < po + (i + 1) * chOut && Cell(po, j, chOut, k) < |after|
      ensures after[Cell(po, j, chOut, k)] == OutSample(m, f + j)
    {
      CellGrows(before, after, po, chOut, m, f, i, o, j, k);
    }
  }

  /** One cell of the chunk frames written so far, after chunk frame `i` was written at `o`. */
  lemma CellGrows(before: seq<int>, after: seq<int>, po: nat, chOut: nat, m: Mix, f: nat, i: nat, o: nat,
                  j: nat, k: nat)
    requires MixOk(m) && |before| == |after| && o == po + i * chOut && o + chOut <= |after| && j <= i && k < chOut
    requires j < i ==> Cell(po, j, chOut, k) < o && before[Cell(po, j, chOut, k)] == OutSample(m, f + j)
    requires forall idx :: o <= idx < o + chOut ==> after[idx] == OutSample(m, f + i)
    requires forall idx :: 0 <= idx < |after| && !(o <= idx < o + chOut) ==> after[idx] == before[idx]
    ensures Cell(po, j, chOut, k) < o + chOut && after[Cell(po, j, chOut, k)] == OutSample(m, f + j)
  {
    if j == i {
      assert Cell(po, j, chOut, k) == o + k;
    }
  }

  /** Channel `k` of chunk frame `i` holds the output sample of frame `f + i`, for the first `n` frames. */
  predicate ChunkWritten(s: seq<int>, po: nat, chOut: nat, m: Mix, f: nat, n: nat)
    requires MixOk(m)
  {
    forall i, k :: 0 <= i < n && 0 <= k < chOut ==>
      Cell(po, i, chOut, k) < po + n * chOut && Cell(po, i, chOut, k) < |s| &&
      s[Cell(po, i, chOut, k)] == OutSample(m, f + i)
  }

  /** `t` is `s` except, possibly, in the cells `lo .. hi - 1`. */
  predicate Outside(s: seq<int>, t: seq<int>, lo: nat, hi: nat)
  {
    |t| == |s| && forall idx :: 0 <= idx < |s| && !(lo <= idx < hi) ==> t[idx] == s[idx]
  }

  /**
   * The mixing loops of frame `i` of a chunk: the sum of the frame's input-0
   * samples read from `p0 + i * ch0` on, each divided by `div0`, and, when
   * input 1 takes part, of its input-1 samples read from `p1 + i * ch1` on,
   * each divided by `div1`, is the mixed value of frame `f + i`.
   */
  method ChunkFrameMix(m: Mix, p0: nat, p1: nat, f: nat, i: nat, n: nat) returns (mixed: int)
    requires MixOk(m) && i < n
    requires p0 == (m.in0.pos + f * m.in0.channels) % |m.in0.buf| && p0 + n * m.in0.channels <= |m.in0.buf|
    requires m.use1 ==> p1 == (m.in1.pos + f * m.in1.channels) % |m.in1.buf| && p1 + n * m.in1.channels <= |m.in1.buf|
    ensures mixed == MixedFrame(m, f + i)
  {
    var ch0 := m.in0.channels;
    FrameStep(i, n, ch0);
    SliceIsFrame(m.in0, f, p0, i, ch0, m.div0);
    if m.use1 {
      var ch1 := m.in1.channels;
      FrameStep(i, n, ch1);
      SliceIsFrame(m.in1, f, p1, i, ch1, m.div1);
      mixed := MixSample(m.in0.buf, p0 + i * ch0, ch0, m.div0, m.in1.buf, p1 + i * ch1, ch1, m.div1);
    } else {
      mixed := MixSample(m.in0.buf, p0 + i * ch0, ch0, m.div0, m.in1.buf, 0, 0, m.div1);
    }
  }

  /** Frame `i < n` of a chunk of `n` frames of `c` cells ends inside the chunk. */
  lemma FrameStep(i: nat, n: nat, c: nat)
    requires i < n
    ensures (i + 1) * c == i * c + c && i * c + c <= n * c
  {
    assert (i + 1) * c <= n * c by { MulLe(i + 1, n, c); }
  }

  lemma MulLe(a: nat, b: nat, c: nat)
    requires a <= b
    ensures a * c <= b * c
  {
  }

  // ---------------------------------------------------------------------
  // The chunk loop over circular buffers
  // ---------------------------------------------------------------------

  /** The index of channel `k` of the `j`-th frame after `pos` in a circular buffer of `len` cells. */
  function RingCell(pos: nat, j: nat, c: nat, k: nat, len: nat): nat
    requires len > 0
  {
    (pos + j * c + k) % len
  }

  /** Every channel of the first `count` output frames after `outPos` holds its output sample. */
  predicate Written(s: seq<int>, outPos: nat, chOut: nat, m: Mix, count: nat)
    requires MixOk(m) && |s| > 0
  {
    forall j, k :: 0 <= j < count && 0 <= k < chOut ==> s[RingCell(outPos, j, chOut, k, |s|)] == OutSample(m, j)
  }

  /** `s` is `s0` in every cell at least `from` cells after `outPos`, counting with wrap-around. */
  predicate Untouched(s0: seq<int>, s: seq<int>, outPos: nat, from: int)
  {
    |s| == |s0| && |s| > 0 &&
    forall idx :: 0 <= idx < |s| && (idx - outPos) % |s| >= from ==> s[idx] == s0[idx]
  }

  /**
   * The kernel: `frames` output frames from `outPos` on, with wrap-around at
   * the end of `out`, each holding in every channel the output sample of the
   * input frames at the same distance from the input positions; the rest of
   * `out` is left as it was. The work is done chunk by chunk, each chunk
   * ending at the next wrap of one of the buffers or at the last frame.
   */
  method ProcessFrames(out: array<int>, outPos: nat, chOut: nat, m: Mix, frames: nat)
    requires MixOk(m) && chOut > 0 && out.Length % chOut == 0
    requires outPos < out.Length && outPos % chOut == 0 && frames * chOut <= out.Length
    modifies out
    ensures |out[..]| > 0 && Written(out[..], outPos, chOut, m, frames)
    ensures Untouched(old(out[..]), out[..], outPos, frames * chOut)
  {
    var L := out.Length;
    var done := 0;
    var p0: nat, p1: nat, po: nat := m.in0.pos, if m.use1 then m.in1.pos else 0, outPos;
    StartPositions(m, outPos, chOut, L);
    while done < frames
      invariant done <= frames && out.Length == L
      invariant Positions(m, outPos, chOut, L, done, p0, p1, po)
      invariant Written(out[..], outPos, chOut, m, done)
      invariant Untouched(old(out[..]), out[..], outPos, done * chOut)
      decreases frames - done
    {
      var n := NextChunk(m, p0, p1, po, chOut, L, frames - done);
      ghost var before := out[..];
      MixChunk(out, po, chOut, m, p0, p1, done, n);
      ChunkExtends(old(out[..]), before, out[..], outPos, chOut, m, done, n, frames, po);
      p0, p1, po := AdvanceAll(m, outPos, chOut, L, done, n, p0, p1, po);
      done := done + n;
    }
  }

  /**
   * The positions in the three buffers, `done` frames after their starts:
   * each at the start of a frame.
   */
  predicate Positions(m: Mix, outPos: nat, chOut: nat, L: nat, done: nat, p0: nat, p1: nat, po: nat)
    requires MixOk(m) && L > 0 && chOut > 0
  {
    p0 == (m.in0.pos + done * m.in0.channels) % |m.in0.buf| && p0 % m.in0.channels == 0 &&
    (m.use1 ==> p1 == (m.in1.pos + done * m.in1.channels) % |m.in1.buf| && p1 % m.in1.channels == 0) &&
    po == (outPos + done * chOut) % L && po % chOut == 0
  }

  /** Before the first chunk every position is its buffer's start. */
  lemma StartPositions(m: Mix, outPos: nat, chOut: nat, L: nat)
    requires MixOk(m) && chOut > 0 && outPos < L && outPos % chOut == 0
    ensures Positions(m, outPos, chOut, L, 0, m.in0.pos, if m.use1 then m.in1.pos else 0, outPos)
  {
    DivModUnique(m.in0.pos, |m.in0.buf|, 0, m.in0.pos);
    DivModUnique(outPos, L, 0, outPos);
    if m.use1 {
      DivModUnique(m.in1.pos, |m.in1.buf|, 0, m.in1.pos);
    }
  }

  /** The end of a chunk: every position in use moves on by `n` frames, wrapping at the end of its buffer. */
  method AdvanceAll(m: Mix, outPos: nat, chOut: nat, L: nat, done: nat, n: nat, p0: nat, p1: nat, po: nat)
    returns (p0': nat, p1': nat, po': nat)
    requires MixOk(m) && chOut > 0 && L > 0 && L % chOut == 0 && outPos % chOut == 0
    requires Positions(m, outPos, chOut, L, done, p0, p1, po)
    requires po + n * chOut <= L && p0 + n * m.in0.channels <= |m.in0.buf|
    requires m.use1 ==> p1 + n * m.in1.channels <= |m.in1.buf|
    ensures Positions(m, outPos, chOut, L, done + n, p0', p1', po')
  {
    p0' := Advance(m.in0.pos, done, n, m.in0.channels, |m.in0.buf|, p0);
    p1' := p1;
    if m.use1 {
      p1' := Advance(m.in1.pos, done, n, m.in1.channels, |m.in1.buf|, p1);
    }
    po' := Advance(outPos, done, n, chOut, L, po);
  }

  /**
   * The number of frames of the next chunk: the frames up to the end of each
   * buffer in use (input 1 only when it takes part), and no more than the
   * frames still to process. The chunk holds at least one frame and fits in
   * every buffer in use.
   */
  function NextChunk(m: Mix, p0: nat, p1: nat, po: nat, chOut: nat, L: nat, remaining: nat): (n: nat)
    requires MixOk(m) && p0 < |m.in0.buf| && p0 % m.in0.channels == 0
    requires m.use1 ==> p1 < |m.in1.buf| && p1 % m.in1.channels == 0
    requires chOut > 0 && po < L && L % chOut == 0 && po % chOut == 0 && remaining > 0
    ensures 1 <= n <= remaining && po + n * chOut <= L && p0 + n * m.in0.channels <= |m.in0.buf|
    ensures m.use1 ==> p1 + n * m.in1.channels <= |m.in1.buf|
  {
    var len0, ch0, len1, ch1 := |m.in0.buf|, m.in0.channels, |m.in1.buf|, m.in1.channels;
    var wrap0, wrapOut := FramesLeft(p0, len0, ch0), FramesLeft(po, L, chOut);
    var wrap1 := if m.use1 then FramesLeft(p1, len1, ch1) else 0;
    var n := ChunkFrames(wrap0, m.use1, wrap1, wrapOut, remaining);
    MulLe(n, wrap0, ch0);
    MulLe(n, wrapOut, chOut);
    if m.use1 then
      MulLe(n, wrap1, ch1);
      n
    else
      n
  }

  /** The whole frames from `p` to the end of a buffer of whole frames: at least one, and they fit. */
  function FramesLeft(p: nat, len: nat, c: nat): (w: nat)
    requires c > 0 && p < len && len % c == 0 && p % c == 0
    ensures w == (len - p) / c && w >= 1 && p + w * c <= len
  {
    AtLeastOneFrame(p, len, c);
    DivMulBelow(len - p, c, (len - p) / c);
    (len - p) / c
  }

  /**
   * Moving a position on by a chunk of `n` frames and wrapping it at the end
   * of the buffer: the position `done + n` frames after the start.
   */
  method Advance(start: nat, done: nat, n: nat, c: nat, len: nat, p: nat) returns (p': nat)
    requires c > 0 && len > 0 && len % c == 0 && start % c == 0
    requires p == (start + done * c) % len && p % c == 0 && p + n * c <= len
    ensures p' == (start + (done + n) * c) % len && p' % c == 0
  {
    var w, x := done * c, n * c;
    assert (done + n) * c == w + x;
    ModStep(start, w, x, len);
    MulModZero(n, c);
    p' := p + x;
    if p' >= len {
      p' := p' - len;
    } else {
      MultipleAdd(p, x, c);
    }
  }

  /**
   * One chunk more: when the first `done` frames were written and the chunk
   * of the next `n` frames was written at `po` without touching anything
   * else, the first `done + n` frames are written and the cells beyond them
   * are still untouched.
   */
  lemma ChunkExtends(orig: seq<int>, before: seq<int>, after: seq<int>, outPos: nat, chOut: nat,
                     m: Mix, done: nat, n: nat, frames: nat, po: nat)
    requires MixOk(m) && chOut > 0 && |before| > 0 && outPos < |before| && done + n <= frames
    requires frames * chOut <= |before| && po == (outPos + done * chOut) % |before| && po + n * chOut <= |before|
    requires Written(before, outPos, chOut, m, done) && Untouched(orig, before, outPos, done * chOut)
    requires ChunkWritten(after, po, chOut, m, done, n) && Outside(before, after, po, po + n * chOut)
    ensures Written(after, outPos, chOut, m, done + n)
    ensures Untouched(orig, after, outPos, (done + n) * chOut)
  {
    var L := |before|;
    assert (done + n) * chOut == done * chOut + n * chOut;
    assert (done + n) * chOut <= frames * chOut by { MulLe(done + n, frames, chOut); }
    forall j, k | 0 <= j < done + n && 0 <= k < chOut
      ensures after[RingCell(outPos, j, chOut, k, L)] == OutSample(m, j)
    {
      if j < done {
        EarlierCellOutsideChunk(outPos, chOut, L, done, n, po, j, k);
      } else {
        ChunkCellIsRingCell(outPos, chOut, L, done, n, po, j - done, k);
      }
    }
    forall idx | 0 <= idx < L && (idx - outPos) % L >= (done + n) * chOut
      ensures after[idx] == orig[idx]
    {
      ChunkCells(outPos, done * chOut, n * chOut, L, idx);
    }
  }

  /** A cell of one of the first `done` frames lies outside the chunk that follows them. */
  lemma EarlierCellOutsideChunk(outPos: nat, chOut: nat, L: nat, done: nat, n: nat, po: nat, j: nat, k: nat)
    requires chOut > 0 && outPos < L && j < done && k < chOut
    requires (done + n) * chOut <= L && po == (outPos + done * chOut) % L && po + n * chOut <= L
    ensures !(po <= RingCell(outPos, j, chOut, k, L) < po + n * chOut)
  {
    FrameStep(j, done, chOut);
    assert (done + n) * chOut == done * chOut + n * chOut;
    OffsetOf(outPos, j * chOut + k, L);
    ChunkCells(outPos, done * chOut, n * chOut, L, RingCell(outPos, j, chOut, k, L));
  }

  /** Channel `k` of chunk frame `i` is channel `k` of frame `done + i` of the ring. */
  lemma ChunkCellIsRingCell(outPos: nat, chOut: nat, L: nat, done: nat, n: nat, po: nat, i: nat, k: nat)
    requires chOut > 0 && L > 0 && i < n && k < chOut
    requires po == (outPos + done * chOut) % L && po + n * chOut <= L
    ensures RingCell(outPos, done + i, chOut, k, L) == Cell(po, i, chOut, k)
  {
    FrameStep(i, n, chOut);
    assert (done + i) * chOut == done * chOut + i * chOut;
    ModAdvance(outPos, done * chOut, i * chOut + k, L);
  }
}

=== FILE: glitch.dfy ===
/**
 * The glitch detector's helpers: the distance a buffer pointer moved, the
 * low-latency tick counter that opens a print window, the split of a mark
 * written at a buffer position that may wrap, the search for a jump between
 * consecutive samples of a channel, and the check across the boundary of two
 * chunks.
 *
 * Buffers are circular. Positions are offsets from the buffer start; the
 * sample searches read 32-bit samples, so their positions and lengths are
 * counted in samples.
 */
module Glitch {
  import Align
  /** `ALLOWED_DIFF`: the largest step between consecutive samples of a channel that is not a glitch. */
  const ALLOWED_DIFF: int := 217000000

  /** `DEBUG_MAX_CHANNELS`: the channels a sample history holds. */
  const DEBUG_MAX_CHANNELS: nat := 2

  const INT32_MIN: int := -0x8000_0000
  const INT32_MAX: int := 0x7FFF_FFFF

  /** One more than the largest `uintptr_t` / `uint32_t`. */
  const WORD_LIMIT: int := 0x1_0000_0000

  // ---------------------------------------------------------------------
  // Pointer distance
  // ---------------------------------------------------------------------

  /**
   * `calc_pos_diff`: how far a position moved from `prev` to `cur` in the
   * circular buffer `[addr, endAddr)`, in `uintptr_t` arithmetic.
   */
  function CalcPosDiff(addr: nat, endAddr: nat, prev: nat, cur: nat): nat
    requires addr < WORD_LIMIT && endAddr < WORD_LIMIT && prev < WORD_LIMIT && cur < WORD_LIMIT
  {
    if cur >= prev then cur - prev
    else ((cur - addr) % WORD_LIMIT + (endAddr - prev) % WORD_LIMIT) % WORD_LIMIT
  }

  /**
   * For positions inside the buffer the distance is shorter than the buffer,
   * and moving `prev` on by it, wrapping at the end, lands on `cur`.
   */
  lemma PosDiffAdvances(addr: nat, endAddr: nat, prev: nat, cur: nat)
    requires endAddr < WORD_LIMIT && addr <= prev < endAddr && addr <= cur < endAddr
    ensures CalcPosDiff(addr, endAddr, prev, cur) < endAddr - addr
    ensures (prev - addr + CalcPosDiff(addr, endAddr, prev, cur)) % (endAddr - addr) == cur - addr
  {
    var size := endAddr - addr;
    if cur >= prev {
      Align.DivModUnique(cur - addr, size, 0, cur - addr);
    } else {
      Align.DivModUnique(cur - addr, WORD_LIMIT, 0, cur - addr);
      Align.DivModUnique(endAddr - prev, WORD_LIMIT, 0, endAddr - prev);
      Align.DivModUnique(cur - addr + endAddr - prev, WORD_LIMIT, 0, cur - addr + endAddr - prev);
      Align.DivModUnique(size + (cur - addr), size, 1, cur - addr);
    }
  }

  // ---------------------------------------------------------------------
  // The low-latency tick counter
  // ---------------------------------------------------------------------

  /** The counter after one tick: it counts up and goes back to 0 at 1000. */
  function NextTick(counter: int): int
  {
    if counter + 1 >= 1000 then 0 else counter + 1
  }

  /** The last 9 ticks of every 1000 print. */
  predicate PrintWindow(counter: int)
  {
    counter > 990
  }

  /** The counter after `n` ticks. */
  function Ticks(counter: int, n: nat): int
  {
    if n == 0 then counter else NextTick(Ticks(counter, n - 1))
  }

  /**
   * From a counter in 0 .. 999 the counter after `n` ticks is the start plus
   * `n`, modulo 1000: it stays in range and prints on exactly the ticks that
   * bring it past 990.
   */
  lemma {:induction false} TicksWrap(counter: int, n: nat)
    requires 0 <= counter < 1000
    ensures Ticks(counter, n) == (counter + n) % 1000
    ensures 0 <= Ticks(counter, n) < 1000
    ensures PrintWindow(Ticks(counter, n)) <==> (counter + n) % 1000 > 990
  {
    if n > 0 {
      TicksWrap(counter, n - 1);
      var c := (counter + n - 1) % 1000;
      Align.DivModUnique(counter + n - 1, 1000, (counter + n - 1) / 1000, c);
      if c + 1 == 1000 {
        Align.DivModUnique(counter + n, 1000, (counter + n - 1) / 1000 + 1, 0);
      } else {
        Align.DivModUnique(counter + n, 1000, (counter + n - 1) / 1000, c + 1);
      }
    }
  }

  /** The globals `ll_counter` and `ll_print`. */
  class LlTicker {
    var llCounter: int
    var llPrint: bool

    /** Both globals start zero. */
    constructor ()
      ensures llCounter == 0 && !llPrint
    {
      llCounter, llPrint := 0, false;
    }

    /**
     * `glitcher_ll_begin`: one tick of the counter, and the print flag set
     * exactly when the new count is in the print window.
     */
    method Begin()
      modifies this
      ensures llCounter == NextTick(old(llCounter))
      ensures llPrint <==> PrintWindow(llCounter)
      ensures 0 <= old(llCounter) < 1000 ==> 0 <= llCounter < 1000
    {
      llCounter := llCounter + 1;
      if llCounter >= 1000 {
        llCounter := 0;
      }
      llPrint := llCounter > 990;
    }
  }

  // ---------------------------------------------------------------------
  // Marking the start of a buffer
  // ---------------------------------------------------------------------

  /** The bytes `mark_buffer` marks: one frame, cut down to the bytes of the chunk. */
  function MarkBytes(debugBytes: nat, channels: nat, sampleBytes: nat): (bytes: nat)
    ensures bytes <= debugBytes && bytes <= (channels * sampleBytes) % WORD_LIMIT
  {
    var frame := (1 * channels * sampleBytes) % WORD_LIMIT;
    if debugBytes < frame then debugBytes else frame
  }

  /**
   * The split of `mark_buffer`: `bytes` from `ptr` in a buffer ending at
   * `endAddr`, as a head up to the end and a tail from the buffer start.
   * Head and tail make up the bytes; the tail is not empty exactly when the
   * bytes cross the end, and then the head ends at the end.
   */
  function MarkSplit(bytes: nat, ptr: nat, endAddr: nat): (r: (nat, nat))
    requires ptr <= endAddr
    ensures r.0 + r.1 == bytes
    ensures r.1 > 0 <==> ptr + bytes > endAddr
    ensures ptr + r.0 <= endAddr
    ensures r.1 > 0 ==> ptr + r.0 == endAddr
  {
    if ptr + bytes > endAddr then (endAddr - ptr, bytes - (endAddr - ptr)) else (bytes, 0)
  }

  /**
   * `mark_buffer`, over the bytes of the buffer: the head is filled with the
   * high byte of the fill symbol, the tail, at the buffer start, with its
   * low byte; every other byte is kept.
   */
  method MarkBuffer(stream: array<int>, ptr: nat, debugBytes: nat, channels: nat, sampleBytes: nat, fillSymbol: nat)
    requires ptr < stream.Length && fillSymbol < 0x1_0000
    requires MarkBytes(debugBytes, channels, sampleBytes) <= stream.Length
    modifies stream
    ensures var (head, tail) := MarkSplit(MarkBytes(debugBytes, channels, sampleBytes), ptr, stream.Length);
            forall i :: 0 <= i < stream.Length ==>
              stream[i] == (if ptr <= i < ptr + head then fillSymbol / 256
                            else if i < tail then fillSymbol % 256
                            else old(stream[i]))
  {
    var bytes := MarkBytes(debugBytes, channels, sampleBytes);
    var (head, tail) := MarkSplit(bytes, ptr, stream.Length);
    forall i | ptr <= i < ptr + head {
      stream[i] := fillSymbol / 256;
    }
    if tail > 0 {
      forall i | 0 <= i < tail {
        stream[i] := fillSymbol % 256;
      }
    }
  }

  // ---------------------------------------------------------------------
  // Jumps between samples
  // ---------------------------------------------------------------------

  /** The distance between two samples. */
  function AbsDiff(a: int, b: int): (d: int)
    ensures d >= 0 && (d == a - b || d == b - a)
  {
    if a > b then a - b else b - a
  }

  /** A step from `last` to `s` is a glitch: the samples are more than `ALLOWED_DIFF` apart. */
  predicate Jump(last: int, s: int)
  {
    AbsDiff(last, s) > ALLOWED_DIFF
  }

  /** Sample `j` after `ptr` in the circular buffer. */
  function RingSample(buf: seq<int>, ptr: nat, j: nat): int
    requires |buf| > 0
  {
    buf[(ptr + j) % |buf|]
  }

  /**
   * Some sample of the `samples` after `ptr`, past the first frame, jumps
   * from the sample of the same channel one frame earlier.
   */
  predicate HasGlitch(buf: seq<int>, ptr: nat, channels: nat, samples: nat)
    requires |buf| > 0
  {
    exists i :: 0 <= i && i + channels < samples && Jump(RingSample(buf, ptr, i), RingSample(buf, ptr, i + channels))
  }

  /** A position at the start of a frame of a buffer of whole frames leaves room for a frame. */
  lemma FrameFits(p: nat, len: nat, c: nat)
    requires c > 0 && p < len && p % c == 0 && len % c == 0
    ensures p + c <= len
  {
    Align.MultipleSub(len, p, c);
    Align.MulAtLeast((len - p) / c, c);
  }

  /**
   * `find_glitch`: the first frame is copied as the last sample of each
   * channel; then every later sample, wrapping at the buffer end, is
   * compared with the last sample of its channel and replaces it. It
   * reports a glitch exactly when some sample jumps from the one a frame
   * earlier.
   */
  method FindGlitch(buf: seq<int>, ptr: nat, bytes: nat, sampleBytes: nat, channels: nat) returns (found: bool)
    requires channels > 0 && sampleBytes > 0 && |buf| % channels == 0
    requires ptr < |buf| && ptr % channels == 0 && bytes / sampleBytes >= channels
    ensures found <==> HasGlitch(buf, ptr, channels, bytes / sampleBytes)
  {
    var last := new int[channels];
    FrameFits(ptr, |buf|, channels);
    forall k | 0 <= k < channels {
      last[k] := buf[ptr + k];
    }
    var total := bytes / sampleBytes;
    var samples: nat := total - channels;
    var src: nat := ptr + channels;
    var i: nat := 0;
    ghost var laps: nat := 0;
    FirstWindow(last[..], buf, ptr, channels);
    while i < samples
      invariant i <= samples && src <= |buf|
      invariant ptr + channels + i == src + laps * |buf|
      invariant Window(last[..], buf, ptr, i, channels)
      invariant Calm(buf, ptr, channels, i)
    {
      if src >= |buf| {
        src, laps := 0, laps + 1;
      }
      SampleAtSrc(buf, ptr, i, channels, src, laps);
      WindowAt(last[..], buf, ptr, i, channels);
      var l := last[i % channels];
      var s := buf[src];
      var dif := AbsDiff(l, s);
      if dif > ALLOWED_DIFF {
        GlitchAt(buf, ptr, channels, i, total);
        return true;
      }
      ghost var before := last[..];
      last[i % channels] := s;
      WindowMoves(before, last[..], buf, ptr, i, channels);
      src := src + 1;
      i := i + 1;
    }
    CalmThroughout(buf, ptr, channels, total);
    return false;
  }

  /** `last` holds, for samples `from` to `from + channels - 1`, each in the entry of its channel. */
  predicate Window(last: seq<int>, buf: seq<int>, ptr: nat, from: nat, channels: nat)
    requires |buf| > 0 && channels > 0
  {
    |last| == channels &&
    forall j :: from <= j < from + channels ==> last[j % channels] == RingSample(buf, ptr, j)
  }

  /** No sample before `upTo` is followed, a frame later, by a jump. */
  predicate Calm(buf: seq<int>, ptr: nat, channels: nat, upTo: nat)
    requires |buf| > 0
  {
    forall t :: 0 <= t < upTo ==> !Jump(RingSample(buf, ptr, t), RingSample(buf, ptr, t + channels))
  }

  /** The sample under the loop's pointer is sample `i + channels` after `ptr`. */
  lemma SampleAtSrc(buf: seq<int>, ptr: nat, i: nat, channels: nat, src: nat, laps: nat)
    requires src < |buf| && ptr + channels + i == src + laps * |buf|
    ensures buf[src] == RingSample(buf, ptr, i + channels)
  {
    Align.DivModUnique(ptr + (i + channels), |buf|, laps, src);
  }

  lemma WindowAt(last: seq<int>, buf: seq<int>, ptr: nat, i: nat, channels: nat)
    requires |buf| > 0 && channels > 0 && Window(last, buf, ptr, i, channels)
    ensures last[i % channels] == RingSample(buf, ptr, i)
  {
  }

  /** A jump at `i`, inside the samples, is a glitch. */
  lemma GlitchAt(buf: seq<int>, ptr: nat, channels: nat, i: nat, total: nat)
    requires |buf| > 0 && i + channels < total
    requires Jump(RingSample(buf, ptr, i), RingSample(buf, ptr, i + channels))
    ensures HasGlitch(buf, ptr, channels, total)
  {
  }

  /** No jump before the last frame: no glitch. */
  lemma CalmThroughout(buf: seq<int>, ptr: nat, channels: nat, total: nat)
    requires |buf| > 0 && total >= channels && Calm(buf, ptr, channels, total - channels)
    ensures !HasGlitch(buf, ptr, channels, total)
  {
  }

  /** The first frame copied from `ptr` is the window of last samples before the first comparison. */
  lemma FirstWindow(last: seq<int>, buf: seq<int>, ptr: nat, channels: nat)
    requires channels > 0 && ptr + channels <= |buf| && |last| == channels
    requires forall k :: 0 <= k < channels ==> last[k] == buf[ptr + k]
    ensures Window(last, buf, ptr, 0, channels)
  {
    forall j | 0 <= j < channels
      ensures last[j % channels] == RingSample(buf, ptr, j)
    {
      Align.DivModUnique(j, channels, 0, j);
      Align.DivModUnique(ptr + j, |buf|, 0, ptr + j);
    }
  }

  /**
   * Replacing the last sample of channel `i % channels` with sample
   * `i + channels` moves the window of last samples on by one.
   */
  lemma WindowMoves(before: seq<int>, after: seq<int>, buf: seq<int>, ptr: nat, i: nat, channels: nat)
    requires channels > 0 && |buf| > 0 && |before| == |after| == channels
    requires Window(before, buf, ptr, i, channels)
    requires after == before[i % channels := RingSample(buf, ptr, i + channels)]
    ensures Window(after, buf, ptr, i + 1, channels)
  {
    forall j | i + 1 <= j < i + 1 + channels
      ensures after[j % channels] == RingSample(buf, ptr, j)
    {
      if j == i + channels {
        Align.DivModUnique(j, channels, i / channels + 1, i % channels);
      } else {
        SameResidueAfter(i, j, channels);
      }
    }
  }

  /** Two indices less than `c` apart, the later one above the earlier, have different residues modulo `c`. */
  lemma SameResidueAfter(i: nat, j: nat, c: nat)
    requires c > 0 && i < j < i + c
    ensures j % c != i % c
  {
    if j % c == i % c {
      assert j - i == (j / c - i / c) * c;
      Align.MulAtLeast(j / c - i / c, c);
    }
  }

  // ---------------------------------------------------------------------
  // The boundary between two chunks
  // ---------------------------------------------------------------------

  /**
   * The position `check_buffer_connect` computes for the last frame of a
   * chunk of `samples` from `ptr`: one frame back from the chunk's end,
   * wrapped at the buffer end only.
   */
  function LastFramePosAsWritten(ptr: nat, samples: nat, channels: nat, len: nat): int
  {
    if ptr + samples - channels >= len then ptr + samples - channels - len else ptr + samples - channels
  }

  /**
   * The frame before the end of the chunk, wrapped at either end of the
   * buffer: for an empty chunk it is the frame just before `ptr`.
   */
  function LastFramePos(ptr: nat, samples: nat, channels: nat, len: nat): int
  {
    var q := ptr + samples - channels;
    if q >= len then q - len else if q < 0 then q + len else q
  }

  /**
   * An empty chunk at the buffer start: the position as written lies a frame
   * before the buffer, while the frame before the chunk is the buffer's last.
   */
  lemma EmptyChunkReadsBeforeBuffer(channels: nat, len: nat)
    requires 0 < channels <= len
    ensures LastFramePosAsWritten(0, 0, channels, len) + channels == 0
    ensures LastFramePos(0, 0, channels, len) == len - channels
  {
  }

  /** Whenever the chunk ends at least a frame past the buffer start, the two positions agree. */
  lemma LastFramePosAgrees(ptr: nat, samples: nat, channels: nat, len: nat)
    requires ptr + samples >= channels
    ensures LastFramePos(ptr, samples, channels, len) == LastFramePosAsWritten(ptr, samples, channels, len)
  {
  }

  /**
   * `check_buffer_connect`, with the chunk's length in samples. With more
   * channels than a history holds it fails and changes nothing. Otherwise it
   * reports a glitch exactly when the first frame of the chunk jumps from
   * the history in some channel, and ends with the history holding the
   * chunk's last frame.
   */
  method CheckBufferConnect(history: array<int>, buf: seq<int>, ptr: nat, samples: nat, channels: nat)
    returns (glitch: bool)
    requires history.Length == DEBUG_MAX_CHANNELS && ptr < |buf|
    requires channels <= DEBUG_MAX_CHANNELS ==> samples <= |buf|
    requires 0 < channels <= DEBUG_MAX_CHANNELS ==>
               |buf| % channels == 0 && ptr % channels == 0 && samples % channels == 0
    modifies history
    ensures channels > DEBUG_MAX_CHANNELS ==> !glitch && history[..] == old(history[..])
    ensures channels <= DEBUG_MAX_CHANNELS ==>
              (glitch <==> exists k :: 0 <= k < channels && Jump(old(history[k]), buf[ptr + k]))
    ensures channels <= DEBUG_MAX_CHANNELS ==>
              var p := LastFramePos(ptr, samples, channels, |buf|);
              0 <= p && p + channels <= |buf| &&
              (forall k :: 0 <= k < channels ==> history[k] == buf[p + k]) &&
              forall k :: channels <= k < DEBUG_MAX_CHANNELS ==> history[k] == old(history[k])
  {
    if channels > DEBUG_MAX_CHANNELS {
      return false;
    }
    if channels > 0 {
      FrameFits(ptr, |buf|, channels);
    }
    glitch := CompareFirstFrame(history, buf, ptr, channels);
    var src := ptr + samples - channels;
    if src >= |buf| {
      src := src - |buf|;
    } else if src < 0 {
      src := src + |buf|;
    }
    if channels > 0 {
      LastFrameAligned(ptr, samples, channels, |buf|);
      FrameFits(src, |buf|, channels);
    }
    CopyLastFrame(history, buf, src, channels);
  }

  /**
   * The first loop of `check_buffer_connect`: channel by channel, compare the
   * history with the chunk's first frame and store that frame's sample, up
   * to the first channel that jumps. A glitch is reported exactly when some
   * channel jumps; the history beyond `channels` stays as it was.
   */
  method CompareFirstFrame(history: array<int>, buf: seq<int>, ptr: nat, channels: nat) returns (glitch: bool)
    requires history.Length == DEBUG_MAX_CHANNELS && channels <= DEBUG_MAX_CHANNELS && ptr + channels <= |buf|
    modifies history
    ensures glitch <==> exists k :: 0 <= k < channels && Jump(old(history[k]), buf[ptr + k])
    ensures forall k :: channels <= k < DEBUG_MAX_CHANNELS ==> history[k] == old(history[k])
  {
    glitch := false;
    var i := 0;
    while i < channels
      invariant i <= channels
      invariant forall k :: 0 <= k < i ==> !Jump(old(history[k]), buf[ptr + k])
      invariant forall k :: i <= k < DEBUG_MAX_CHANNELS ==> history[k] == old(history[k])
    {
      var last := history[i];
      var dif := AbsDiff(last, buf[ptr + i]);
      history[i] := buf[ptr + i];
      if dif > ALLOWED_DIFF {
        glitch := true;
        break;
      }
      i := i + 1;
    }
  }

  /** The second loop of `check_buffer_connect`: the history takes the frame at `src`; the rest stays. */
  method CopyLastFrame(history: array<int>, buf: seq<int>, src: nat, channels: nat)
    requires history.Length == DEBUG_MAX_CHANNELS && channels <= DEBUG_MAX_CHANNELS && src + channels <= |buf|
    modifies history
    ensures forall k :: 0 <= k < channels ==> history[k] == buf[src + k]
    ensures forall k :: channels <= k < DEBUG_MAX_CHANNELS ==> history[k] == old(history[k])
  {
    var i := 0;
    while i < channels
      invariant i <= channels
      invariant forall k :: 0 <= k < i ==> history[k] == buf[src + k]
      invariant forall k :: channels <= k < DEBUG_MAX_CHANNELS ==> history[k] == old(history[k])
    {
      history[i] := buf[src + i];
      i := i + 1;
    }
  }

  /** The last frame of a chunk of whole frames starts at a frame inside the buffer. */
  lemma LastFrameAligned(ptr: nat, samples: nat, channels: nat, len: nat)
    requires 0 < channels && samples <= len && ptr < len
    requires len % channels == 0 && ptr % channels == 0 && samples % channels == 0
    ensures var p := LastFramePos(ptr, samples, channels, len);
            0 <= p < len && p % channels == 0
  {
    Align.MultipleAdd(ptr, samples, channels);
    Align.MulModZero(1, channels);
    if ptr + samples < channels {
      Align.MulModZero(0, channels);
      Align.MultipleUnique(0, ptr + samples, channels);
      FrameFits(0, len, channels);
      Align.MultipleSub(len, channels, channels);
    } else {
      var s := ptr + samples - channels;
      Align.MultipleSub(ptr + samples, channels, channels);
      if s >= len {
        Align.MultipleSub(s, len, channels);
      }
    }
  }

  // ---------------------------------------------------------------------
  // The difference as written
  // ---------------------------------------------------------------------

  /** A 32-bit signed result: the value of the same residue in the `int32_t` range. */
  function Int32(x: int): (r: int)
    ensures INT32_MIN <= r <= INT32_MAX
  {
    (x - INT32_MIN) % WORD_LIMIT + INT32_MIN
  }

  /**
   * The glitch test as the two loops write it: the difference is taken in
   * `int32_t`, so it wraps when the samples are more than `INT32_MAX` apart.
   */
  predicate JumpAsWritten(last: int, s: int)
  {
    Int32(if last > s then last - s else s - last) > ALLOWED_DIFF
  }

  /**
   * A full-scale step from the largest to the smallest sample is the largest
   * glitch there is, but the wrapped difference is -1 and the test as written
   * misses it.
   */
  lemma AsWrittenMissesFullScaleJump()
    ensures !JumpAsWritten(INT32_MAX, INT32_MIN)
    ensures Jump(INT32_MAX, INT32_MIN)
  {
    assert Int32(INT32_MAX - INT32_MIN) == -1;
  }

  /** The two tests agree on every pair of samples whose difference fits in `int32_t`. */
  lemma AsWrittenAgreesWithoutOverflow(last: int, s: int)
    requires AbsDiff(last, s) <= INT32_MAX
    ensures JumpAsWritten(last, s) <==> Jump(last, s)
  {
    var d := AbsDiff(last, s);
    Align.DivModUnique(d - INT32_MIN, WORD_LIMIT, 0, d - INT32_MIN);
  }
}

=== FILE: ipc4_notification.dfy ===
/**
 * IPC4 notifications: the header word every notification starts with, and
 * the two-word watchdog-timeout notification the base firmware sends when a
 * DSP core's watchdog fires.
 *
 * The words are 32-bit and their bit-fields are laid out from bit 0 up:
 * a notification header has the notification type in bits 16-23, the global
 * message type in bits 24-28, the direction in bit 29 and the target in
 * bit 30.
 */
module Ipc4Notification {
  /** `SOF_IPC4_GLB_NOTIFICATION`, the global message type of every notification (from `ipc/header.h`). */
  const SOF_IPC4_GLB_NOTIFICATION: bv32 := 27
  /** `SOF_IPC4_MESSAGE_DIR_MSG_REQUEST`. */
  const SOF_IPC4_MESSAGE_DIR_MSG_REQUEST: bv32 := 0
  /** `SOF_IPC4_MESSAGE_TARGET_FW_GEN_MSG`. */
  const SOF_IPC4_MESSAGE_TARGET_FW_GEN_MSG: bv32 := 0

  /** The values of `enum sof_ipc4_notification_type` this model uses. */
  const SOF_IPC4_NOTIFY_FW_READY: bv32 := 8
  const SOF_IPC4_WATCHDOG_TIMEOUT: bv32 := 15

  const SOF_IPC4_GLB_NOTIFY_DIR_MASK: bv32 := 1 << 29
  const SOF_IPC4_REPLY_STATUS_MASK: bv32 := 0xFF_FFFF

  /** `SOF_IPC4_FW_READY`: the header of the firmware-ready notification. */
  const SOF_IPC4_FW_READY: bv32 := (SOF_IPC4_NOTIFY_FW_READY << 16) | (SOF_IPC4_GLB_NOTIFICATION << 24)

  // The bit-fields of `union ipc4_notification_header`, which the primary
  // word of the watchdog notification shares from bit 16 up.

  function NotifType(w: bv32): bv32 { (w >> 16) & 0xFF }
  function GlobalType(w: bv32): bv32 { (w >> 24) & 0x1F }
  function Rsp(w: bv32): bv32 { (w >> 29) & 1 }
  function MsgTgt(w: bv32): bv32 { (w >> 30) & 1 }
  function TopReserved(w: bv32): bv32 { w >> 31 }

  // The fields below bit 16 of the watchdog notification's primary word.

  function CoreId(w: bv32): bv32 { w & 0xF }
  function FirstTimeout(w: bv32): bv32 { (w >> 4) & 1 }
  function LowReserved(w: bv32): bv32 { (w >> 5) & 0x7FF }

  /**
   * `SOF_IPC4_NOTIF_HEADER(t)`: a notification of type `t` (below 256) reads
   * back as type `t`, global type notification, a request to the firmware
   * message target, with every other bit 0.
   */
  function NotifHeader(notifType: bv32): (h: bv32)
    ensures notifType < 256 ==>
              NotifType(h) == notifType && GlobalType(h) == SOF_IPC4_GLB_NOTIFICATION &&
              Rsp(h) == SOF_IPC4_MESSAGE_DIR_MSG_REQUEST && MsgTgt(h) == SOF_IPC4_MESSAGE_TARGET_FW_GEN_MSG &&
              TopReserved(h) == 0 && h & 0xFFFF == 0
  {
    (notifType << 16) | (SOF_IPC4_GLB_NOTIFICATION << 24)
  }

  /** The firmware-ready word is the notification header of type firmware-ready. */
  lemma FwReadyIsHeader()
    ensures SOF_IPC4_FW_READY == NotifHeader(SOF_IPC4_NOTIFY_FW_READY)
    ensures NotifType(SOF_IPC4_FW_READY) == SOF_IPC4_NOTIFY_FW_READY
  {
  }

  /**
   * Writing `v` into the `width`-bit field at bit `shift` of `w`, as a C
   * bit-field assignment does: `v` is cut to the field's width and every
   * other bit of `w` is kept.
   */
  function SetField(w: bv32, shift: nat, width: nat, v: bv32): bv32
    requires 0 < width && shift + width < 32
  {
    var mask: bv32 := (1 << width) - 1;
    (w & !(mask << shift)) | ((v & mask) << shift)
  }

  /** `struct ipc4_watchdog_timeout_notification`: the primary and the extension word. */
  class WatchdogTimeoutNotification {
    var primary: bv32
    var extension: bv32

    /**
     * `ipc4_notification_watchdog_init`: both words are cleared first, then
     * each field is written. The primary word carries the core id cut to
     * 4 bits and the first-timeout flag, and is otherwise the header of a
     * watchdog-timeout notification; its reserved bits and the extension
     * word are 0.
     */
    method Init(coreId: bv32, firstTimeout: bool)
      modifies this
      ensures CoreId(primary) == coreId & 0xF
      ensures FirstTimeout(primary) == (if firstTimeout then 1 else 0)
      ensures LowReserved(primary) == 0 && TopReserved(primary) == 0
      ensures NotifType(primary) == SOF_IPC4_WATCHDOG_TIMEOUT && GlobalType(primary) == SOF_IPC4_GLB_NOTIFICATION
      ensures Rsp(primary) == SOF_IPC4_MESSAGE_DIR_MSG_REQUEST && MsgTgt(primary) == SOF_IPC4_MESSAGE_TARGET_FW_GEN_MSG
      ensures primary == NotifHeader(SOF_IPC4_WATCHDOG_TIMEOUT) | (coreId & 0xF) | (if firstTimeout then 0x10 else 0)
      ensures extension == 0
    {
      primary := 0;
      extension := 0;
      primary := SetField(primary, 0, 4, coreId);
      primary := SetField(primary, 4, 1, if firstTimeout then 1 else 0);
      primary := SetField(primary, 16, 8, SOF_IPC4_WATCHDOG_TIMEOUT);
      primary := SetField(primary, 24, 5, SOF_IPC4_GLB_NOTIFICATION);
      primary := SetField(primary, 29, 1, SOF_IPC4_MESSAGE_DIR_MSG_REQUEST);
      primary := SetField(primary, 30, 1, SOF_IPC4_MESSAGE_TARGET_FW_GEN_MSG);
    }
  }
}

=== FILE: mixin_lookup.dfy ===
/**
 * The mixin's choice of processing functions: a table maps each supported
 * PCM frame format to a plain mixing function and a mixing function with
 * gain, and the lookup takes the first entry for the stream's format.
 */
module MixinLookup {
  import opened Common

  /** `IPC4_MIXIN_GAIN_SHIFT`: gains are fixed-point with 10 fractional bits. */
  const IPC4_MIXIN_GAIN_SHIFT: nat := 10

  /** `IPC4_MIXIN_UNITY_GAIN`, `BIT(IPC4_MIXIN_GAIN_SHIFT)`. */
  const IPC4_MIXIN_UNITY_GAIN: bv32 := 1 << IPC4_MIXIN_GAIN_SHIFT

  /** The unity gain is the documented 0x400 (1.0). */
  lemma UnityGainIs0x400()
    ensures IPC4_MIXIN_UNITY_GAIN == 0x400
  {
  }

  /** A `uint16_t`. */
  type U16 = x: int | 0 <= x < 0x1_0000

  /** A `mix_func`: the identity of a mixing function. */
  datatype MixFunc = MixFunc(id: nat)

  /** `struct mix_func_map`: a frame format and its two mixing functions. */
  datatype MixFuncMap = MixFuncMap(frameFmt: U16, mix: MixFunc, gainMix: MixFunc)

  /**
   * The index of the first entry at or after `from` whose frame format is
   * `fmt`, if any: every entry between `from` and it has another format.
   */
  function FirstMatch(table: seq<MixFuncMap>, fmt: int, from: nat): (r: Option<nat>)
    requires from <= |table|
    ensures r.Some? ==> from <= r.value < |table| && table[r.value].frameFmt == fmt
    ensures r.Some? ==> forall j :: from <= j < r.value ==> table[j].frameFmt != fmt
    ensures r.None? ==> forall j :: from <= j < |table| ==> table[j].frameFmt != fmt
    decreases |table| - from
  {
    if from == |table| then None
    else if table[from].frameFmt == fmt then Some(from)
    else FirstMatch(table, fmt, from + 1)
  }

  /**
   * `mixin_get_processing_functions`: both outputs are cleared, then the
   * table is searched in order; it succeeds with the two functions of the
   * first entry for `fmt`, and fails with both outputs cleared when no entry
   * is for `fmt`.
   */
  method GetProcessingFunctions(table: seq<MixFuncMap>, fmt: int)
    returns (found: bool, mix: Option<MixFunc>, gainMix: Option<MixFunc>)
    ensures found <==> FirstMatch(table, fmt, 0).Some?
    ensures found ==> var i := FirstMatch(table, fmt, 0).value;
                      mix == Some(table[i].mix) && gainMix == Some(table[i].gainMix)
    ensures !found ==> mix == None && gainMix == None
  {
    mix := None;
    gainMix := None;
    var i := 0;
    while i < |table|
      invariant i <= |table|
      invariant FirstMatch(table, fmt, i) == FirstMatch(table, fmt, 0)
    {
      if fmt == table[i].frameFmt {
        mix := Some(table[i].mix);
        gainMix := Some(table[i].gainMix);
        return true, mix, gainMix;
      }
      i := i + 1;
    }
    return false, mix, gainMix;
  }

  /**
   * A format no table entry has can never be mixed, and a format some entry
   * has always finds functions.
   */
  lemma FoundExactlyWhenListed(table: seq<MixFuncMap>, fmt: int)
    ensures FirstMatch(table, fmt, 0).Some? <==> exists j :: 0 <= j < |table| && table[j].frameFmt == fmt
  {
  }
}

=== FILE: module_api_version.dfy ===
/**
 * The API version a loadable module is built against, as it is stored in
 * the module's build-info section: a format word, then the version packed
 * into one 32-bit word with the minor number in bits 0-9, the middle number
 * in bits 10-19, the major number in bits 20-29 and two reserved bits.
 */
module ModuleApiVersion {
  /** `SOF_MODULE_API_BUILD_INFO_FORMAT`. */
  const SOF_MODULE_API_BUILD_INFO_FORMAT: bv32 := 0x8000_0000

  /** The current API version, 5.0.0. */
  const SOF_MODULE_API_MAJOR_VERSION: bv32 := 5
  const SOF_MODULE_API_MIDDLE_VERSION: bv32 := 0
  const SOF_MODULE_API_MINOR_VERSION: bv32 := 0

  /** The bit-fields of `union sof_module_api_version`. */
  datatype ApiVersionFields = ApiVersionFields(minor: bv32, middle: bv32, major: bv32, reserved: bv32)

  /** Reading the `fields` of the union from its `full` word: every field fits its width. */
  function Fields(full: bv32): (f: ApiVersionFields)
    ensures f.minor < 1024 && f.middle < 1024 && f.major < 1024 && f.reserved < 4
  {
    ApiVersionFields(full & 0x3FF, (full >> 10) & 0x3FF, (full >> 20) & 0x3FF, full >> 30)
  }

  /**
   * The packing of `DECLARE_LOADABLE_MODULE_API_VERSION`: each number is cut
   * to 10 bits and shifted into its field, so the union reads back the three
   * numbers (cut to 10 bits) and reserved bits 0.
   */
  function PackVersion(major: bv32, middle: bv32, minor: bv32): (full: bv32)
    ensures Fields(full) == ApiVersionFields(minor & 0x3FF, middle & 0x3FF, major & 0x3FF, 0)
  {
    ((0x3FF & major) << 20) | ((0x3FF & middle) << 10) | ((0x3FF & minor) << 0)
  }

  /** Numbers below 1024 are recovered exactly from their packed word. */
  lemma PackThenRead(major: bv32, middle: bv32, minor: bv32)
    requires major < 1024 && middle < 1024 && minor < 1024
    ensures Fields(PackVersion(major, middle, minor)) == ApiVersionFields(minor, middle, major, 0)
  {
  }

  /** A word whose reserved bits are 0 is the packing of the numbers it reads as. */
  lemma ReadThenPack(full: bv32)
    requires Fields(full).reserved == 0
    ensures var f := Fields(full);
            PackVersion(f.major, f.middle, f.minor) == full
  {
  }

  /** `struct sof_module_api_build_info`. */
  datatype BuildInfo = BuildInfo(format: bv32, apiVersionNumber: bv32)

  /**
   * The build info `DECLARE_LOADABLE_MODULE_API_VERSION` places in a
   * module: the build-info format word and the current version 5.0.0.
   */
  function DeclareApiVersion(): (b: BuildInfo)
    ensures b.format == 0x8000_0000
    ensures Fields(b.apiVersionNumber) == ApiVersionFields(0, 0, 5, 0)
  {
    BuildInfo(SOF_MODULE_API_BUILD_INFO_FORMAT,
              PackVersion(SOF_MODULE_API_MAJOR_VERSION, SOF_MODULE_API_MIDDLE_VERSION, SOF_MODULE_API_MINOR_VERSION))
  }
}

=== FILE: module_handle.dfy ===
/**
 * The memory a loadable module declares for its instances: a static array
 * of pointer-sized words, one equal slot per instance, each slot at least
 * the module's data size rounded up to the instance alignment.
 */
module ModuleHandle {
  import opened Align

  /** `sizeof(intptr_t)` on the 32-bit DSP. */
  const INTPTR_SIZE: nat := 4

  /** `MODULE_ALIGN_SIZE(size, align)`: the number of `align`-sized pieces that hold `size`, a count and not a size. */
  function ModuleAlignSize(size: nat, align: nat): (count: nat)
    requires align > 0
    ensures count * align >= size
    ensures count == 0 || (count - 1) * align < size
  {
    DivModUnique(size + align - 1, align, (size + align - 1) / align, (size + align - 1) % align);
    (size + align - 1) / align
  }

  /**
   * `x & ~(a - 1)` for a power of two `a`: the bits below `a` cleared, which
   * leaves the multiple of `a` at or below `x`.
   */
  function ClearLowBits(x: nat, a: nat): nat
    requires a > 0
  {
    x - x % a
  }

  /**
   * The placeholder size of `DECLARE_LOADABLE_MODULE_PLACEHOLDER`,
   * `(data_size + A) & ~(A - 1)` for the instance alignment `A`: a multiple
   * of `A` strictly greater than the data size and at most `A` above it.
   */
  function PlaceholderSize(dataSize: nat, alignment: nat): (size: nat)
    requires alignment > 0 && IsPowerOfTwo(alignment)
    ensures size % alignment == 0
    ensures dataSize < size <= dataSize + alignment
  {
    var x := dataSize + alignment;
    DivModUnique(x, alignment, x / alignment, x % alignment);
    MulModZero(x / alignment, alignment);
    ClearLowBits(x, alignment)
  }

  /** The placeholder length: the words that hold the placeholder size. */
  function PlaceholderLength(dataSize: nat, alignment: nat): (length: nat)
    requires alignment > 0 && IsPowerOfTwo(alignment)
    ensures length * INTPTR_SIZE >= PlaceholderSize(dataSize, alignment)
    ensures length >= 1
  {
    ModuleAlignSize(PlaceholderSize(dataSize, alignment), INTPTR_SIZE)
  }

  /** The words of the static placeholder array: one placeholder per instance. */
  function PlaceholderWords(dataSize: nat, alignment: nat, maxInstances: nat): nat
    requires alignment > 0 && IsPowerOfTwo(alignment)
  {
    var length := PlaceholderLength(dataSize, alignment);
    MulNonNegative(length, maxInstances);
    length * maxInstances
  }

  /**
   * The first word of the slot `DECLARE_LOADABLE_MODULE_ENTRY_POINT` hands
   * instance `instanceId`.
   */
  function InstanceSlot(dataSize: nat, alignment: nat, instanceId: nat): nat
    requires alignment > 0 && IsPowerOfTwo(alignment)
  {
    var length := PlaceholderLength(dataSize, alignment);
    MulNonNegative(length, instanceId);
    length * instanceId
  }

  /**
   * The slot of every instance below the maximum lies inside the placeholder
   * array, and its bytes hold more than the module's data.
   */
  lemma SlotInsideArray(dataSize: nat, alignment: nat, maxInstances: nat, instanceId: nat)
    requires alignment > 0 && IsPowerOfTwo(alignment) && instanceId < maxInstances
    ensures InstanceSlot(dataSize, alignment, instanceId) + PlaceholderLength(dataSize, alignment)
            <= PlaceholderWords(dataSize, alignment, maxInstances)
    ensures PlaceholderLength(dataSize, alignment) * INTPTR_SIZE > dataSize
  {
    var length := PlaceholderLength(dataSize, alignment);
    assert length * instanceId + length == length * (instanceId + 1);
    MulMonotone(length, instanceId + 1, maxInstances);
  }

  /** The slots of two instances do not overlap: the earlier one ends at or before the later one starts. */
  lemma SlotsDisjoint(dataSize: nat, alignment: nat, i: nat, j: nat)
    requires alignment > 0 && IsPowerOfTwo(alignment) && i < j
    ensures InstanceSlot(dataSize, alignment, i) + PlaceholderLength(dataSize, alignment)
            <= InstanceSlot(dataSize, alignment, j)
  {
    var length := PlaceholderLength(dataSize, alignment);
    assert length * i + length == length * (i + 1);
    MulMonotone(length, i + 1, j);
  }

  lemma MulNonNegative(a: nat, b: nat)
    ensures a * b >= 0
  {
  }

  lemma MulMonotone(k: nat, a: nat, b: nat)
    requires a <= b
    ensures k * a <= k * b
  {
  }

  /** The words of the `buffer` of `struct module_handle`: enough to hold the pass buffer, and no more. */
  function HandleBufferWords(passBufferSize: nat): (words: nat)
    ensures words * INTPTR_SIZE >= passBufferSize
    ensures words == 0 || (words - 1) * INTPTR_SIZE < passBufferSize
  {
    (passBufferSize + INTPTR_SIZE - 1) / INTPTR_SIZE
  }

  /** The handle buffer is the same count `MODULE_ALIGN_SIZE` gives for pointer-sized pieces. */
  lemma HandleBufferIsAlignSize(passBufferSize: nat)
    ensures HandleBufferWords(passBufferSize) == ModuleAlignSize(passBufferSize, INTPTR_SIZE)
  {
  }
}

=== FILE: sink_api.dfy ===
/**
 * The sink API: the handle a module writes its output through.
 *
 * A `Sink` keeps the bookkeeping of the fragment protocol (at most one
 * fragment of free space outstanding, a processed-bytes counter), the
 * minimum free space its user declared, and a pointer to the stream
 * parameters it shares with its backend. The backend itself is the `ops`
 * table of callbacks; the optional ones may be absent.
 */
module SinkApi {
  import opened Common
  import opened AudioEndpoint

  /** `struct sof_ipc_stream_params`, passed through to the backend uninterpreted. */
  datatype IpcStreamParams = IpcStreamParams(words: seq<U32>)

  /** `struct sink_ops`: the backend's callbacks, as functions of their arguments. */
  datatype SinkOps = SinkOps(
    getFreeSize: () -> SizeT,
    getBuffer: SizeT -> int,
    commitBuffer: SizeT -> int,
    onAudioFormatSet: Option<AudioParams -> int>,
    audioSetIpcParams: Option<(IpcStreamParams, bool) -> int>,
    setAlignmentConstants: Option<(U32, U32) -> int>)

  /** `struct sof_sink`. */
  class Sink {
    var ops: SinkOps
    var requestedWriteFragSize: SizeT
    var numOfBytesProcessed: SizeT
    var minFreeSpace: SizeT
    var params: StreamParams

    /** The fragment bookkeeping of the sink. */
    function State(): Fragment
      reads this
    {
      Fragment(requestedWriteFragSize, numOfBytesProcessed)
    }

    /** A zero-filled sink, then `sink_init`. */
    constructor (ops: SinkOps, params: StreamParams)
      ensures this.ops == ops && this.params == params
      ensures State() == Fragment(0, 0) && minFreeSpace == 0
    {
      this.ops, this.params := ops, params;
      requestedWriteFragSize, numOfBytesProcessed, minFreeSpace := 0, 0, 0;
    }

    /** `sink_init`: sets the callbacks and the parameters pointer, and nothing else. */
    method Init(ops: SinkOps, params: StreamParams)
      modifies this
      ensures this.ops == ops && this.params == params
      ensures State() == old(State()) && minFreeSpace == old(minFreeSpace)
    {
      this.ops := ops;
      this.params := params;
    }

    /**
     * `sink_get_buffer`: refused with `-EBUSY` while a fragment is
     * outstanding; otherwise the backend's answer, and `reqSize` becomes the
     * outstanding fragment only when that answer is 0.
     */
    method GetBuffer(reqSize: SizeT) returns (ret: int)
      modifies this
      ensures (State(), ret) == Obtain(old(State()), reqSize, ops.getBuffer(reqSize))
      ensures ops == old(ops) && params == old(params) && minFreeSpace == old(minFreeSpace)
    {
      if requestedWriteFragSize != 0 {
        return -EBUSY;
      }
      ret := ops.getBuffer(reqSize);
      if ret == 0 {
        requestedWriteFragSize := reqSize;
      }
    }

    /**
     * `sink_commit_buffer`: refused with `-ENODATA` when nothing is
     * outstanding; otherwise the backend commits the size cut down to the
     * outstanding fragment, the fragment is closed when the backend
     * succeeds, and the counter grows by that size in any case.
     */
    method CommitBuffer(commitSize: SizeT) returns (ret: int)
      modifies this
      ensures var n := Clamp(commitSize, old(requestedWriteFragSize));
              (State(), ret) == Finish(old(State()), commitSize, ops.commitBuffer(n))
      ensures ops == old(ops) && params == old(params) && minFreeSpace == old(minFreeSpace)
    {
      if requestedWriteFragSize == 0 {
        return -ENODATA;
      }
      var size := commitSize;
      if size > requestedWriteFragSize {
        size := requestedWriteFragSize;
      }
      ret := ops.commitBuffer(size);
      if ret == 0 {
        requestedWriteFragSize := 0;
      }
      numOfBytesProcessed := AddSize(numOfBytesProcessed, size);
    }

    /** `sink_get_free_frames`: the whole frames of the sink's own frame size that fit in the backend's free space. */
    function GetFreeFrames(getFrameBytes: (FrameFormat, U32) -> SizeT): (frames: SizeT)
      requires getFrameBytes(params.frameFmt, params.channels) > 0
      reads this, params
      ensures var fb := getFrameBytes(params.frameFmt, params.channels);
              frames * fb <= ops.getFreeSize() < (frames + 1) * fb
    {
      Frames(ops.getFreeSize(), GetFrameBytes(getFrameBytes))
    }

    /** `sink_get_channels`. */
    function GetChannels(): U32
      reads this, params
    {
      params.channels
    }

    /**
     * `sink_get_frame_bytes`: the frame size `getFrameBytes` (the helper
     * `get_frame_bytes`) computes from the sink's frame format and channel
     * count.
     */
    function GetFrameBytes(getFrameBytes: (FrameFormat, U32) -> SizeT): (r: SizeT)
      reads this, params
      ensures r == getFrameBytes(params.frameFmt, params.channels)
    {
      getFrameBytes(params.frameFmt, params.channels)
    }

    /** `sink_get_num_of_processed_bytes`. */
    function GetNumOfProcessedBytes(): SizeT
      reads this
    {
      numOfBytesProcessed
    }

    /** `sink_reset_num_of_processed_bytes`: the counter becomes 0 and nothing else changes. */
    method ResetNumOfProcessedBytes()
      modifies this
      ensures GetNumOfProcessedBytes() == 0
      ensures requestedWriteFragSize == old(requestedWriteFragSize) && minFreeSpace == old(minFreeSpace)
      ensures ops == old(ops) && params == old(params)
    {
      numOfBytesProcessed := 0;
    }

    /** `sink_get_overrun`. */
    function GetOverrun(): bool
      reads this, params
    {
      params.overrunPermitted
    }

    /** `sink_get_min_free_space`. */
    function GetMinFreeSpace(): SizeT
      reads this
    {
      minFreeSpace
    }

    /** `sink_set_min_free_space`: the getter then returns the value set; nothing else changes. */
    method SetMinFreeSpace(minFreeSpace: SizeT)
      modifies this
      ensures GetMinFreeSpace() == minFreeSpace
      ensures State() == old(State()) && ops == old(ops) && params == old(params)
    {
      this.minFreeSpace := minFreeSpace;
    }

    // The parameter setters: each writes one field of the shared parameters,
    // then reports the answer of the optional `on_audio_format_set`.

    /** `sink_set_frm_fmt`. */
    method SetFrmFmt(frameFmt: FrameFormat) returns (ret: int)
      modifies params
      ensures params.Value() == old(params.Value()).(frameFmt := frameFmt)
      ensures ret == FormatSetResult(ops.onAudioFormatSet, params.Value())
    {
      params.frameFmt := frameFmt;
      ret := FormatSetResult(ops.onAudioFormatSet, params.Value());
    }

    /** `sink_set_valid_fmt`. */
    method SetValidFmt(validSampleFmt: FrameFormat) returns (ret: int)
      modifies params
      ensures params.Value() == old(params.Value()).(validSampleFmt := validSampleFmt)
      ensures ret == FormatSetResult(ops.onAudioFormatSet, params.Value())
    {
      params.validSampleFmt := validSampleFmt;
      ret := FormatSetResult(ops.onAudioFormatSet, params.Value());
    }

    /** `sink_set_rate`. */
    method SetRate(rate: U32) returns (ret: int)
      modifies params
      ensures params.Value() == old(params.Value()).(rate := rate)
      ensures ret == FormatSetResult(ops.onAudioFormatSet, params.Value())
    {
      params.rate := rate;
      ret := FormatSetResult(ops.onAudioFormatSet, params.Value());
    }

    /** `sink_set_channels`. */
    method SetChannels(channels: U32) returns (ret: int)
      modifies params
      ensures params.Value() == old(params.Value()).(channels := channels)
      ensures ret == FormatSetResult(ops.onAudioFormatSet, params.Value())
    {
      params.channels := channels;
      ret := FormatSetResult(ops.onAudioFormatSet, params.Value());
    }

    /** `sink_set_buffer_fmt`. */
    method SetBufferFmt(bufferFmt: U32) returns (ret: int)
      modifies params
      ensures params.Value() == old(params.Value()).(bufferFmt := bufferFmt)
      ensures ret == FormatSetResult(ops.onAudioFormatSet, params.Value())
    {
      params.bufferFmt := bufferFmt;
      ret := FormatSetResult(ops.onAudioFormatSet, params.Value());
    }

    /** `sink_set_overrun`. */
    method SetOverrun(overrunPermitted: bool) returns (ret: int)
      modifies params
      ensures params.Value() == old(params.Value()).(overrunPermitted := overrunPermitted)
      ensures ret == FormatSetResult(ops.onAudioFormatSet, params.Value())
    {
      params.overrunPermitted := overrunPermitted;
      ret := FormatSetResult(ops.onAudioFormatSet, params.Value());
    }

    /** `sink_set_params`: the backend's answer when it has the callback, 0 otherwise. */
    method SetParams(p: IpcStreamParams, forceUpdate: bool) returns (ret: int)
      ensures ops.audioSetIpcParams.None? ==> ret == 0
      ensures ops.audioSetIpcParams.Some? ==> ret == ops.audioSetIpcParams.value(p, forceUpdate)
    {
      ret := 0;
      if ops.audioSetIpcParams.Some? {
        ret := ops.audioSetIpcParams.value(p, forceUpdate);
      }
    }

    /** `sink_set_alignment_constants`: the backend's answer when it has the callback, 0 otherwise. */
    method SetAlignmentConstants(byteAlign: U32, frameAlignReq: U32) returns (ret: int)
      ensures ops.setAlignmentConstants.None? ==> ret == 0
      ensures ops.setAlignmentConstants.Some? ==> ret == ops.setAlignmentConstants.value(byteAlign, frameAlignReq)
    {
      ret := 0;
      if ops.setAlignmentConstants.Some? {
        ret := ops.setAlignmentConstants.value(byteAlign, frameAlignReq);
      }
    }
  }
}

=== FILE: source_api.dfy ===
/**
 * The source API: the handle a module reads its input through.
 *
 * A `Source` keeps the bookkeeping of the fragment protocol (at most one
 * fragment of data outstanding, a processed-bytes counter) and a pointer to
 * the stream parameters it shares with its backend, whose callbacks are the
 * `ops` table.
 */
module SourceApi {
  import opened AudioEndpoint

  /** `struct source_ops`: the backend's callbacks, as functions of their arguments. */
  datatype SourceOps = SourceOps(
    getDataAvailable: () -> SizeT,
    getData: SizeT -> int,
    releaseData: SizeT -> int)

  /** `struct sof_source`. */
  class Source {
    var ops: SourceOps
    var requestedReadFragSize: SizeT
    var numOfBytesProcessed: SizeT
    var params: StreamParams

    /** The fragment bookkeeping of the source. */
    function State(): Fragment
      reads this
    {
      Fragment(requestedReadFragSize, numOfBytesProcessed)
    }

    /** A zero-filled source, then `source_init`. */
    constructor (ops: SourceOps, params: StreamParams)
      ensures this.ops == ops && this.params == params
      ensures State() == Fragment(0, 0)
    {
      this.ops, this.params := ops, params;
      requestedReadFragSize, numOfBytesProcessed := 0, 0;
    }

    /** `source_get_data_available`: the backend's count of bytes ready to read. */
    function GetDataAvailable(): SizeT
      reads this
    {
      ops.getDataAvailable()
    }

    /** `source_get_frm_fmt`. */
    function GetFrmFmt(): FrameFormat
      reads this, params
    {
      params.frameFmt
    }

    /** `source_get_channels`. */
    function GetChannels(): U32
      reads this, params
    {
      params.channels
    }

    /**
     * `source_get_frame_bytes`: the frame size `getFrameBytes` (the helper
     * `get_frame_bytes`) computes from the source's frame format and channel
     * count.
     */
    function GetFrameBytes(getFrameBytes: (FrameFormat, U32) -> SizeT): (r: SizeT)
      reads this, params
      ensures r == getFrameBytes(params.frameFmt, params.channels)
    {
      getFrameBytes(GetFrmFmt(), GetChannels())
    }

    /** `source_get_data_frames_available`: the whole frames in the bytes ready to read. */
    function GetDataFramesAvailable(getFrameBytes: (FrameFormat, U32) -> SizeT): (frames: SizeT)
      requires getFrameBytes(params.frameFmt, params.channels) > 0
      reads this, params
      ensures var fb := getFrameBytes(params.frameFmt, params.channels);
              frames * fb <= GetDataAvailable() < (frames + 1) * fb
    {
      Frames(GetDataAvailable(), GetFrameBytes(getFrameBytes))
    }

    /**
     * `source_get_data`: refused with `-EBUSY` while a fragment is
     * outstanding; otherwise the backend's answer, and `reqSize` becomes the
     * outstanding fragment only when that answer is 0.
     */
    method GetData(reqSize: SizeT) returns (ret: int)
      modifies this
      ensures (State(), ret) == Obtain(old(State()), reqSize, ops.getData(reqSize))
      ensures ops == old(ops) && params == old(params)
    {
      if requestedReadFragSize != 0 {
        return -EBUSY;
      }
      ret := ops.getData(reqSize);
      if ret == 0 {
        requestedReadFragSize := reqSize;
      }
    }

    /**
     * `source_release_data`: refused with `-ENODATA` when nothing was
     * obtained; otherwise the backend frees the size cut down to the
     * obtained fragment, the fragment is closed when the backend succeeds,
     * and the counter grows by that size in any case.
     */
    method ReleaseData(freeSize: SizeT) returns (ret: int)
      modifies this
      ensures var n := Clamp(freeSize, old(requestedReadFragSize));
              (State(), ret) == Finish(old(State()), freeSize, ops.releaseData(n))
      ensures ops == old(ops) && params == old(params)
    {
      if requestedReadFragSize == 0 {
        return -ENODATA;
      }
      var size := freeSize;
      if size > requestedReadFragSize {
        size := requestedReadFragSize;
      }
      ret := ops.releaseData(size);
      if ret == 0 {
        requestedReadFragSize := 0;
      }
      numOfBytesProcessed := AddSize(numOfBytesProcessed, size);
    }

    /** `source_get_valid_fmt`. */
    function GetValidFmt(): FrameFormat
      reads this, params
    {
      params.validSampleFmt
    }

    /** `source_get_rate`. */
    function GetRate(): U32
      reads this, params
    {
      params.rate
    }

    /** `source_get_buffer_fmt`. */
    function GetBufferFmt(): U32
      reads this, params
    {
      params.bufferFmt
    }
  }
}

=== FILE: vmh_bitmaps.dfy ===
/**
 * The two bitmaps of a heap bundle and the run-length encoding that ties them
 * together.
 *
 * The allocation bitmap has one bit per block, set while the block is
 * allocated. The size bitmap ("allocation_sizes") has one bit per block too:
 * bit i is set when block i+1 belongs to the same allocation as block i. A
 * K-block allocation starting at block p therefore sets size bits p .. p+K-2,
 * and the number of blocks of the allocation that starts at p is one more than
 * the number of consecutive set size bits from p.
 */
module VmhBitmaps {

  /** `count` bits from `first` lie inside the bitmap and are all clear. */
  predicate RegionClear(bits: seq<bool>, first: nat, count: nat)
  {
    first + count <= |bits| && forall j :: first <= j < first + count ==> !bits[j]
  }

  /** `count` bits from `first` lie inside the bitmap and are all set. */
  predicate RegionSet(bits: seq<bool>, first: nat, count: nat)
  {
    first + count <= |bits| && forall j :: first <= j < first + count ==> bits[j]
  }

  /** The bitmap with bits `first .. first+count-1` forced to `v` (`sys_bitarray_set_region` / `_clear_region`). */
  function SetRegion(bits: seq<bool>, first: nat, count: nat, v: bool): (r: seq<bool>)
    requires first + count <= |bits|
    ensures |r| == |bits|
    ensures forall j :: 0 <= j < |r| ==> r[j] == (if first <= j < first + count then v else bits[j])
  {
    bits[..first] + seq(count, _ => v) + bits[first + count..]
  }

  /** A bitmap of `n` clear bits, as the zeroing bootstrap allocator hands it out. */
  function Cleared(n: nat): (r: seq<bool>)
    ensures |r| == n && RegionClear(r, 0, n)
  {
    seq(n, _ => false)
  }

  /**
   * The number of consecutive set bits of the size bitmap from position `p`:
   * the blocks after `p` that continue the allocation starting at `p`.
   */
  function ContinuationCount(sizes: seq<bool>, p: nat): (c: nat)
    requires p <= |sizes|
    ensures p + c <= |sizes|
    ensures forall j :: p <= j < p + c ==> sizes[j]
    ensures p + c < |sizes| ==> !sizes[p + c]
    decreases |sizes| - p
  {
    if p == |sizes| || !sizes[p] then 0 else 1 + ContinuationCount(sizes, p + 1)
  }

  /**
   * The invariant of a contiguous-mode bundle: both bitmaps have the same
   * length, and a set size bit links two allocated blocks.
   */
  predicate RunsWellFormed(alloc: seq<bool>, sizes: seq<bool>)
  {
    |alloc| == |sizes| &&
    forall i :: 0 <= i < |sizes| && sizes[i] ==> alloc[i] && i + 1 < |alloc| && alloc[i + 1]
  }

  /** `p` begins an allocation, or is free: the size bit before it is clear. */
  predicate IsRunStart(sizes: seq<bool>, p: nat)
    requires p <= |sizes|
  {
    p == 0 || !sizes[p - 1]
  }

  /** The allocation bitmap after allocating the `k` blocks at `p`. */
  function AllocBits(alloc: seq<bool>, p: nat, k: nat): seq<bool>
    requires p + k <= |alloc|
  {
    SetRegion(alloc, p, k, true)
  }

  /** The size bitmap after recording a `k`-block allocation at `p`: bits `p .. p+k-2`. */
  function SizeBits(sizes: seq<bool>, p: nat, k: nat): seq<bool>
    requires 1 <= k && p + k <= |sizes|
  {
    SetRegion(sizes, p, k - 1, true)
  }

  /**
   * Allocating a free run of `k` blocks and recording it in the size bitmap
   * keeps the bundle well formed, makes `p` a run start whose decoded length
   * is exactly `k`, makes every later block of the run an interior block, and
   * freeing the decoded run restores both bitmaps.
   */
  lemma AllocThenFree(alloc: seq<bool>, sizes: seq<bool>, p: nat, k: nat)
    requires RunsWellFormed(alloc, sizes) && 1 <= k && RegionClear(alloc, p, k)
    ensures RunsWellFormed(AllocBits(alloc, p, k), SizeBits(sizes, p, k))
    ensures IsRunStart(SizeBits(sizes, p, k), p)
    ensures ContinuationCount(SizeBits(sizes, p, k), p) == k - 1
    ensures RegionSet(AllocBits(alloc, p, k), p, k)
    ensures forall j :: p < j < p + k ==> !IsRunStart(SizeBits(sizes, p, k), j)
    ensures SetRegion(AllocBits(alloc, p, k), p, k, false) == alloc
    ensures SetRegion(SizeBits(sizes, p, k), p, k, false) == sizes
  {
    var a', s' := AllocBits(alloc, p, k), SizeBits(sizes, p, k);
    // No size bit inside the free run is set, and none just before it.
    assert forall j :: p <= j < p + k ==> !sizes[j];
    assert p > 0 ==> !sizes[p - 1] by {
      if p > 0 { assert !alloc[p]; }
    }
    RunLengthIs(s', p, k - 1);
    assert SetRegion(a', p, k, false) == alloc;
    assert SetRegion(s', p, k, false) == sizes;
  }

  /** The decoded continuation count is `c` when bits `p .. p+c-1` are set and bit `p+c` is clear or absent. */
  lemma {:induction false} RunLengthIs(sizes: seq<bool>, p: nat, c: nat)
    requires p + c <= |sizes|
    requires forall j :: p <= j < p + c ==> sizes[j]
    requires p + c < |sizes| ==> !sizes[p + c]
    ensures ContinuationCount(sizes, p) == c
    decreases c
  {
    if c > 0 {
      RunLengthIs(sizes, p + 1, c - 1);
    }
  }

  /**
   * In a well-formed bundle, the run decoded from an allocated run start is
   * entirely allocated, so the block allocator accepts freeing it; and
   * clearing it in both bitmaps keeps the bundle well formed.
   */
  lemma FreeDecodedRun(alloc: seq<bool>, sizes: seq<bool>, p: nat)
    requires RunsWellFormed(alloc, sizes) && p < |alloc| && alloc[p] && IsRunStart(sizes, p)
    ensures RegionSet(alloc, p, 1 + ContinuationCount(sizes, p))
    ensures RunsWellFormed(SetRegion(alloc, p, 1 + ContinuationCount(sizes, p), false),
                           SetRegion(sizes, p, 1 + ContinuationCount(sizes, p), false))
  {
    var c := ContinuationCount(sizes, p);
    var k := 1 + c;
    assert p + k <= |alloc| by {
      if c > 0 { assert sizes[p + c - 1]; }
    }
    forall j | p < j < p + k
      ensures alloc[j]
    {
      assert sizes[j - 1];
    }
    FreeKeepsWellFormed(alloc, sizes, p, k);
  }

  /** Clearing an allocated run that starts at a run start, in both bitmaps, keeps the bundle well formed. */
  lemma FreeKeepsWellFormed(alloc: seq<bool>, sizes: seq<bool>, p: nat, k: nat)
    requires RunsWellFormed(alloc, sizes) && p + k <= |alloc| && IsRunStart(sizes, p)
    ensures RunsWellFormed(SetRegion(alloc, p, k, false), SetRegion(sizes, p, k, false))
  {
    var a', s' := SetRegion(alloc, p, k, false), SetRegion(sizes, p, k, false);
    forall i | 0 <= i < |s'| && s'[i]
      ensures a'[i] && i + 1 < |a'| && a'[i + 1]
    {
      assert sizes[i];
      assert i + 1 != p;
    }
  }

  /**
   * Freeing a block that is not allocated is refused by the block allocator
   * whatever the size bitmap says: its size bit and the one before it are
   * clear, so the decoded run is the single block, which is not allocated.
   */
  lemma FreeOfFreeBlock(alloc: seq<bool>, sizes: seq<bool>, p: nat)
    requires RunsWellFormed(alloc, sizes) && p < |alloc| && !alloc[p]
    ensures IsRunStart(sizes, p)
    ensures ContinuationCount(sizes, p) == 0
    ensures !RegionSet(alloc, p, 1 + ContinuationCount(sizes, p))
  {
    assert !sizes[p];
  }

  /**
   * The scan of `vmh_free`: starting at block `p`, count one block for `p`
   * and one more for each consecutive set size bit from `p`, stopping at the
   * first clear bit or at the end of the bundle.
   */
  method ScanRunLength(sizes: seq<bool>, p: nat) returns (blocks: nat)
    requires p < |sizes|
    ensures blocks >= 1 && p + blocks <= |sizes| + 1
    ensures forall j :: p <= j < p + blocks - 1 ==> sizes[j]
    ensures p + blocks - 1 < |sizes| ==> !sizes[p + blocks - 1]
    ensures blocks == 1 + ContinuationCount(sizes, p)
  {
    blocks := 1;
    if sizes[p] {
      var i := p;
      while i < |sizes|
        invariant p <= i <= |sizes|
        invariant blocks == 1 + (i - p)
        invariant forall j :: p <= j < i ==> sizes[j]
        decreases |sizes| - i
      {
        if sizes[i] {
          blocks := blocks + 1;
        } else {
          break;
        }
        i := i + 1;
      }
    }
    RunLengthIs(sizes, p, blocks - 1);
  }
}

=== FILE: vmh_heap.dfy ===
/**
 * One virtual memory heap: up to ten bundles of power-of-two blocks laid out
 * back to back in a virtual region, with the allocation and size bitmaps of
 * each bundle and the pages that back them.
 *
 * `VmHeap.Alloc` and `VmHeap.Free` are `vmh_alloc` and `vmh_free`. The block
 * allocator places a run at the first free run of the bundle (`BlocksAlloc`),
 * and the page table is the `MmDriver` of the page mapper. The heap keeps two invariants:
 * `Valid` (the layout and the run encoding) and `Backed` (every allocated
 * block sits on a mapped page).
 */
module VmhHeap {
  import opened Common
  import opened Align
  import opened VmhBitmaps
  import opened VmhPages

  const MAX_MEMORY_ALLOCATORS_COUNT: nat := 10
  const EINVAL: int := 22

  /** A virtual memory region as the memory-management driver reports it. */
  datatype Region = Region(addr: nat, size: nat, attr: int)

  /**
   * The run encoding of a bundle: both bitmaps have one bit per block; in
   * contiguous mode every set size bit links two allocated blocks, and in
   * fixed mode no size bit is ever set.
   */
  predicate BundleWellFormed(b: Bundle, contiguous: bool)
  {
    |b.alloc| == |b.sizes| &&
    if contiguous then RunsWellFormed(b.alloc, b.sizes)
    else forall i :: 0 <= i < |b.sizes| ==> !b.sizes[i]
  }

  /** `ptr` lies in the bundle's memory (`vmh_is_ptr_in_memory_range`). */
  predicate InBundleRange(ptr: nat, b: Bundle)
  {
    b.buffer <= ptr < BundleEnd(b)
  }

  /** A bundle can serve an allocation of `size` bytes: `vmh_alloc` would find a free run on it. */
  ghost predicate CanServe(ob: Option<Bundle>, size: nat, contiguous: bool)
  {
    ob.Some? && ob.value.blockSize > 0 && (contiguous || ob.value.blockSize >= size) &&
    DivRoundUp(size, ob.value.blockSize) <= ob.value.numBlocks &&
    exists q: nat :: RegionClear(ob.value.alloc, q, DivRoundUp(size, ob.value.blockSize))
  }

  // ---------------------------------------------------------------------
  // The bitmap effects of vmh_alloc and vmh_free
  // ---------------------------------------------------------------------

  /** The bundle after `vmh_alloc` took the `k` blocks at `p`: `k` allocation bits, and `k - 1` size bits when `k > 1`. */
  function AllocInBundle(b: Bundle, p: nat, k: nat): (r: Bundle)
    requires 1 <= k && p + k <= |b.alloc| && |b.sizes| == |b.alloc|
    ensures RegionSet(r.alloc, p, k)
    ensures r.buffer == b.buffer && r.blockSize == b.blockSize && r.numBlocks == b.numBlocks
    ensures |r.alloc| == |b.alloc| && |r.sizes| == |b.sizes|
  {
    b.(alloc := AllocBits(b.alloc, p, k), sizes := if k > 1 then SizeBits(b.sizes, p, k) else b.sizes)
  }

  /**
   * The corrected failure path of `vmh_alloc`: when mapping fails, return
   * the blocks to the block allocator and clear the size bits set for them.
   */
  function RollbackAlloc(b: Bundle, p: nat, k: nat): (r: Bundle)
    requires 1 <= k && p + k <= |b.alloc| && |b.sizes| == |b.alloc|
  {
    b.(alloc := SetRegion(b.alloc, p, k, false), sizes := SetRegion(b.sizes, p, k - 1, false))
  }

  /** The failure path of `vmh_alloc` as written: only the allocation bits are cleared. */
  function RollbackAllocAsWritten(b: Bundle, p: nat, k: nat): (r: Bundle)
    requires 1 <= k && p + k <= |b.alloc| && |b.sizes| == |b.alloc|
  {
    b.(alloc := SetRegion(b.alloc, p, k, false))
  }

  /**
   * `sys_bitarray_free` under `sys_mem_blocks_free` and
   * `sys_mem_blocks_free_contiguous`: `-EINVAL` when the bits run past the
   * bitmap, `-EFAULT` when one of them is not set, else 0.
   */
  function BitarrayFreeError(bits: seq<bool>, off: nat, k: nat): (e: int)
    ensures e == 0 <==> RegionSet(bits, off, k)
    ensures e == 0 || e == -EINVAL || e == -EFAULT
  {
    if off + k > |bits| then -EINVAL else if !RegionSet(bits, off, k) then -EFAULT else 0
  }

  datatype FreeResult = Refused(err: int) | Freed(blocks: nat, bundle: Bundle)

  /**
   * What `vmh_free` does to the bundle for a pointer at block `pos`: in
   * contiguous mode refuse a block whose previous size bit is set, then
   * decode the run length from the size bitmap; free that many blocks, and
   * in contiguous mode clear as many size bits.
   */
  function FreeInBundle(b: Bundle, pos: nat, contiguous: bool): (r: FreeResult)
    requires pos < |b.alloc| && |b.sizes| == |b.alloc|
    ensures r.Freed? ==> r.blocks >= 1 && RegionSet(b.alloc, pos, r.blocks)
    ensures r.Freed? ==> r.bundle.buffer == b.buffer && r.bundle.blockSize == b.blockSize
                         && r.bundle.numBlocks == b.numBlocks
                         && |r.bundle.alloc| == |b.alloc| && |r.bundle.sizes| == |b.sizes|
    ensures r.Freed? ==> forall q :: 0 <= q < |b.alloc| ==>
                           r.bundle.alloc[q] == (b.alloc[q] && !(pos <= q < pos + r.blocks))
    ensures r.Refused? ==> r.err < 0
  {
    if contiguous && pos > 0 && b.sizes[pos - 1] then Refused(-EINVAL)
    else
      var k := if contiguous then 1 + ContinuationCount(b.sizes, pos) else 1;
      var e := BitarrayFreeError(b.alloc, pos, k);
      if e != 0 then Refused(e)
      else Freed(k, b.(alloc := SetRegion(b.alloc, pos, k, false),
                       sizes := if contiguous then SetRegion(b.sizes, pos, k, false) else b.sizes))
  }

  /**
   * The bitmap part of `vmh_free` for block `pos`: in contiguous mode the
   * refusal of a block inside a run and the scan of the size bits, then the
   * block allocator's free and, in contiguous mode, the clearing of the
   * size bits.
   */
  method DecodeFree(b: Bundle, pos: nat, contiguous: bool) returns (r: FreeResult)
    requires pos < |b.alloc| && |b.sizes| == |b.alloc|
    ensures r == FreeInBundle(b, pos, contiguous)
  {
    var blocks := 1;
    if contiguous {
      if pos > 0 && b.sizes[pos - 1] {
        return Refused(-EINVAL);
      }
      blocks := ScanRunLength(b.sizes, pos);
    }
    // sys_mem_blocks_free_contiguous, or sys_mem_blocks_free of one block
    var e := BitarrayFreeError(b.alloc, pos, blocks);
    if e != 0 {
      return Refused(e);
    }
    r := Freed(blocks, b.(alloc := SetRegion(b.alloc, pos, blocks, false),
                          sizes := if contiguous then SetRegion(b.sizes, pos, blocks, false) else b.sizes));
  }

  /** The first bundle, from index `from` on, whose memory holds `ptr`; absent slots are skipped. */
  function FindBundle(bundles: seq<Option<Bundle>>, ptr: nat, from: nat): (r: Option<nat>)
    requires from <= |bundles|
    ensures r.Some? ==> from <= r.value < |bundles| && bundles[r.value].Some?
                        && InBundleRange(ptr, bundles[r.value].value)
    ensures r.Some? ==> forall j :: from <= j < r.value ==> !(bundles[j].Some? && InBundleRange(ptr, bundles[j].value))
    ensures r.None? ==> forall j :: from <= j < |bundles| ==> !(bundles[j].Some? && InBundleRange(ptr, bundles[j].value))
    decreases |bundles| - from
  {
    if from == |bundles| then None
    else if bundles[from].Some? && InBundleRange(ptr, bundles[from].value) then Some(from)
    else FindBundle(bundles, ptr, from + 1)
  }

  datatype Lookup = NotFound | Found(index: nat) | NullDereference

  /**
   * The bundle lookup of `vmh_free` as written: it reads the block size and
   * the buffer of every slot it passes without checking that the slot holds
   * a bundle, as `vmh_alloc` does.
   */
  function FindBundleAsWritten(bundles: seq<Option<Bundle>>, ptr: nat, from: nat): (r: Lookup)
    requires from <= |bundles|
    ensures r.Found? ==> FindBundle(bundles, ptr, from) == Some(r.index)
    decreases |bundles| - from
  {
    if from == |bundles| then NotFound
    else if bundles[from].None? then NullDereference
    else if InBundleRange(ptr, bundles[from].value) then Found(from)
    else FindBundleAsWritten(bundles, ptr, from + 1)
  }

  /**
   * A heap whose configuration fills fewer than ten slots: freeing a pointer
   * that lies in none of its bundles reaches an empty slot and dereferences
   * it, where the corrected lookup reports that no bundle holds the pointer.
   */
  lemma ForeignPointerReachesEmptySlot()
    ensures var bundles := [Some(Bundle(0, 4096, 1, [false], [false]))] + seq(9, _ => None);
            FindBundleAsWritten(bundles, 8192, 0) == NullDereference &&
            FindBundle(bundles, 8192, 0) == None
  {
    var bundles := [Some(Bundle(0, 4096, 1, [false], [false]))] + seq(9, _ => None);
    assert !InBundleRange(8192, bundles[0].value);
    assert bundles[1].None?;
    assert FindBundleAsWritten(bundles, 8192, 1) == NullDereference;
    assert FindBundle(bundles, 8192, 1) == None by {
      NoBundleFrom(bundles, 8192, 1);
    }
  }

  lemma {:induction false} NoBundleFrom(bundles: seq<Option<Bundle>>, ptr: nat, from: nat)
    requires from <= |bundles| && forall j :: from <= j < |bundles| ==> bundles[j].None?
    ensures FindBundle(bundles, ptr, from) == None
    decreases |bundles| - from
  {
    if from < |bundles| {
      NoBundleFrom(bundles, ptr, from + 1);
    }
  }

  /**
   * `sys_mem_blocks_alloc_contiguous` (and `sys_mem_blocks_alloc` of one
   * block) on the allocation bitmap, taken to place a run first fit as
   * `sys_bitarray_alloc` does: the lowest run of `count` clear bits, or
   * `-ENOMEM` when there is none.
   */
  method BlocksAlloc(alloc: seq<bool>, count: nat) returns (err: int, p: nat)
    ensures err == 0 || err == -ENOMEM
    ensures err == 0 ==> RegionClear(alloc, p, count) && forall q :: 0 <= q < p ==> !RegionClear(alloc, q, count)
    ensures err != 0 ==> forall q: nat :: !RegionClear(alloc, q, count)
  {
    p := 0;
    while p + count <= |alloc|
      invariant forall q :: 0 <= q < p ==> !RegionClear(alloc, q, count)
      decreases |alloc| - p
    {
      if RegionClear(alloc, p, count) {
        return 0, p;
      }
      p := p + 1;
    }
    return -ENOMEM, 0;
  }

  /**
   * The pages of the run of `k` blocks at block `pos`: those `vmh_free`
   * unmaps when it frees the run, and those the allocation of the run maps.
   */
  function RunPages(b: Bundle, pos: nat, k: nat): Option<PageSpan>
    requires BundleValid(b) && pos + k <= b.numBlocks
  {
    AlignmentFacts(b);
    WholeBlocks(k, b.blockSize);
    RegionPages(b, pos, k * b.blockSize)
  }

  // ---------------------------------------------------------------------
  // Properties of the bitmap effects
  // ---------------------------------------------------------------------

  /**
   * Freeing an allocation at its first block undoes it exactly: `vmh_free`
   * decodes the same number of blocks `vmh_alloc` took and restores both
   * bitmaps; the allocated bundle is well formed in between.
   */
  lemma AllocFreeRoundTrip(b: Bundle, p: nat, k: nat, contiguous: bool)
    requires BundleWellFormed(b, contiguous) && 1 <= k && RegionClear(b.alloc, p, k)
    requires !contiguous ==> k == 1
    ensures BundleWellFormed(AllocInBundle(b, p, k), contiguous)
    ensures FreeInBundle(AllocInBundle(b, p, k), p, contiguous) == Freed(k, b)
  {
    if contiguous {
      RoundTripContiguous(b, p, k);
    } else {
      RoundTripSingle(b, p);
    }
  }

  lemma RoundTripContiguous(b: Bundle, p: nat, k: nat)
    requires BundleWellFormed(b, true) && 1 <= k && RegionClear(b.alloc, p, k)
    ensures BundleWellFormed(AllocInBundle(b, p, k), true)
    ensures FreeInBundle(AllocInBundle(b, p, k), p, true) == Freed(k, b)
  {
    var b' := AllocInBundle(b, p, k);
    AllocThenFree(b.alloc, b.sizes, p, k);
    assert b'.sizes == SizeBits(b.sizes, p, k);
    assert b'.alloc == AllocBits(b.alloc, p, k);
    assert BitarrayFreeError(b'.alloc, p, k) == 0;
  }

  lemma RoundTripSingle(b: Bundle, p: nat)
    requires BundleWellFormed(b, false) && RegionClear(b.alloc, p, 1)
    ensures BundleWellFormed(AllocInBundle(b, p, 1), false)
    ensures FreeInBundle(AllocInBundle(b, p, 1), p, false) == Freed(1, b)
  {
    var b' := AllocInBundle(b, p, 1);
    assert b'.sizes == b.sizes;
    assert BitarrayFreeError(b'.alloc, p, 1) == 0;
    assert SetRegion(b'.alloc, p, 1, false) == b.alloc;
  }

  /**
   * In contiguous mode, a pointer into the middle of an allocation is
   * refused with `-EINVAL` and frees nothing.
   */
  lemma FreeInsideRunRefused(b: Bundle, p: nat, k: nat, j: nat)
    requires BundleWellFormed(b, true) && 1 <= k && RegionClear(b.alloc, p, k)
    requires p < j < p + k
    ensures FreeInBundle(AllocInBundle(b, p, k), j, true) == Refused(-EINVAL)
  {
    AllocThenFree(b.alloc, b.sizes, p, k);
  }

  /** Freeing a block that is not allocated is refused with `-EFAULT` and frees nothing. */
  lemma FreeOfFreeBlockRefused(b: Bundle, pos: nat, contiguous: bool)
    requires BundleWellFormed(b, contiguous) && pos < |b.alloc| && !b.alloc[pos]
    ensures FreeInBundle(b, pos, contiguous) == Refused(-EFAULT)
  {
    if contiguous {
      FreeOfFreeBlock(b.alloc, b.sizes, pos);
    }
  }

  /** A successful free keeps the run encoding of the bundle. */
  lemma FreeKeepsBundleWellFormed(b: Bundle, pos: nat, contiguous: bool)
    requires BundleWellFormed(b, contiguous) && pos < |b.alloc|
    requires FreeInBundle(b, pos, contiguous).Freed?
    ensures BundleWellFormed(FreeInBundle(b, pos, contiguous).bundle, contiguous)
  {
    if contiguous {
      FreeDecodedRun(b.alloc, b.sizes, pos);
    }
  }

  /** The corrected failure path of `vmh_alloc` gives back the bundle as it was before the allocation. */
  lemma RollbackRestores(b: Bundle, p: nat, k: nat, contiguous: bool)
    requires BundleWellFormed(b, contiguous) && 1 <= k && RegionClear(b.alloc, p, k)
    requires !contiguous ==> k == 1
    ensures RollbackAlloc(AllocInBundle(b, p, k), p, k) == b
  {
    SetThenClear(b.alloc, p, k);
    if k > 1 {
      forall j | p <= j < p + k - 1
        ensures !b.sizes[j]
      {
        assert !b.alloc[j];
      }
      SetThenClear(b.sizes, p, k - 1);
    } else {
      SetThenClear(b.sizes, p, 0);
    }
  }

  /** Setting clear bits and clearing them again gives back the bitmap. */
  lemma SetThenClear(bits: seq<bool>, p: nat, n: nat)
    requires p + n <= |bits| && forall j :: p <= j < p + n ==> !bits[j]
    ensures SetRegion(SetRegion(bits, p, n, true), p, n, false) == bits
  {
    var r := SetRegion(SetRegion(bits, p, n, true), p, n, false);
    assert forall j :: 0 <= j < |bits| ==> r[j] == bits[j];
  }

  /**
   * The failure path as written leaves the size bits of a failed two-block
   * allocation set: the bundle is no longer well formed, and a block later
   * allocated right behind the stale bit can never be freed, because
   * `vmh_free` takes it for the middle of a run.
   */
  lemma RollbackAsWrittenLeaksBlock()
    ensures var b := Bundle(0, 64, 2, [false, false], [false, false]);
            var failed := RollbackAllocAsWritten(AllocInBundle(b, 0, 2), 0, 2);
            failed != b && !BundleWellFormed(failed, true) &&
            FreeInBundle(AllocInBundle(failed, 1, 1), 1, true) == Refused(-EINVAL)
  {
    var b := Bundle(0, 64, 2, [false, false], [false, false]);
    var a := AllocInBundle(b, 0, 2);
    assert a.sizes == [true, false];
    var failed := RollbackAllocAsWritten(a, 0, 2);
    assert failed.alloc == [false, false];
    assert failed.sizes[0];
  }

  // ---------------------------------------------------------------------
  // Backing of blocks by mapped pages
  // ---------------------------------------------------------------------

  /** Two bundles whose memory does not overlap. */
  predicate Disjoint(b: Bundle, c: Bundle)
  {
    BundleEnd(b) <= c.buffer || BundleEnd(c) <= b.buffer
  }

  /** A page of one bundle's block is not a page of a bundle beside it. */
  lemma OtherBundlePage(b: Bundle, c: Bundle, q: nat)
    requires BundleValid(b) && BundleValid(c) && Disjoint(b, c) && q < c.numBlocks
    ensures !InBundle(BlockPage(c, q), b)
  {
    AlignmentFacts(c);
    AddrLess(c, q, c.numBlocks);
    if BundleEnd(b) <= c.buffer {
      AlignDownMaximal(Addr(c, q), PAGE_SIZE, c.buffer);
    }
  }

  /**
   * Changes to the pages of bundle `b` leave every disjoint bundle backed,
   * and leave every page of every block of it as it was.
   */
  lemma OtherBundleStaysBacked(b: Bundle, c: Bundle, m: set<nat>, m': set<nat>)
    requires BundleValid(b) && BundleValid(c) && Disjoint(b, c)
    requires BundleBacked(c, m)
    requires forall pg: nat :: !InBundle(pg, b) ==> (pg in m' <==> pg in m)
    ensures BundleBacked(c, m')
    ensures forall q, pg :: 0 <= q < c.numBlocks && PageOfBlock(c, q, pg) ==> (pg in m' <==> pg in m)
  {
    forall q | 0 <= q < |c.alloc| && c.alloc[q]
      ensures BlockPage(c, q) in m'
    {
      OtherBundlePage(b, c, q);
    }
    forall q, pg | 0 <= q < c.numBlocks && PageOfBlock(c, q, pg)
      ensures pg in m' <==> pg in m
    {
      BlockPageInBundle(c, q, pg);
    }
  }

  /** Mapping the page range of a new allocation backs every block of it. */
  lemma AllocStaysBacked(b: Bundle, p: nat, size: nat, m: set<nat>, m': set<nat>)
    requires BundleValid(b) && 0 < size && RegionClear(b.alloc, p, DivRoundUp(size, b.blockSize))
    requires BundleBacked(b, m)
    requires forall pg :: pg in m' <==> pg in m || InSpan(pg, RegionPages(AllocInBundle(b, p, DivRoundUp(size, b.blockSize)), p, size))
    ensures BundleBacked(AllocInBundle(b, p, DivRoundUp(size, b.blockSize)), m')
  {
    var b' := AllocInBundle(b, p, DivRoundUp(size, b.blockSize));
    forall q | 0 <= q < |b'.alloc| && b'.alloc[q]
      ensures BlockPage(b', q) in m'
    {
      AllocBlockBacked(b, p, size, m, m', q);
    }
  }

  /** One block of the bundle after the allocation: it lies on a mapped page. */
  lemma AllocBlockBacked(b: Bundle, p: nat, size: nat, m: set<nat>, m': set<nat>, q: nat)
    requires BundleValid(b) && 0 < size && RegionClear(b.alloc, p, DivRoundUp(size, b.blockSize))
    requires BundleBacked(b, m)
    requires forall pg :: pg in m' <==> pg in m || InSpan(pg, RegionPages(AllocInBundle(b, p, DivRoundUp(size, b.blockSize)), p, size))
    requires q < |b.alloc| && AllocInBundle(b, p, DivRoundUp(size, b.blockSize)).alloc[q]
    ensures BlockPage(AllocInBundle(b, p, DivRoundUp(size, b.blockSize)), q) in m'
  {
    var k := DivRoundUp(size, b.blockSize);
    var b' := AllocInBundle(b, p, k);
    AllocKeepsValid(b, p, k);
    if p <= q < p + k {
      RunBlockCovered(b', p, size, q);
      if !InSpan(BlockPage(b', q), RegionPages(b', p, size)) {
        var r :| 0 <= r < |b'.alloc| && b'.alloc[r] && !(p <= r < p + k) && BlockPage(b', r) == BlockPage(b', q);
        assert b.alloc[r];
      }
    } else {
      assert b.alloc[q];
    }
  }

  /** An allocation changes only the bitmaps: the bundle keeps its memory and stays valid. */
  lemma AllocKeepsValid(b: Bundle, p: nat, k: nat)
    requires BundleValid(b) && 1 <= k && p + k <= |b.alloc|
    ensures BundleValid(AllocInBundle(b, p, k)) && SameGeometry(b, AllocInBundle(b, p, k))
  {
    var b' := AllocInBundle(b, p, k);
    assert BundleEnd(b') == BundleEnd(b);
  }

  /**
   * Unmapping the page range of an allocation that did not go through leaves
   * the other blocks backed, and every mapped page of a live block mapped.
   */
  lemma FailedAllocStaysBacked(b: Bundle, p: nat, size: nat, m: set<nat>, m': set<nat>)
    requires BundleValid(b) && 0 < size && RegionClear(b.alloc, p, DivRoundUp(size, b.blockSize))
    requires BundleBacked(b, m)
    requires forall pg :: pg in m' <==> pg in m && !InSpan(pg, RegionPages(AllocInBundle(b, p, DivRoundUp(size, b.blockSize)), p, size))
    ensures BundleBacked(b, m')
    ensures forall q, pg :: 0 <= q < |b.alloc| && b.alloc[q] && PageOfBlock(b, q, pg) && pg in m ==> pg in m'
  {
    var k := DivRoundUp(size, b.blockSize);
    var b' := AllocInBundle(b, p, k);
    RegionPagesSpareLiveBlocks(b', p, size);
    RegionPagesSpareLiveBlockPages(b', p, size);
    forall q | 0 <= q < |b.alloc| && b.alloc[q]
      ensures BlockPage(b, q) in m'
    {
      assert b'.alloc[q];
    }
    forall q, pg | 0 <= q < |b.alloc| && b.alloc[q] && PageOfBlock(b, q, pg) && pg in m
      ensures pg in m'
    {
      assert b'.alloc[q] && PageOfBlock(b', q, pg);
    }
  }

  /**
   * Unmapping the page range of a freed run leaves the remaining blocks
   * backed, and every mapped page of a remaining live block mapped.
   */
  lemma FreeStaysBacked(b: Bundle, b': Bundle, pos: nat, k: nat, m: set<nat>, m': set<nat>)
    requires BundleValid(b) && BundleValid(b') && 1 <= k && pos + k <= b.numBlocks
    requires b'.buffer == b.buffer && b'.blockSize == b.blockSize && b'.numBlocks == b.numBlocks
    requires forall q :: 0 <= q < |b.alloc| ==> b'.alloc[q] == (b.alloc[q] && !(pos <= q < pos + k))
    requires BundleBacked(b, m)
    requires forall pg :: pg in m' <==> pg in m && !InSpan(pg, RunPages(b', pos, k))
    ensures BundleBacked(b', m')
    ensures forall q, pg :: 0 <= q < |b'.alloc| && b'.alloc[q] && PageOfBlock(b', q, pg) && pg in m ==> pg in m'
  {
    AlignmentFacts(b);
    WholeBlocks(k, b.blockSize);
    RegionPagesSpareLiveBlocks(b', pos, k * b.blockSize);
    RegionPagesSpareLiveBlockPages(b', pos, k * b.blockSize);
    forall q | 0 <= q < |b'.alloc| && b'.alloc[q]
      ensures BlockPage(b', q) in m'
    {
      assert b.alloc[q];
    }
  }

  lemma MulLessInv(x: nat, y: nat, d: nat)
    requires x * d < y * d
    ensures x < y
  {
    if x >= y {
      MulMono(y, x, d);
    }
  }

  /** An allocation that fits in one block takes one block. */
  lemma OneBlock(size: nat, bs: nat)
    requires 0 < size <= bs
    ensures DivRoundUp(size, bs) == 1
  {
    DivModUnique(size + bs - 1, bs, 1, size - 1);
  }

  /** Freeing `k` whole blocks asks the page mapper about exactly those `k` blocks. */
  lemma WholeBlocks(k: nat, bs: nat)
    requires bs > 0
    ensures DivRoundUp(k * bs, bs) == k
  {
    DivModUnique(k * bs + bs - 1, bs, k, bs - 1);
  }

  /**
   * Every byte of the `size` bytes allocated at block `p` lies on a mapped
   * page, once the run's blocks are backed and its page range is mapped.
   */
  lemma RequestedBytesMapped(b: Bundle, p: nat, size: nat, m: set<nat>)
    requires BundleValid(b) && 0 < size && p + DivRoundUp(size, b.blockSize) <= b.numBlocks
    requires RegionSet(b.alloc, p, DivRoundUp(size, b.blockSize)) && BundleBacked(b, m)
    requires forall pg: nat :: InSpan(pg, RegionPages(b, p, size)) ==> pg in m
    ensures forall a :: Addr(b, p) <= a < Addr(b, p) + size ==> PageOf(a) in m
  {
    forall a | Addr(b, p) <= a < Addr(b, p) + size
      ensures PageOf(a) in m
    {
      if b.blockSize >= PAGE_SIZE {
        LargeByteInSpan(b, p, size, a);
      } else {
        var q := SmallByteBlock(b, p, size, a);
        assert b.alloc[q];
      }
    }
  }

  /** Blocks of a page or more: each requested byte lies on a page of the mapped range. */
  lemma LargeByteInSpan(b: Bundle, p: nat, size: nat, a: nat)
    requires BundleValid(b) && b.blockSize >= PAGE_SIZE && p + DivRoundUp(size, b.blockSize) <= b.numBlocks
    requires Addr(b, p) <= a < Addr(b, p) + size
    ensures InSpan(PageOf(a), RegionPages(b, p, size))
  {
    AlignmentFacts(b);
    RunAddresses(b, p, size);
    var ptr := Addr(b, p);
    LargeBlockFacts(b, ptr, size);
    assert RegionPages(b, p, size) == Some(PageSpan(ptr, AlignUp(size, PAGE_SIZE)));
    AlignDownMaximal(a, PAGE_SIZE, ptr);
  }

  /** Blocks smaller than a page: each requested byte lies on the first page of a block of the run. */
  lemma SmallByteBlock(b: Bundle, p: nat, size: nat, a: nat) returns (q: nat)
    requires BundleValid(b) && b.blockSize < PAGE_SIZE && p + DivRoundUp(size, b.blockSize) <= b.numBlocks
    requires Addr(b, p) <= a < Addr(b, p) + size
    ensures p <= q < p + DivRoundUp(size, b.blockSize) && PageOf(a) == BlockPage(b, q)
  {
    AlignmentFacts(b);
    var d := OffsetBlock(Addr(b, p), a, size, b.blockSize, DivRoundUp(size, b.blockSize));
    q := p + d;
    assert Addr(b, q) == Addr(b, p) + d * b.blockSize by {
      assert (p + d) * b.blockSize == p * b.blockSize + d * b.blockSize;
    }
    ByteOnBlockPage(b, q, a);
  }

  /** A byte less than `k` blocks past `start` lies in one of those `k` blocks. */
  lemma OffsetBlock(start: nat, a: nat, size: nat, bs: nat, k: nat) returns (d: nat)
    requires bs > 0 && start <= a < start + size && size <= k * bs
    ensures d < k && start + d * bs <= a < start + d * bs + bs
  {
    d := (a - start) / bs;
    assert d * bs < k * bs;
    MulLessInv(d, k, bs);
  }

  /** A block-aligned pointer into a bundle is the address of one of its blocks. */
  lemma PositionOfPointer(b: Bundle, ptr: nat)
    requires BundleValid(b) && InBundleRange(ptr, b) && (ptr - b.buffer) % b.blockSize == 0
    ensures (ptr - b.buffer) / b.blockSize < b.numBlocks
    ensures Addr(b, (ptr - b.buffer) / b.blockSize) == ptr
  {
    AlignmentFacts(b);
    var pos := (ptr - b.buffer) / b.blockSize;
    AddrOfOffset(b, ptr);
    AddrLess(b, b.numBlocks, pos);
  }

  /**
   * The page range of a run depends on the bitmaps only outside the run:
   * two descriptions of the same memory that agree there give the same pages.
   */
  lemma RunPagesIgnoreRun(b: Bundle, c: Bundle, p: nat, k: nat)
    requires BundleValid(b) && BundleValid(c) && SameGeometry(b, c) && p + k <= b.numBlocks
    requires forall q :: 0 <= q < |b.alloc| && !(p <= q < p + k) ==> b.alloc[q] == c.alloc[q]
    ensures RunPages(b, p, k) == RunPages(c, p, k)
  {
    AlignmentFacts(b);
    WholeBlocks(k, b.blockSize);
    if b.blockSize < PAGE_SIZE {
      SmallRegionPagesSame(b, c, p, k * b.blockSize);
    }
  }

  /** Blocks under a page: the boundaries of an allocation look only at live blocks outside it. */
  lemma SmallRegionPagesSame(b: Bundle, c: Bundle, p: nat, size: nat)
    requires BundleValid(b) && BundleValid(c) && SameGeometry(b, c) && b.blockSize < PAGE_SIZE
    requires p + DivRoundUp(size, b.blockSize) <= b.numBlocks
    requires forall q :: 0 <= q < |b.alloc| && !(p <= q < p + DivRoundUp(size, b.blockSize)) ==> b.alloc[q] == c.alloc[q]
    ensures RegionPages(b, p, size) == RegionPages(c, p, size)
  {
    SmallRegionPagesAre(b, p, size);
    SmallRegionPagesAre(c, p, size);
    SmallBoundariesSame(b, c, p, size);
  }

  /** The boundaries of an allocation at block `p` agree for bundles that agree outside its run. */
  lemma SmallBoundariesSame(b: Bundle, c: Bundle, p: nat, size: nat)
    requires BundleValid(b) && BundleValid(c) && SameGeometry(b, c) && b.blockSize < PAGE_SIZE
    requires p + DivRoundUp(size, b.blockSize) <= b.numBlocks
    requires forall q :: 0 <= q < |b.alloc| && !(p <= q < p + DivRoundUp(size, b.blockSize)) ==> b.alloc[q] == c.alloc[q]
    ensures b.buffer <= Addr(b, p) && (Addr(b, p) - b.buffer) % b.blockSize == 0
    ensures Addr(b, p) + AlignUp(size, b.blockSize) <= BundleEnd(b)
    ensures MapRegionBoundaries(b, Addr(b, p), size) == MapRegionBoundaries(c, Addr(b, p), size)
  {
    var k := DivRoundUp(size, b.blockSize);
    var ptr := Addr(b, p);
    RunAddresses(b, p, size);
    LiveBlockInSame(b, c, p, p + k, AlignDown(ptr, PAGE_SIZE), ptr);
    LiveBlockInSame(b, c, p, p + k, ptr + AlignUp(size, b.blockSize), AlignUp(ptr + size, PAGE_SIZE));
    BoundariesSame(b, c, ptr, size);
  }

  /** Blocks under a page: the pages of an allocation are the ones its boundaries give. */
  lemma SmallRegionPagesAre(b: Bundle, p: nat, size: nat)
    requires BundleValid(b) && b.blockSize < PAGE_SIZE && p + DivRoundUp(size, b.blockSize) <= b.numBlocks
    ensures b.buffer <= Addr(b, p) && (Addr(b, p) - b.buffer) % b.blockSize == 0
    ensures Addr(b, p) + AlignUp(size, b.blockSize) <= BundleEnd(b)
    ensures RegionPages(b, p, size) == MapRegionBoundaries(b, Addr(b, p), size)
  {
    RunAddresses(b, p, size);
  }

  /** The boundaries are a function of the live blocks before and after the allocation. */
  lemma BoundariesSame(b: Bundle, c: Bundle, ptr: nat, size: nat)
    requires BundleValid(b) && BundleValid(c) && SameGeometry(b, c) && b.blockSize < PAGE_SIZE
    requires b.buffer <= ptr && (ptr - b.buffer) % b.blockSize == 0
    requires ptr + AlignUp(size, b.blockSize) <= BundleEnd(b)
    requires LiveBlockIn(b, AlignDown(ptr, PAGE_SIZE), ptr) == LiveBlockIn(c, AlignDown(ptr, PAGE_SIZE), ptr)
    requires LiveBlockIn(b, ptr + AlignUp(size, b.blockSize), AlignUp(ptr + size, PAGE_SIZE)) ==
             LiveBlockIn(c, ptr + AlignUp(size, b.blockSize), AlignUp(ptr + size, PAGE_SIZE))
    ensures MapRegionBoundaries(b, ptr, size) == MapRegionBoundaries(c, ptr, size)
  {
  }

  /** Whether a live block starts in an address range that misses blocks `i .. j - 1` does not depend on those blocks. */
  lemma LiveBlockInSame(b: Bundle, c: Bundle, i: nat, j: nat, lo: nat, hi: nat)
    requires b.blockSize > 0 && SameGeometry(b, c) && |b.alloc| == |c.alloc|
    requires forall q :: 0 <= q < |b.alloc| && !(i <= q < j) ==> b.alloc[q] == c.alloc[q]
    requires hi <= Addr(b, i) || Addr(b, j) <= lo
    ensures LiveBlockIn(b, lo, hi) == LiveBlockIn(c, lo, hi)
  {
    if LiveBlockIn(b, lo, hi) {
      var q :| 0 <= q < |b.alloc| && b.alloc[q] && lo <= Addr(b, q) < hi;
      AddrBetween(b, i, j, q);
      assert c.alloc[q] && Addr(c, q) == Addr(b, q);
    }
    if LiveBlockIn(c, lo, hi) {
      var q :| 0 <= q < |c.alloc| && c.alloc[q] && lo <= Addr(c, q) < hi;
      AddrBetween(b, i, j, q);
      assert b.alloc[q] && Addr(c, q) == Addr(b, q);
    }
  }

  /**
   * An allocation whose whole run was mapped, freed at its first block:
   * `vmh_free` gives back the run's blocks, restores the bundle and unmaps
   * only pages that are mapped, so the driver reports success.
   */
  lemma AllocThenFreeUnmapsMapped(b: Bundle, p: nat, k: nat, contiguous: bool, m: set<nat>)
    requires BundleValid(b) && BundleWellFormed(b, contiguous) && 1 <= k && RegionClear(b.alloc, p, k)
    requires !contiguous ==> k == 1
    requires forall pg: nat :: InSpan(pg, RunPages(AllocInBundle(b, p, k), p, k)) ==> pg in m
    ensures FreeInBundle(AllocInBundle(b, p, k), p, contiguous) == Freed(k, b)
    ensures forall pg: nat :: InSpan(pg, RunPages(b, p, k)) ==> pg in m
  {
    AllocFreeRoundTrip(b, p, k, contiguous);
    AllocKeepsValid(b, p, k);
    RunPagesIgnoreRun(b, AllocInBundle(b, p, k), p, k);
  }

  /**
   * The mapping as `vmh_alloc` writes it covers the requested bytes rounded
   * up to pages, while `vmh_free` unmaps the whole run. A 9000-byte
   * allocation in a bundle of one 64 KiB block maps pages 0 to 2; freeing it
   * gives the block back and unmaps pages 0 to 15, so it asks the driver to
   * unmap page 3, which was never mapped.
   */
  lemma LargeFreeUnmapsUnmapped()
    ensures var b := Bundle(0, 0x1_0000, 1, [false], [false]);
            var b' := AllocInBundle(b, 0, 1);
            BundleValid(b) &&
            FreeInBundle(b', 0, false) == Freed(1, b) &&
            InSpan(3, RunPages(b, 0, 1)) && !InSpan(3, RegionPages(b', 0, 9000))
  {
    var b := Bundle(0, 0x1_0000, 1, [false], [false]);
    PageSizeIsPowerOfTwo();
    assert IsPowerOfTwo(0x2000);
    assert IsPowerOfTwo(0x4000);
    assert IsPowerOfTwo(0x8000);
    assert IsPowerOfTwo(0x1_0000);
    AllocFreeRoundTrip(b, 0, 1, false);
    AllocKeepsValid(b, 0, 1);
    OneBlock(9000, 0x1_0000);
    WholeBlocks(1, 0x1_0000);
    assert AlignUp(9000, PAGE_SIZE) == 3 * PAGE_SIZE by {
      AlignUpIs(9000, PAGE_SIZE, 3 * PAGE_SIZE);
    }
    assert AlignUp(0x1_0000, PAGE_SIZE) == 0x1_0000 by {
      AlignUpIs(0x1_0000, PAGE_SIZE, 0x1_0000);
    }
  }

  // ---------------------------------------------------------------------
  // The layout of a heap's bundles
  // ---------------------------------------------------------------------

  /**
   * Ten slots; each bundle is well formed and lies in the region; bundles
   * follow each other in slot order without overlapping.
   */
  ghost predicate LayoutValid(bundles: seq<Option<Bundle>>, region: Region, contiguous: bool)
  {
    |bundles| == MAX_MEMORY_ALLOCATORS_COUNT &&
    (forall i :: 0 <= i < |bundles| && bundles[i].Some? ==>
       BundleValid(bundles[i].value) && BundleWellFormed(bundles[i].value, contiguous) &&
       region.addr <= bundles[i].value.buffer && BundleEnd(bundles[i].value) <= region.addr + region.size) &&
    (forall i, j :: 0 <= i < j < |bundles| && bundles[i].Some? && bundles[j].Some? ==>
       BundleEnd(bundles[i].value) <= bundles[j].value.buffer)
  }

  /** Every allocated block of every bundle sits on a mapped page. */
  ghost predicate AllBacked(bundles: seq<Option<Bundle>>, mapped: set<nat>)
  {
    forall i :: 0 <= i < |bundles| && bundles[i].Some? ==> BundleBacked(bundles[i].value, mapped)
  }

  /** Page `pg` lies in the region. */
  predicate InRegion(pg: nat, region: Region)
  {
    region.addr <= pg * PAGE_SIZE < region.addr + region.size
  }

  /** Two descriptions of the same memory: same buffer, block size and block count. */
  predicate SameGeometry(b: Bundle, c: Bundle)
  {
    b.buffer == c.buffer && b.blockSize == c.blockSize && b.numBlocks == c.numBlocks
  }

  /** Giving a slot new bitmaps of the same shape keeps the layout valid. */
  lemma ReplaceKeepsLayout(bundles: seq<Option<Bundle>>, region: Region, contiguous: bool, i: nat, b: Bundle)
    requires LayoutValid(bundles, region, contiguous) && i < |bundles| && bundles[i].Some?
    requires SameGeometry(bundles[i].value, b) && |b.alloc| == b.numBlocks && |b.sizes| == b.numBlocks
    requires BundleWellFormed(b, contiguous)
    ensures LayoutValid(bundles[i := Some(b)], region, contiguous)
  {
  }

  /**
   * When slot `i` gets new bitmaps that are backed, and the page table
   * changed only inside that bundle's memory, every bundle is backed, and
   * no page outside the region changed.
   */
  lemma ReplaceKeepsBacked(bundles: seq<Option<Bundle>>, region: Region, contiguous: bool, i: nat, b: Bundle,
                           m: set<nat>, m': set<nat>)
    requires LayoutValid(bundles, region, contiguous) && AllBacked(bundles, m)
    requires i < |bundles| && bundles[i].Some? && SameGeometry(bundles[i].value, b)
    requires BundleBacked(b, m')
    requires forall pg: nat :: !InBundle(pg, b) ==> (pg in m' <==> pg in m)
    ensures AllBacked(bundles[i := Some(b)], m')
    ensures forall pg: nat :: !InRegion(pg, region) ==> (pg in m' <==> pg in m)
  {
    var c := bundles[i].value;
    forall j | 0 <= j < |bundles| && j != i && bundles[j].Some?
      ensures BundleBacked(bundles[j].value, m')
    {
      assert Disjoint(c, bundles[j].value);
      OtherBundleStaysBacked(c, bundles[j].value, m, m');
    }
  }

  /**
   * A run allocated at block `p` of bundle `i` whose pages were then
   * mapped: every bundle is backed, every byte of the run lies on a mapped
   * page, and no page outside the region changed.
   */
  /** Every byte from `lo` up to `hi` lies on a page in `m`. */
  ghost predicate BytesMapped(lo: nat, hi: nat, m: set<nat>)
  {
    forall a :: lo <= a < hi ==> PageOf(a) in m
  }

  /** Recording a run of `size` bytes at block `p` keeps the layout valid, and the run's pages are its blocks' pages. */
  lemma AllocKeepsLayout(bundles: seq<Option<Bundle>>, region: Region, contiguous: bool, i: nat, p: nat, size: nat)
    requires LayoutValid(bundles, region, contiguous) && 0 < size
    requires i < |bundles| && bundles[i].Some? && (contiguous || bundles[i].value.blockSize >= size)
    requires RegionClear(bundles[i].value.alloc, p, DivRoundUp(size, bundles[i].value.blockSize))
    ensures var b := bundles[i].value;
            var k := DivRoundUp(size, b.blockSize);
            var b' := AllocInBundle(b, p, k);
            LayoutValid(bundles[i := Some(b')], region, contiguous) && BundleValid(b') &&
            p + DivRoundUp(k * b.blockSize, b.blockSize) <= b.numBlocks &&
            RegionPages(b', p, k * b.blockSize) == RunPages(b', p, k)
  {
    var b := bundles[i].value;
    var k := DivRoundUp(size, b.blockSize);
    if !contiguous {
      OneBlock(size, b.blockSize);
    }
    var b' := AllocInBundle(b, p, k);
    AllocFreeRoundTrip(b, p, k, contiguous);
    AllocKeepsValid(b, p, k);
    ReplaceKeepsLayout(bundles, region, contiguous, i, b');
    AlignmentFacts(b);
    WholeBlocks(k, b.blockSize);
  }

  lemma AllocCommitted(bundles: seq<Option<Bundle>>, region: Region, contiguous: bool, i: nat, p: nat, size: nat,
                       m: set<nat>, m': set<nat>)
    requires LayoutValid(bundles, region, contiguous) && AllBacked(bundles, m)
    requires i < |bundles| && bundles[i].Some? && 0 < size
    requires RegionClear(bundles[i].value.alloc, p, DivRoundUp(size, bundles[i].value.blockSize))
    requires var b := bundles[i].value;
             var k := DivRoundUp(size, b.blockSize);
             forall pg :: pg in m' <==> pg in m || InSpan(pg, RunPages(AllocInBundle(b, p, k), p, k))
    ensures var b := bundles[i].value;
            AllBacked(bundles[i := Some(AllocInBundle(b, p, DivRoundUp(size, b.blockSize)))], m')
    ensures forall pg: nat :: !InRegion(pg, region) ==> (pg in m' <==> pg in m)
    ensures var b := bundles[i].value;
            BytesMapped(Addr(b, p), Addr(b, p + DivRoundUp(size, b.blockSize)), m')
    ensures var b := bundles[i].value;
            BytesMapped(Addr(b, p), Addr(b, p) + size, m')
  {
    var b := bundles[i].value;
    var k := DivRoundUp(size, b.blockSize);
    var b' := AllocInBundle(b, p, k);
    AlignmentFacts(b);
    WholeBlocks(k, b.blockSize);
    RunAddresses(b, p, k * b.blockSize);
    AllocStaysBacked(b, p, k * b.blockSize, m, m');
    ReplaceKeepsBacked(bundles, region, contiguous, i, b', m, m');
    RequestedBytesMapped(b', p, k * b.blockSize, m');
    RunAddresses(b, p, size);
  }

  /**
   * A run allocated at block `p` of bundle `i` whose mapping failed and
   * whose page range was unmapped again: once the run is given back, every
   * bundle is still backed and no page outside the region changed.
   */
  lemma AllocRolledBack(bundles: seq<Option<Bundle>>, region: Region, contiguous: bool, i: nat, p: nat, size: nat,
                        m: set<nat>, m': set<nat>)
    requires LayoutValid(bundles, region, contiguous) && AllBacked(bundles, m)
    requires i < |bundles| && bundles[i].Some? && 0 < size
    requires RegionClear(bundles[i].value.alloc, p, DivRoundUp(size, bundles[i].value.blockSize))
    requires var b := bundles[i].value;
             var k := DivRoundUp(size, b.blockSize);
             forall pg :: pg in m' <==> pg in m && !InSpan(pg, RunPages(AllocInBundle(b, p, k), p, k))
    ensures AllBacked(bundles, m')
    ensures forall pg: nat :: !InRegion(pg, region) ==> (pg in m' <==> pg in m)
  {
    var b := bundles[i].value;
    var k := DivRoundUp(size, b.blockSize);
    AlignmentFacts(b);
    WholeBlocks(k, b.blockSize);
    FailedAllocStaysBacked(b, p, k * b.blockSize, m, m');
    ReplaceKeepsBacked(bundles, region, contiguous, i, b, m, m');
    assert bundles[i := Some(b)] == bundles;
  }

  /**
   * The bundle loop of `vmh_alloc`: skip empty slots, bundles whose blocks
   * are too small in fixed mode and bundles with too few blocks, and take
   * the first bundle on which the block allocator finds a free run.
   */
  /**
   * Block `p` of bundle `i` starts the first free run of the first bundle
   * that can serve `size` bytes.
   */
  ghost predicate FirstFit(bundles: seq<Option<Bundle>>, size: nat, contiguous: bool, i: nat, p: nat)
  {
    i < |bundles| && CanServe(bundles[i], size, contiguous) &&
    (forall j :: 0 <= j < i ==> !CanServe(bundles[j], size, contiguous)) &&
    var k := DivRoundUp(size, bundles[i].value.blockSize);
    RegionClear(bundles[i].value.alloc, p, k) &&
    forall q :: 0 <= q < p ==> !RegionClear(bundles[i].value.alloc, q, k)
  }

  method FindServingBundle(bundles: seq<Option<Bundle>>, size: nat, contiguous: bool)
    returns (found: bool, i: nat, p: nat)
    requires |bundles| == MAX_MEMORY_ALLOCATORS_COUNT
    requires forall j :: 0 <= j < |bundles| && bundles[j].Some? ==> bundles[j].value.blockSize > 0
    ensures found ==> FirstFit(bundles, size, contiguous, i, p)
    ensures !found ==> forall j :: 0 <= j < |bundles| ==> !CanServe(bundles[j], size, contiguous)
  {
    i := 0;
    p := 0;
    while i < MAX_MEMORY_ALLOCATORS_COUNT
      invariant 0 <= i <= MAX_MEMORY_ALLOCATORS_COUNT
      invariant forall j :: 0 <= j < i ==> !CanServe(bundles[j], size, contiguous)
    {
      if bundles[i].Some? {
        var b := bundles[i].value;
        var count := DivRoundUp(size, b.blockSize);
        if !(b.blockSize < size && !contiguous) && count <= b.numBlocks {
          var err, q := BlocksAlloc(b.alloc, count);
          if err == 0 {
            return true, i, q;
          }
        }
      }
      i := i + 1;
    }
    found := false;
  }

  /**
   * The bundle loop of `vmh_free`, with empty slots skipped: the first
   * bundle whose memory holds `ptr`.
   */
  method LocateBundle(bundles: seq<Option<Bundle>>, ptr: nat) returns (found: bool, i: nat)
    requires |bundles| == MAX_MEMORY_ALLOCATORS_COUNT
    ensures found <==> FindBundle(bundles, ptr, 0).Some?
    ensures found ==> FindBundle(bundles, ptr, 0) == Some(i)
  {
    i := 0;
    while i < MAX_MEMORY_ALLOCATORS_COUNT
      invariant 0 <= i <= MAX_MEMORY_ALLOCATORS_COUNT
      invariant FindBundle(bundles, ptr, 0) == FindBundle(bundles, ptr, i)
    {
      if bundles[i].Some? && InBundleRange(ptr, bundles[i].value) {
        return true, i;
      }
      i := i + 1;
    }
    found := false;
  }

  // ---------------------------------------------------------------------
  // The heap
  // ---------------------------------------------------------------------

  class VmHeap {
    const coreId: nat
    const region: Region
    const contiguous: bool
    /** `physical_blocks_allocators[i]` with `allocation_sizes[i]`; `None` for an unused slot. */
    var bundles: seq<Option<Bundle>>

    ghost predicate Valid()
      reads this
    {
      LayoutValid(bundles, region, contiguous)
    }

    ghost predicate Backed(drv: MmDriver)
      reads this, drv
    {
      AllBacked(bundles, drv.mapped)
    }

    constructor (coreId: nat, region: Region, contiguous: bool, bundles: seq<Option<Bundle>>)
      ensures this.coreId == coreId && this.region == region && this.contiguous == contiguous
      ensures this.bundles == bundles
    {
      this.coreId := coreId;
      this.region := region;
      this.contiguous := contiguous;
      this.bundles := bundles;
    }

    /**
     * `vmh_alloc`: refuse a zero size and a foreign core; take the first free
     * run on the first bundle that can serve the size, record it in both
     * bitmaps, then map the pages of the whole run (the pages `vmh_free`
     * will unmap). When mapping fails the blocks are given back and the
     * bundles are as before.
     */
    method Alloc(allocSize: nat, cpu: nat, drv: MmDriver) returns (ptr: Option<nat>)
      requires Valid() && Backed(drv)
      modifies this, drv
      ensures Valid() && Backed(drv)
      ensures forall pg: nat :: !InRegion(pg, region) ==> (pg in drv.mapped <==> pg in old(drv.mapped))
      ensures allocSize == 0 || cpu != coreId ==> ptr.None? && drv.mapped == old(drv.mapped)
      ensures ptr.None? ==> bundles == old(bundles)
      ensures (forall j :: 0 <= j < |old(bundles)| ==> !CanServe(old(bundles)[j], allocSize, contiguous)) ==> ptr.None?
      ensures ptr.Some? ==>
                allocSize > 0 && cpu == coreId &&
                exists i: nat, p: nat :: FirstFit(old(bundles), allocSize, contiguous, i, p) &&
                  var b := old(bundles)[i].value;
                  var k := DivRoundUp(allocSize, b.blockSize);
                  |b.sizes| == |b.alloc| && ptr.value == Addr(b, p) &&
                  bundles == old(bundles)[i := Some(AllocInBundle(b, p, k))] &&
                  BytesMapped(Addr(b, p), Addr(b, p + k), drv.mapped)
      ensures ptr.Some? ==> BytesMapped(ptr.value, ptr.value + allocSize, drv.mapped)
    {
      if allocSize == 0 || cpu != coreId {
        return None;
      }
      var found, i, p := FindServingBundle(bundles, allocSize, contiguous);
      if !found {
        return None;
      }
      var addr := Addr(bundles[i].value, p);
      var ok := AllocRun(i, p, allocSize, drv);
      if ok {
        ptr := Some(addr);
      } else {
        ptr := None;
      }
    }

    /**
     * The rest of `vmh_alloc` once the block allocator has handed out the
     * free run at block `p` of bundle `i`: record the run's length in the
     * size bitmap and map the pages of the whole run; when mapping fails, give the blocks
     * back and clear the size bits again.
     */
    method AllocRun(i: nat, p: nat, size: nat, drv: MmDriver) returns (ok: bool)
      requires Valid() && Backed(drv) && 0 < size
      requires i < |bundles| && bundles[i].Some? && (contiguous || bundles[i].value.blockSize >= size)
      requires RegionClear(bundles[i].value.alloc, p, DivRoundUp(size, bundles[i].value.blockSize))
      modifies this, drv
      ensures Valid() && Backed(drv)
      ensures forall pg: nat :: !InRegion(pg, region) ==> (pg in drv.mapped <==> pg in old(drv.mapped))
      ensures !ok ==> bundles == old(bundles)
      ensures ok ==> var b := old(bundles)[i].value;
                     bundles == old(bundles)[i := Some(AllocInBundle(b, p, DivRoundUp(size, b.blockSize)))] &&
                     BytesMapped(Addr(b, p), Addr(b, p + DivRoundUp(size, b.blockSize)), drv.mapped) &&
                     BytesMapped(Addr(b, p), Addr(b, p) + size, drv.mapped)
    {
      var b := bundles[i].value;
      var k := DivRoundUp(size, b.blockSize);
      var b' := AllocInBundle(b, p, k);
      AllocKeepsLayout(bundles, region, contiguous, i, p, size);
      ghost var m := drv.mapped;
      ghost var before := bundles;
      bundles := bundles[i := Some(b')];
      var ret := MapRegion(b', p, k * b.blockSize, drv);
      if ret != 0 {
        UndoAlloc(i, p, size, before, m, drv);
        return false;
      }
      AllocCommitted(before, region, contiguous, i, p, size, m, drv.mapped);
      return true;
    }

    /**
     * The failure path of `vmh_alloc` once mapping failed and the range was
     * unmapped again: the blocks go back to the block allocator and their
     * size bits are cleared, which gives back the bundles as they were.
     */
    method UndoAlloc(i: nat, p: nat, size: nat, ghost before: seq<Option<Bundle>>, ghost m: set<nat>, drv: MmDriver)
      requires LayoutValid(before, region, contiguous) && AllBacked(before, m) && 0 < size
      requires i < |before| && before[i].Some? && (contiguous || before[i].value.blockSize >= size)
      requires RegionClear(before[i].value.alloc, p, DivRoundUp(size, before[i].value.blockSize))
      requires var b := before[i].value;
               var b' := AllocInBundle(b, p, DivRoundUp(size, b.blockSize));
               bundles == before[i := Some(b')] &&
               forall pg :: pg in drv.mapped <==> pg in m && !InSpan(pg, RunPages(b', p, DivRoundUp(size, b.blockSize)))
      modifies this
      ensures bundles == before && Valid() && Backed(drv)
      ensures forall pg: nat :: !InRegion(pg, region) ==> (pg in drv.mapped <==> pg in m)
    {
      ghost var b := before[i].value;
      var b' := bundles[i].value;
      var k := DivRoundUp(size, b'.blockSize);
      if !contiguous {
        OneBlock(size, b.blockSize);
      }
      assert b' == AllocInBundle(b, p, k);
      RollbackRestores(b, p, k, contiguous);
      bundles := bundles[i := Some(RollbackAlloc(b', p, k))];
      assert bundles == before;
      AllocRolledBack(before, region, contiguous, i, p, size, m, drv.mapped);
    }

    /**
     * `vmh_free`: refuse a foreign core and a pointer outside every bundle;
     * otherwise free the run that starts at the pointer as the bitmaps
     * encode it and unmap the pages no live block still uses.
     */
    method Free(ptr: nat, cpu: nat, drv: MmDriver) returns (ret: int)
      requires Valid() && Backed(drv)
      requires forall i :: 0 <= i < |bundles| && bundles[i].Some? && InBundleRange(ptr, bundles[i].value)
                 ==> (ptr - bundles[i].value.buffer) % bundles[i].value.blockSize == 0
      modifies this, drv
      ensures Valid() && Backed(drv)
      ensures forall pg: nat :: !InRegion(pg, region) ==> (pg in drv.mapped <==> pg in old(drv.mapped))
      ensures cpu != coreId || FindBundle(old(bundles), ptr, 0).None? ==>
                ret == -EINVAL && bundles == old(bundles) && drv.mapped == old(drv.mapped)
      ensures cpu == coreId && FindBundle(old(bundles), ptr, 0).Some? ==>
                var i := FindBundle(old(bundles), ptr, 0).value;
                var b := old(bundles)[i].value;
                var pos := (ptr - b.buffer) / b.blockSize;
                BundleValid(b) && pos < |b.alloc| && ptr == Addr(b, pos) &&
                match FreeInBundle(b, pos, contiguous)
                case Refused(e) => ret == e && bundles == old(bundles) && drv.mapped == old(drv.mapped)
                case Freed(k, b') =>
                  bundles == old(bundles)[i := Some(b')] &&
                  (forall pg :: pg in drv.mapped <==> pg in old(drv.mapped) && !InSpan(pg, RunPages(b', pos, k))) &&
                  (ret == 0 <==> forall pg: nat :: InSpan(pg, RunPages(b', pos, k)) ==> pg in old(drv.mapped))
    {
      if cpu != coreId {
        return -EINVAL;
      }
      var found, i := LocateBundle(bundles, ptr);
      if !found {
        return -EINVAL;
      }
      var b := bundles[i].value;
      PositionOfPointer(b, ptr);
      var pos := (ptr - b.buffer) / b.blockSize;
      ret := FreeBlocks(i, pos, drv);
    }

    /**
     * The rest of `vmh_free` once the pointer is known to be block `pos` of
     * bundle `i`: the outcome is `FreeInBundle`'s, and a freed run has its
     * page range unmapped.
     */
    method FreeBlocks(i: nat, pos: nat, drv: MmDriver) returns (ret: int)
      requires Valid() && Backed(drv)
      requires i < |bundles| && bundles[i].Some? && pos < bundles[i].value.numBlocks
      modifies this, drv
      ensures Valid() && Backed(drv)
      ensures forall pg: nat :: !InRegion(pg, region) ==> (pg in drv.mapped <==> pg in old(drv.mapped))
      ensures match FreeInBundle(old(bundles)[i].value, pos, contiguous)
              case Refused(e) => ret == e && bundles == old(bundles) && drv.mapped == old(drv.mapped)
              case Freed(k, b') =>
                bundles == old(bundles)[i := Some(b')] &&
                (forall pg :: pg in drv.mapped <==> pg in old(drv.mapped) && !InSpan(pg, RunPages(b', pos, k))) &&
                (ret == 0 <==> forall pg: nat :: InSpan(pg, RunPages(b', pos, k)) ==> pg in old(drv.mapped))
    {
      var b := bundles[i].value;
      var r := DecodeFree(b, pos, contiguous);
      if r.Refused? {
        return r.err;
      }
      var blocks, b' := r.blocks, r.bundle;
      FreeKeepsBundleWellFormed(b, pos, contiguous);
      ReplaceKeepsLayout(bundles, region, contiguous, i, b');
      ghost var m := drv.mapped;
      ghost var before := bundles;
      bundles := bundles[i := Some(b')];
      AlignmentFacts(b);
      WholeBlocks(blocks, b.blockSize);
      ret := UnmapRegion(b', pos, blocks * b.blockSize, drv);
      FreeStaysBacked(b, b', pos, blocks, m, drv.mapped);
      ReplaceKeepsBacked(before, region, contiguous, i, b', m, drv.mapped);
      ghost var span := RunPages(b', pos, blocks);
      assert span == RegionPages(b', pos, blocks * b.blockSize);
      assert ret == 0 <==> forall pg: nat :: InSpan(pg, span) ==> pg in m;
    }
  }
}

=== FILE: vmh_pages.dfy ===
/**
 * Bundles of the virtual memory heap and the page mapper on top of them.
 *
 * A bundle (a Zephyr `sys_mem_blocks` allocator plus the heap's size bitmap)
 * holds `numBlocks` blocks of `blockSize` bytes laid out from `buffer`. Memory
 * is backed page by page: the memory-management driver keeps a set of mapped
 * pages, which this model keeps as a ghost set of page indices. When a block
 * is smaller than a page, several blocks share a page, and a page may only be
 * unmapped when no live block is left on it; `MapRegionBoundaries` computes
 * the pages an allocation may map or unmap with that in mind.
 */
module VmhPages {
  import opened Common
  import opened Align
  import opened VmhBitmaps

  /** `CONFIG_MM_DRV_PAGE_SIZE`. */
  const PAGE_SIZE: nat := 4096

  datatype Bundle = Bundle(buffer: nat, blockSize: nat, numBlocks: nat, alloc: seq<bool>, sizes: seq<bool>)

  /** A range of whole pages, given as its first byte and its length in bytes. */
  datatype PageSpan = PageSpan(begin: nat, size: nat)

  /** Address of block `q` of the bundle. */
  function Addr(b: Bundle, q: nat): nat
  {
    b.buffer + q * b.blockSize
  }

  /** First address after the bundle. */
  function BundleEnd(b: Bundle): nat
  {
    Addr(b, b.numBlocks)
  }

  function PageOf(a: nat): nat
  {
    a / PAGE_SIZE
  }

  /** The page holding the first byte of block `q`. */
  function BlockPage(b: Bundle, q: nat): nat
  {
    PageOf(Addr(b, q))
  }

  /** Page `pg` lies in the span; no page lies in no span. */
  predicate InSpan(pg: nat, s: Option<PageSpan>)
  {
    s.Some? && s.value.begin <= pg * PAGE_SIZE < s.value.begin + s.value.size
  }

  /** Page `pg` lies inside the bundle's memory. */
  predicate InBundle(pg: nat, b: Bundle)
  {
    b.buffer <= pg * PAGE_SIZE < BundleEnd(b)
  }

  /**
   * A bundle as the heap builds it: power-of-two blocks, bitmaps of
   * `numBlocks` bits, and memory that starts and ends on page boundaries.
   */
  predicate BundleValid(b: Bundle)
  {
    IsPowerOfTwo(b.blockSize) && |b.alloc| == b.numBlocks && |b.sizes| == b.numBlocks &&
    b.buffer % PAGE_SIZE == 0 && BundleEnd(b) % PAGE_SIZE == 0
  }

  /** Some allocated block of the bundle starts in `[lo, hi)`. */
  predicate LiveBlockIn(b: Bundle, lo: nat, hi: nat)
  {
    exists q :: 0 <= q < |b.alloc| && b.alloc[q] && lo <= Addr(b, q) < hi
  }

  /** Every allocated block of the bundle has its first page mapped. */
  predicate BundleBacked(b: Bundle, mapped: set<nat>)
  {
    forall q :: 0 <= q < |b.alloc| && b.alloc[q] ==> BlockPage(b, q) in mapped
  }

  /** Page `pg` holds some byte of block `q`. */
  predicate PageOfBlock(b: Bundle, q: nat, pg: nat)
  {
    Addr(b, q) < pg * PAGE_SIZE + PAGE_SIZE && pg * PAGE_SIZE < Addr(b, q) + b.blockSize
  }

  // ---------------------------------------------------------------------
  // vmh_is_region_used and vmh_get_map_region_boundaries
  // ---------------------------------------------------------------------

  /**
   * `vmh_is_region_used`: the `size` bytes at `addr` are not a free region of
   * the block allocator. `sys_mem_blocks_is_region_free` is taken to hold
   * exactly when the blocks lie inside the bundle and are all free.
   */
  predicate RegionUsed(b: Bundle, addr: nat, size: nat)
    requires b.blockSize > 0
  {
    !(addr >= b.buffer && RegionClear(b.alloc, (addr - b.buffer) / b.blockSize, size / b.blockSize))
  }

  /**
   * `vmh_get_map_region_boundaries`: the whole pages under the allocation of
   * `size` bytes at `ptr`, without the first page when a live block before
   * `ptr` sits on it and without the last page when a live block after the
   * block-rounded allocation sits on it; `None` when no page is left.
   */
  function MapRegionBoundaries(b: Bundle, ptr: nat, size: nat): (r: Option<PageSpan>)
    requires BundleValid(b) && b.blockSize < PAGE_SIZE
    requires b.buffer <= ptr && (ptr - b.buffer) % b.blockSize == 0
    requires ptr + AlignUp(size, b.blockSize) <= BundleEnd(b)
    ensures r == (var lo := AlignDown(ptr, PAGE_SIZE)
                          + (if LiveBlockIn(b, AlignDown(ptr, PAGE_SIZE), ptr) then PAGE_SIZE else 0);
                  var hi := AlignUp(ptr + size, PAGE_SIZE)
                          - (if LiveBlockIn(b, ptr + AlignUp(size, b.blockSize), AlignUp(ptr + size, PAGE_SIZE))
                             then PAGE_SIZE else 0);
                  if lo < hi then Some(PageSpan(lo, hi - lo)) else None)
  {
    BoundaryFacts(b, ptr, size);
    var sizeAligned := AlignUp(size, b.blockSize);
    var addr: int := AlignDown(ptr, PAGE_SIZE);
    var addrEnd: int := AlignUp(ptr + size, PAGE_SIZE);
    var sizeBefore := ptr - addr;
    var sizeAfter := addrEnd - ptr - sizeAligned;
    var addr' := if sizeBefore != 0 && RegionUsed(b, addr, sizeBefore) then addr + PAGE_SIZE else addr;
    var addrEnd' := if sizeAfter != 0 && RegionUsed(b, ptr + sizeAligned, sizeAfter)
                    then addrEnd - PAGE_SIZE else addrEnd;
    if addr' < addrEnd' then Some(PageSpan(addr', addrEnd' - addr')) else None
  }

  /**
   * The pages `vmh_map_region` maps and `vmh_unmap_region` unmaps for the
   * allocation of `size` bytes at block `p` (whose address is the pointer
   * the heap passes): the page-rounded range itself for blocks of at least a
   * page, the boundaries above for smaller blocks.
   */
  function RegionPages(b: Bundle, p: nat, size: nat): (r: Option<PageSpan>)
    requires BundleValid(b) && p + DivRoundUp(size, b.blockSize) <= b.numBlocks
    ensures r.Some? ==> r.value.begin % PAGE_SIZE == 0 && r.value.size % PAGE_SIZE == 0
    ensures forall pg: nat :: InSpan(pg, r) ==> InBundle(pg, b)
  {
    RunAddresses(b, p, size);
    var ptr := Addr(b, p);
    if b.blockSize >= PAGE_SIZE then
      LargeBlockFacts(b, ptr, size);
      Some(PageSpan(ptr, AlignUp(size, PAGE_SIZE)))
    else
      BoundaryArith(b, ptr, size);
      var r := MapRegionBoundaries(b, ptr, size);
      BoundariesAligned(b, ptr, size);
      SpanInside(r, AlignDown(ptr, PAGE_SIZE), AlignUp(ptr + size, PAGE_SIZE), b);
      r
  }

  // ---------------------------------------------------------------------
  // The memory-management driver and vmh_map_region / vmh_unmap_region
  // ---------------------------------------------------------------------

  /** Error a page-table update reports when no physical page is left to back a virtual page. */
  const ENOMEM: int := 12
  /** Error the driver reports when asked to unmap a page that is not mapped. */
  const EFAULT: int := 14

  /**
   * The memory-management driver (`sys_mm_drv_map_region` and
   * `sys_mm_drv_unmap_region`), reduced to its page table: the set of mapped virtual pages.
   * Both calls work page by page; mapping a page may fail, and the call then
   * goes on with the next page and reports the failure at the end.
   */
  class MmDriver {
    var mapped: set<nat>

    constructor ()
      ensures mapped == {}
    {
      mapped := {};
    }

    method MapPages(s: PageSpan) returns (ret: int)
      requires s.begin % PAGE_SIZE == 0 && s.size % PAGE_SIZE == 0
      modifies this
      ensures ret == 0 || ret == -ENOMEM
      ensures forall pg :: pg in old(mapped) ==> pg in mapped
      ensures forall pg :: pg in mapped ==> pg in old(mapped) || InSpan(pg, Some(s))
      ensures ret == 0 ==> forall pg: nat :: InSpan(pg, Some(s)) ==> pg in mapped
    {
      ret := 0;
      var off := 0;
      while off < s.size
        invariant off <= s.size && off % PAGE_SIZE == 0
        invariant ret == 0 || ret == -ENOMEM
        invariant forall pg :: pg in old(mapped) ==> pg in mapped
        invariant forall pg :: pg in mapped ==> pg in old(mapped) || InSpan(pg, Some(PageSpan(s.begin, off)))
        invariant ret == 0 ==> forall pg: nat :: InSpan(pg, Some(PageSpan(s.begin, off))) ==> pg in mapped
        decreases s.size - off
      {
        var backed: bool :| true;
        if backed {
          mapped := mapped + {(s.begin + off) / PAGE_SIZE};
        } else {
          ret := -ENOMEM;
        }
        off := off + PAGE_SIZE;
      }
    }

    method UnmapPages(s: PageSpan) returns (ret: int)
      requires s.begin % PAGE_SIZE == 0 && s.size % PAGE_SIZE == 0
      modifies this
      ensures forall pg :: pg in mapped <==> pg in old(mapped) && !InSpan(pg, Some(s))
      ensures ret == 0 <==> forall pg: nat :: InSpan(pg, Some(s)) ==> pg in old(mapped)
      ensures ret == 0 || ret == -EFAULT
    {
      ret := 0;
      var off := 0;
      while off < s.size
        invariant off <= s.size && off % PAGE_SIZE == 0
        invariant forall pg :: pg in mapped <==> pg in old(mapped) && !InSpan(pg, Some(PageSpan(s.begin, off)))
        invariant ret == 0 <==> forall pg: nat :: InSpan(pg, Some(PageSpan(s.begin, off))) ==> pg in old(mapped)
        invariant ret == 0 || ret == -EFAULT
        decreases s.size - off
      {
        var pg := (s.begin + off) / PAGE_SIZE;
        if pg !in mapped {
          ret := -EFAULT;
        }
        mapped := mapped - {pg};
        off := off + PAGE_SIZE;
      }
    }
  }

  /**
   * `vmh_map_region`: map the pages of the allocation of `size` bytes at
   * block `p`; when the driver fails, unmap the whole range again, so a
   * failed call leaves none of the range mapped.
   */
  method MapRegion(b: Bundle, p: nat, size: nat, drv: MmDriver) returns (ret: int)
    requires BundleValid(b) && p + DivRoundUp(size, b.blockSize) <= b.numBlocks
    modifies drv
    ensures ret == 0 ==> forall pg :: pg in drv.mapped <==> pg in old(drv.mapped) || InSpan(pg, RegionPages(b, p, size))
    ensures ret != 0 ==> forall pg :: pg in drv.mapped <==> pg in old(drv.mapped) && !InSpan(pg, RegionPages(b, p, size))
    ensures RegionPages(b, p, size).None? ==> ret == 0 && drv.mapped == old(drv.mapped)
  {
    var span := RegionPages(b, p, size);
    if span.None? {
      return 0;
    }
    ret := drv.MapPages(span.value);
    if ret != 0 {
      var _ := drv.UnmapPages(span.value);
    }
  }

  /**
   * `vmh_unmap_region`: unmap the pages of the allocation of `size` bytes at
   * block `p`, skipping boundary pages that still hold live blocks; returns
   * the driver's result, or 0 when there is nothing to unmap.
   */
  method UnmapRegion(b: Bundle, p: nat, size: nat, drv: MmDriver) returns (ret: int)
    requires BundleValid(b) && p + DivRoundUp(size, b.blockSize) <= b.numBlocks
    modifies drv
    ensures forall pg :: pg in drv.mapped <==> pg in old(drv.mapped) && !InSpan(pg, RegionPages(b, p, size))
    ensures ret == 0 <==> forall pg: nat :: InSpan(pg, RegionPages(b, p, size)) ==> pg in old(drv.mapped)
  {
    var span := RegionPages(b, p, size);
    if span.None? {
      return 0;
    }
    ret := drv.UnmapPages(span.value);
  }

  // ---------------------------------------------------------------------
  // What the page ranges guarantee
  // ---------------------------------------------------------------------

  /**
   * The page range of an allocation never holds the first page of a live
   * block outside the allocation: those pages stay mapped.
   */
  lemma RegionPagesSpareLiveBlocks(b: Bundle, p: nat, size: nat)
    requires BundleValid(b) && 0 < size && p + DivRoundUp(size, b.blockSize) <= b.numBlocks
    ensures forall q :: 0 <= q < |b.alloc| && b.alloc[q] && !(p <= q < p + DivRoundUp(size, b.blockSize))
              ==> !InSpan(BlockPage(b, q), RegionPages(b, p, size))
  {
    forall q | 0 <= q < |b.alloc| && b.alloc[q] && !(p <= q < p + DivRoundUp(size, b.blockSize))
    {
      LiveBlockSpared(b, p, size, q);
    }
  }

  /**
   * Every block of an allocation has its first page in the allocation's page
   * range, or shares that page with a live block outside the allocation.
   */
  lemma RegionPagesCoverRun(b: Bundle, p: nat, size: nat)
    requires BundleValid(b) && 0 < size && p + DivRoundUp(size, b.blockSize) <= b.numBlocks
    ensures forall q :: p <= q < p + DivRoundUp(size, b.blockSize) ==>
              InSpan(BlockPage(b, q), RegionPages(b, p, size)) ||
              exists r :: 0 <= r < |b.alloc| && b.alloc[r] && !(p <= r < p + DivRoundUp(size, b.blockSize))
                          && BlockPage(b, r) == BlockPage(b, q)
  {
    forall q | p <= q < p + DivRoundUp(size, b.blockSize)
    {
      RunBlockCovered(b, p, size, q);
    }
  }

  /**
   * The page range of an allocation holds no page of a live block outside
   * the allocation: for blocks of a page or more that is every page the
   * block spans, not only its first.
   */
  lemma RegionPagesSpareLiveBlockPages(b: Bundle, p: nat, size: nat)
    requires BundleValid(b) && 0 < size && p + DivRoundUp(size, b.blockSize) <= b.numBlocks
    ensures forall q, pg ::
              0 <= q < |b.alloc| && b.alloc[q] && !(p <= q < p + DivRoundUp(size, b.blockSize)) && PageOfBlock(b, q, pg)
              ==> !InSpan(pg, RegionPages(b, p, size))
  {
    forall q, pg | 0 <= q < |b.alloc| && b.alloc[q] && !(p <= q < p + DivRoundUp(size, b.blockSize)) &&
                   PageOfBlock(b, q, pg)
    {
      LiveBlockPageSpared(b, p, size, q, pg);
    }
  }

  lemma LiveBlockPageSpared(b: Bundle, p: nat, size: nat, q: nat, pg: nat)
    requires BundleValid(b) && 0 < size && p + DivRoundUp(size, b.blockSize) <= b.numBlocks
    requires q < |b.alloc| && b.alloc[q] && !(p <= q < p + DivRoundUp(size, b.blockSize))
    requires PageOfBlock(b, q, pg)
    ensures !InSpan(pg, RegionPages(b, p, size))
  {
    if b.blockSize >= PAGE_SIZE {
      LargeSpanSparesBlock(b, p, size, q, pg);
    } else {
      var a := if Addr(b, q) >= pg * PAGE_SIZE then Addr(b, q) else pg * PAGE_SIZE;
      DivModUnique(a, PAGE_SIZE, pg, a - pg * PAGE_SIZE);
      ByteOnBlockPage(b, q, a);
      LiveBlockSpared(b, p, size, q);
    }
  }

  /** Blocks of a page or more: the page-rounded range of an allocation holds no page of a block outside it. */
  lemma LargeSpanSparesBlock(b: Bundle, p: nat, size: nat, q: nat, pg: nat)
    requires BundleValid(b) && b.blockSize >= PAGE_SIZE && p + DivRoundUp(size, b.blockSize) <= b.numBlocks
    requires !(p <= q < p + DivRoundUp(size, b.blockSize)) && PageOfBlock(b, q, pg)
    ensures !InSpan(pg, RegionPages(b, p, size))
  {
    var k := DivRoundUp(size, b.blockSize);
    RunAddresses(b, p, size);
    LargeBlockFacts(b, Addr(b, p), size);
    AddrLess(b, q, p);
    AddrLess(b, p + k, q);
    if q >= p + k {
      LargeBlockAligned(b, q);
      PageStartAtLeast(pg, Addr(b, q));
    }
  }

  /** Blocks of a page or more start on a page boundary. */
  lemma LargeBlockAligned(b: Bundle, q: nat)
    requires BundleValid(b) && b.blockSize >= PAGE_SIZE
    ensures Addr(b, q) % PAGE_SIZE == 0
  {
    AlignmentFacts(b);
    MulModZero(q, b.blockSize);
    if q > 0 {
      MultipleTrans(q * b.blockSize, b.blockSize, PAGE_SIZE);
    }
    MultipleAdd(b.buffer, q * b.blockSize, PAGE_SIZE);
  }

  /** A page boundary below the end of page `pg` is at or below the page's start. */
  lemma PageStartAtLeast(pg: nat, a: nat)
    requires a % PAGE_SIZE == 0 && a < pg * PAGE_SIZE + PAGE_SIZE
    ensures a <= pg * PAGE_SIZE
  {
    if a > pg * PAGE_SIZE {
      MulModZero(pg, PAGE_SIZE);
      MultipleUnique(pg * PAGE_SIZE, a, PAGE_SIZE);
    }
  }

  /** Every page holding a byte of one of the bundle's blocks lies in the bundle. */
  lemma BlockPageInBundle(b: Bundle, q: nat, pg: nat)
    requires BundleValid(b) && q < b.numBlocks && PageOfBlock(b, q, pg)
    ensures InBundle(pg, b)
  {
    AlignmentFacts(b);
    AddrLess(b, q, b.numBlocks);
    AddrLess(b, 0, q);
    PageStartAtLeast(pg, b.buffer);
  }

  /** With blocks smaller than a page, every byte of a block lies on the block's first page. */
  lemma ByteOnBlockPage(b: Bundle, q: nat, a: nat)
    requires BundleValid(b) && b.blockSize < PAGE_SIZE
    requires Addr(b, q) <= a < Addr(b, q) + b.blockSize
    ensures PageOf(a) == BlockPage(b, q)
  {
    AlignmentFacts(b);
    var bs := b.blockSize;
    var start := Addr(b, q);
    MulModZero(q, bs);
    MultipleAdd(b.buffer, q * bs, bs);
    var d := AlignDown(start, PAGE_SIZE);
    MultipleTrans(d, PAGE_SIZE, bs);
    MultipleAdd(d, PAGE_SIZE, bs);
    if d + PAGE_SIZE < start + bs {
      MultipleUnique(start, d + PAGE_SIZE, bs);
    }
    AlignDownIs(a, PAGE_SIZE, d);
  }

  lemma LiveBlockSpared(b: Bundle, p: nat, size: nat, q: nat)
    requires BundleValid(b) && 0 < size && p + DivRoundUp(size, b.blockSize) <= b.numBlocks
    requires q < |b.alloc| && b.alloc[q] && !(p <= q < p + DivRoundUp(size, b.blockSize))
    ensures !InSpan(BlockPage(b, q), RegionPages(b, p, size))
  {
    var k := DivRoundUp(size, b.blockSize);
    RunAddresses(b, p, size);
    AddrBetween(b, p, p + k, q);
    if b.blockSize >= PAGE_SIZE {
      LargeBlockFacts(b, Addr(b, p), size);
      AddrLess(b, q, p);
      AddrLess(b, p + k, q);
      if q < p {
        PageOfBelow(Addr(b, q), Addr(b, p));
      } else {
        MultipleAdd(Addr(b, p), AlignUp(size, PAGE_SIZE), PAGE_SIZE);
        PageOfAtLeast(Addr(b, q), Addr(b, p) + AlignUp(size, PAGE_SIZE));
      }
    } else {
      SmallSpanSpares(b, Addr(b, p), size, q);
    }
  }

  lemma RunBlockCovered(b: Bundle, p: nat, size: nat, q: nat)
    requires BundleValid(b) && 0 < size && p + DivRoundUp(size, b.blockSize) <= b.numBlocks
    requires p <= q < p + DivRoundUp(size, b.blockSize)
    ensures InSpan(BlockPage(b, q), RegionPages(b, p, size)) ||
            exists r :: 0 <= r < |b.alloc| && b.alloc[r] && !(p <= r < p + DivRoundUp(size, b.blockSize))
                        && BlockPage(b, r) == BlockPage(b, q)
  {
    if b.blockSize >= PAGE_SIZE {
      LargeBlockCovered(b, p, size, q);
    } else {
      SmallBlockCovered(b, p, size, q);
    }
  }

  /** Blocks under a page: a block of the allocation is on a mapped page or shares its page with a live block. */
  lemma SmallBlockCovered(b: Bundle, p: nat, size: nat, q: nat)
    requires BundleValid(b) && b.blockSize < PAGE_SIZE && 0 < size
    requires p + DivRoundUp(size, b.blockSize) <= b.numBlocks
    requires p <= q < p + DivRoundUp(size, b.blockSize)
    ensures InSpan(BlockPage(b, q), RegionPages(b, p, size)) ||
            exists r :: 0 <= r < |b.alloc| && b.alloc[r] && !(p <= r < p + DivRoundUp(size, b.blockSize))
                        && BlockPage(b, r) == BlockPage(b, q)
  {
    var k := DivRoundUp(size, b.blockSize);
    RunAddresses(b, p, size);
    assert RegionPages(b, p, size) == MapRegionBoundaries(b, Addr(b, p), size);
    AddrBetween(b, p, p + k, q);
    SmallSpanCovers(b, Addr(b, p), size, q);
    if !InSpan(BlockPage(b, q), MapRegionBoundaries(b, Addr(b, p), size)) {
      LiveNeighbourIndex(b, p, p + k, q);
    }
  }

  /** A live block sharing block `q`'s page outside the addresses of blocks `i .. j - 1` lies outside those blocks. */
  lemma LiveNeighbourIndex(b: Bundle, i: nat, j: nat, q: nat)
    requires b.blockSize > 0
    requires exists r :: 0 <= r < |b.alloc| && b.alloc[r] && !(Addr(b, i) <= Addr(b, r) < Addr(b, j))
                         && BlockPage(b, r) == BlockPage(b, q)
    ensures exists r :: 0 <= r < |b.alloc| && b.alloc[r] && !(i <= r < j) && BlockPage(b, r) == BlockPage(b, q)
  {
    var r: nat :| r < |b.alloc| && b.alloc[r] && !(Addr(b, i) <= Addr(b, r) < Addr(b, j))
                   && BlockPage(b, r) == BlockPage(b, q);
    AddrBetween(b, i, j, r);
  }

  /** Blocks of a page or more: every block of the allocation starts on a page of its page-rounded range. */
  lemma LargeBlockCovered(b: Bundle, p: nat, size: nat, q: nat)
    requires BundleValid(b) && b.blockSize >= PAGE_SIZE && p + DivRoundUp(size, b.blockSize) <= b.numBlocks
    requires p <= q < p + DivRoundUp(size, b.blockSize)
    ensures InSpan(BlockPage(b, q), Some(PageSpan(Addr(b, p), AlignUp(size, PAGE_SIZE))))
  {
    var k := DivRoundUp(size, b.blockSize);
    RunAddresses(b, p, size);
    LargeBlockFacts(b, Addr(b, p), size);
    var lo, hi := Addr(b, p), Addr(b, p) + AlignUp(size, PAGE_SIZE);
    assert Addr(b, q) < hi by {
      var off := (q - p) * b.blockSize;
      assert Addr(b, q) == lo + off;
      MulMono(q - p, k - 1, b.blockSize);
    }
    AddrLess(b, q, p);
    MultipleAdd(lo, AlignUp(size, PAGE_SIZE), PAGE_SIZE);
    PageCompare(Addr(b, q), lo);
    PageCompare(Addr(b, q), hi);
  }

  // ---------------------------------------------------------------------
  // Arithmetic behind the page ranges
  // ---------------------------------------------------------------------

  lemma PageSizeIsPowerOfTwo()
    ensures IsPowerOfTwo(PAGE_SIZE)
  {
    assert IsPowerOfTwo(1);
    assert IsPowerOfTwo(2);
    assert IsPowerOfTwo(4);
    assert IsPowerOfTwo(8);
    assert IsPowerOfTwo(16);
    assert IsPowerOfTwo(32);
    assert IsPowerOfTwo(64);
    assert IsPowerOfTwo(128);
    assert IsPowerOfTwo(256);
    assert IsPowerOfTwo(512);
    assert IsPowerOfTwo(1024);
    assert IsPowerOfTwo(2048);
  }

  lemma AddrLess(b: Bundle, q1: nat, q2: nat)
    requires b.blockSize > 0
    ensures q1 < q2 <==> Addr(b, q1) < Addr(b, q2)
    ensures q1 < q2 ==> Addr(b, q1) + b.blockSize <= Addr(b, q2)
  {
    if q1 < q2 {
      assert q2 * b.blockSize - q1 * b.blockSize == (q2 - q1) * b.blockSize;
      MulAtLeast(q2 - q1, b.blockSize);
    } else if q2 < q1 {
      assert q1 * b.blockSize - q2 * b.blockSize == (q1 - q2) * b.blockSize;
      MulAtLeast(q1 - q2, b.blockSize);
    }
  }

  lemma MulMono(x: nat, y: nat, d: nat)
    requires x <= y
    ensures x * d <= y * d
  {
    assert y * d - x * d == (y - x) * d;
  }

  /** Block-aligned facts about a bundle: where its blocks and its end lie. */
  lemma AlignmentFacts(b: Bundle)
    requires BundleValid(b)
    ensures b.blockSize > 0
    ensures b.blockSize < PAGE_SIZE ==> PAGE_SIZE % b.blockSize == 0
    ensures b.blockSize >= PAGE_SIZE ==> b.blockSize % PAGE_SIZE == 0
    ensures b.blockSize < PAGE_SIZE ==> b.buffer % b.blockSize == 0 && BundleEnd(b) % b.blockSize == 0
  {
    PageSizeIsPowerOfTwo();
    if b.blockSize < PAGE_SIZE {
      PowerOfTwoDivides(b.blockSize, PAGE_SIZE);
      MultipleTrans(b.buffer, PAGE_SIZE, b.blockSize);
      MultipleTrans(BundleEnd(b), PAGE_SIZE, b.blockSize);
    } else {
      PowerOfTwoDivides(PAGE_SIZE, b.blockSize);
    }
  }

  /** The blocks of a `size`-byte allocation at block `p` end at block `p + k`. */
  lemma RunAddresses(b: Bundle, p: nat, size: nat)
    requires BundleValid(b) && p + DivRoundUp(size, b.blockSize) <= b.numBlocks
    ensures b.buffer <= Addr(b, p) && (Addr(b, p) - b.buffer) % b.blockSize == 0
    ensures Addr(b, p) + AlignUp(size, b.blockSize) == Addr(b, p + DivRoundUp(size, b.blockSize))
    ensures Addr(b, p) + AlignUp(size, b.blockSize) <= BundleEnd(b)
  {
    var bs := b.blockSize;
    var k := DivRoundUp(size, bs);
    assert AlignUp(size, bs) == k * bs;
    MulModZero(p, bs);
    assert (p + k) * bs == p * bs + k * bs;
    MulMono(p + k, b.numBlocks, bs);
  }

  /** A block-aligned offset inside a bundle is the address of the block it counts. */
  lemma AddrOfOffset(b: Bundle, x: nat)
    requires b.blockSize > 0 && b.buffer <= x && (x - b.buffer) % b.blockSize == 0
    ensures Addr(b, (x - b.buffer) / b.blockSize) == x
  {
  }

  /** Blocks between block `i` and block `j` are exactly those whose address lies between theirs. */
  lemma AddrBetween(b: Bundle, i: nat, j: nat, q: nat)
    requires b.blockSize > 0
    ensures (Addr(b, i) <= Addr(b, q) < Addr(b, j)) <==> (i <= q < j)
  {
    AddrLess(b, q, i);
    AddrLess(b, q, j);
    AddrLess(b, i, q);
  }

  lemma MultipleIs(x: nat, d: nat)
    requires d > 0 && x % d == 0
    ensures x == (x / d) * d
  {
  }

  /** Exact division: `k * d` divided by `d` is `k`. */
  lemma DivExact(k: nat, d: nat)
    requires d > 0
    ensures (k * d) / d == k
  {
    DivModUnique(k * d, d, k, 0);
  }

  /**
   * `vmh_is_region_used` on the `c` blocks from block `i` is the same as
   * "some allocated block starts among them".
   */
  lemma BlocksUsedIff(b: Bundle, i: nat, c: nat)
    requires BundleValid(b) && i + c <= b.numBlocks
    ensures (c != 0 && RegionUsed(b, Addr(b, i), c * b.blockSize)) <==> LiveBlockIn(b, Addr(b, i), Addr(b, i + c))
  {
    AlignmentFacts(b);
    DivExact(i, b.blockSize);
    DivExact(c, b.blockSize);
    assert RegionUsed(b, Addr(b, i), c * b.blockSize) <==> !RegionClear(b.alloc, i, c);
    forall q: nat
      ensures (Addr(b, i) <= Addr(b, q) < Addr(b, i + c)) <==> (i <= q < i + c)
    {
      AddrBetween(b, i, i + c, q);
    }
  }

  /**
   * `vmh_is_region_used` on a block-aligned range inside the bundle is the
   * same as "some allocated block starts in the range".
   */
  lemma RangeUsedIff(b: Bundle, lo: nat, hi: nat)
    requires BundleValid(b)
    requires b.buffer <= lo <= hi <= BundleEnd(b)
    requires (lo - b.buffer) % b.blockSize == 0 && (hi - lo) % b.blockSize == 0
    ensures (hi - lo != 0 && RegionUsed(b, lo, hi - lo)) <==> LiveBlockIn(b, lo, hi)
  {
    var i := (lo - b.buffer) / b.blockSize;
    var c := (hi - lo) / b.blockSize;
    RangeIndices(b, lo, hi);
    BlocksUsedIff(b, i, c);
  }

  /** A block-aligned range inside the bundle runs from block `i` for `c` blocks. */
  lemma RangeIndices(b: Bundle, lo: nat, hi: nat)
    requires BundleValid(b)
    requires b.buffer <= lo <= hi <= BundleEnd(b)
    requires (lo - b.buffer) % b.blockSize == 0 && (hi - lo) % b.blockSize == 0
    ensures var i := (lo - b.buffer) / b.blockSize; var c := (hi - lo) / b.blockSize;
            Addr(b, i) == lo && c * b.blockSize == hi - lo && Addr(b, i + c) == hi && i + c <= b.numBlocks
  {
    var bs := b.blockSize;
    var i := (lo - b.buffer) / bs;
    var c := (hi - lo) / bs;
    MultipleIs(lo - b.buffer, bs);
    MultipleIs(hi - lo, bs);
    assert Addr(b, i + c) == hi by {
      assert (i + c) * bs == i * bs + c * bs;
    }
    if i + c > b.numBlocks {
      AddrLess(b, b.numBlocks, i + c);
    }
  }

  /**
   * The arithmetic of `vmh_get_map_region_boundaries` on a block-aligned
   * pointer: the rounded allocation ends before the page-rounded end, and
   * both neighbour checks ask whether a live block starts in the stretch
   * between the allocation and the page boundary.
   */
  lemma BoundaryFacts(b: Bundle, ptr: nat, size: nat)
    requires BundleValid(b) && b.blockSize < PAGE_SIZE
    requires b.buffer <= ptr && (ptr - b.buffer) % b.blockSize == 0
    requires ptr + AlignUp(size, b.blockSize) <= BundleEnd(b)
    ensures b.buffer <= AlignDown(ptr, PAGE_SIZE)
    ensures ptr + AlignUp(size, b.blockSize) <= AlignUp(ptr + size, PAGE_SIZE) <= BundleEnd(b)
    ensures AlignUp(ptr + size, PAGE_SIZE) < ptr + AlignUp(size, b.blockSize) + PAGE_SIZE
    ensures (ptr - AlignDown(ptr, PAGE_SIZE) != 0 &&
             RegionUsed(b, AlignDown(ptr, PAGE_SIZE), ptr - AlignDown(ptr, PAGE_SIZE)))
            <==> LiveBlockIn(b, AlignDown(ptr, PAGE_SIZE), ptr)
    ensures (AlignUp(ptr + size, PAGE_SIZE) - (ptr + AlignUp(size, b.blockSize)) != 0 &&
             RegionUsed(b, ptr + AlignUp(size, b.blockSize),
                        AlignUp(ptr + size, PAGE_SIZE) - (ptr + AlignUp(size, b.blockSize))))
            <==> LiveBlockIn(b, ptr + AlignUp(size, b.blockSize), AlignUp(ptr + size, PAGE_SIZE))
  {
    BoundaryArith(b, ptr, size);
    RangeUsedIff(b, AlignDown(ptr, PAGE_SIZE), ptr);
    RangeUsedIff(b, ptr + AlignUp(size, b.blockSize), AlignUp(ptr + size, PAGE_SIZE));
  }

  /** Where the pieces of `vmh_get_map_region_boundaries` lie for a block-aligned pointer. */
  lemma BoundaryArith(b: Bundle, ptr: nat, size: nat)
    requires BundleValid(b) && b.blockSize < PAGE_SIZE
    requires b.buffer <= ptr && (ptr - b.buffer) % b.blockSize == 0
    requires ptr + AlignUp(size, b.blockSize) <= BundleEnd(b)
    ensures b.buffer <= AlignDown(ptr, PAGE_SIZE)
    ensures ptr + AlignUp(size, b.blockSize) <= AlignUp(ptr + size, PAGE_SIZE) <= BundleEnd(b)
    ensures AlignUp(ptr + size, PAGE_SIZE) < ptr + AlignUp(size, b.blockSize) + PAGE_SIZE
    ensures (ptr - b.buffer) % b.blockSize == 0 && (AlignDown(ptr, PAGE_SIZE) - b.buffer) % b.blockSize == 0
    ensures (ptr - AlignDown(ptr, PAGE_SIZE)) % b.blockSize == 0
    ensures (ptr + AlignUp(size, b.blockSize) - b.buffer) % b.blockSize == 0
    ensures (AlignUp(ptr + size, PAGE_SIZE) - (ptr + AlignUp(size, b.blockSize))) % b.blockSize == 0
  {
    AlignmentFacts(b);
    var bs := b.blockSize;
    var addr := AlignDown(ptr, PAGE_SIZE);
    var tailStart := ptr + AlignUp(size, bs);
    var tailEnd := AlignUp(ptr + size, PAGE_SIZE);
    MultipleAdd(b.buffer, ptr - b.buffer, bs);
    AlignDownMaximal(ptr, PAGE_SIZE, b.buffer);
    MultipleTrans(addr, PAGE_SIZE, bs);
    MultipleSub(addr, b.buffer, bs);
    MultipleSub(ptr, addr, bs);
    // The allocation rounded to blocks is the block-rounding of its end.
    MultipleAdd(ptr, AlignUp(size, bs), bs);
    AlignUpIs(ptr + size, bs, tailStart);
    MultipleTrans(tailEnd, PAGE_SIZE, bs);
    AlignUpMinimal(ptr + size, bs, tailEnd);
    AlignUpMinimal(ptr + size, PAGE_SIZE, BundleEnd(b));
    MultipleSub(tailStart, b.buffer, bs);
    MultipleSub(tailEnd, tailStart, bs);
  }

  /** For blocks of a page or more, the page-rounded allocation stays inside the bundle. */
  lemma LargeBlockFacts(b: Bundle, ptr: nat, size: nat)
    requires BundleValid(b) && b.blockSize >= PAGE_SIZE
    requires b.buffer <= ptr && (ptr - b.buffer) % b.blockSize == 0
    requires ptr + AlignUp(size, b.blockSize) <= BundleEnd(b)
    ensures ptr % PAGE_SIZE == 0
    ensures AlignUp(size, PAGE_SIZE) <= AlignUp(size, b.blockSize)
    ensures ptr + AlignUp(size, PAGE_SIZE) <= BundleEnd(b)
  {
    AlignmentFacts(b);
    MultipleTrans(ptr - b.buffer, b.blockSize, PAGE_SIZE);
    MultipleAdd(b.buffer, ptr - b.buffer, PAGE_SIZE);
    MultipleTrans(AlignUp(size, b.blockSize), b.blockSize, PAGE_SIZE);
    AlignUpMinimal(size, PAGE_SIZE, AlignUp(size, b.blockSize));
  }

  /** The boundaries are whole pages between the page-rounded ends of the allocation. */
  lemma BoundariesAligned(b: Bundle, ptr: nat, size: nat)
    requires BundleValid(b) && b.blockSize < PAGE_SIZE
    requires b.buffer <= ptr && (ptr - b.buffer) % b.blockSize == 0
    requires ptr + AlignUp(size, b.blockSize) <= BundleEnd(b)
    ensures var r := MapRegionBoundaries(b, ptr, size);
            r.Some? ==> r.value.begin % PAGE_SIZE == 0 && r.value.size % PAGE_SIZE == 0 && r.value.size > 0
                        && AlignDown(ptr, PAGE_SIZE) <= r.value.begin
                        && r.value.begin + r.value.size <= AlignUp(ptr + size, PAGE_SIZE)
  {
    var r := MapRegionBoundaries(b, ptr, size);
    var ad, au := AlignDown(ptr, PAGE_SIZE), AlignUp(ptr + size, PAGE_SIZE);
    var first := LiveBlockIn(b, ad, ptr);
    var last := LiveBlockIn(b, ptr + AlignUp(size, b.blockSize), au);
    var lo: int := ad + (if first then PAGE_SIZE else 0);
    var hi: int := au - (if last then PAGE_SIZE else 0);
    assert r == if lo < hi then Some(PageSpan(lo, hi - lo)) else None;
    if lo < hi {
      if first {
        MultipleAdd(ad, PAGE_SIZE, PAGE_SIZE);
      }
      if last {
        MultipleSub(au, PAGE_SIZE, PAGE_SIZE);
      }
      MultipleSub(hi, lo, PAGE_SIZE);
    }
  }

  /**
   * The start of the page holding `a` lies below a page boundary `x`
   * exactly when `a` does, and then a whole page below it.
   */
  lemma PageCompare(a: nat, x: nat)
    requires x % PAGE_SIZE == 0
    ensures PageOf(a) * PAGE_SIZE <= a
    ensures PageOf(a) * PAGE_SIZE < x <==> a < x
    ensures PageOf(a) * PAGE_SIZE < x ==> PageOf(a) * PAGE_SIZE + PAGE_SIZE <= x
  {
    var pg := PageOf(a);
    var k := x / PAGE_SIZE;
    assert x == k * PAGE_SIZE;
    assert pg * PAGE_SIZE <= a < pg * PAGE_SIZE + PAGE_SIZE;
    if pg * PAGE_SIZE < x {
      assert pg < k;
      MulMono(pg + 1, k, PAGE_SIZE);
    } else {
      MulMono(k, pg, PAGE_SIZE);
    }
  }

  /** A span between two page-aligned addresses of the bundle holds only pages of the bundle. */
  lemma SpanInside(r: Option<PageSpan>, lo: nat, hi: nat, b: Bundle)
    requires BundleValid(b) && b.buffer <= lo && hi <= BundleEnd(b)
    requires r.Some? ==> lo <= r.value.begin && r.value.begin + r.value.size <= hi
    ensures forall pg: nat :: InSpan(pg, r) ==> InBundle(pg, b)
  {
  }

  lemma PageOfBelow(a: nat, lo: nat)
    requires lo % PAGE_SIZE == 0 && a < lo
    ensures PageOf(a) < lo / PAGE_SIZE
  {
  }

  lemma PageOfAtLeast(a: nat, hi: nat)
    requires hi % PAGE_SIZE == 0 && hi <= a
    ensures PageOf(a) >= hi / PAGE_SIZE
  {
  }

  lemma PageOfInside(a: nat, lo: nat, hi: nat)
    requires lo % PAGE_SIZE == 0 && hi % PAGE_SIZE == 0 && lo <= a < hi
    ensures lo / PAGE_SIZE <= PageOf(a) < hi / PAGE_SIZE
  {
  }

  /**
   * The page arithmetic of the boundaries, apart from any bundle: with the
   * allocation in `[ptr, tailStart)`, its page-rounded ends `ad` and `au`,
   * and each end page dropped when its flag is set, an address outside the
   * allocation whose end page is dropped when it lies on one is never on a
   * page from `lo` to `hi`.
   */
  lemma PagesOutside(a: nat, ptr: nat, tailStart: nat, ad: nat, au: nat, first: bool, last: bool)
    requires ad % PAGE_SIZE == 0 && au % PAGE_SIZE == 0
    requires ad <= ptr < ad + PAGE_SIZE && tailStart <= au < tailStart + PAGE_SIZE
    requires !(ptr <= a < tailStart)
    requires ad <= a < ptr ==> first
    requires tailStart <= a < au ==> last
    ensures var lo := ad + (if first then PAGE_SIZE else 0);
            var hi := au - (if last then PAGE_SIZE else 0);
            !(lo <= PageOf(a) * PAGE_SIZE < hi)
  {
    if a < ptr {
      if ad <= a {
        MultipleAdd(ad, PAGE_SIZE, PAGE_SIZE);
        PageCompare(a, ad + PAGE_SIZE);
      } else {
        PageCompare(a, ad);
      }
    } else if a < au {
      MultipleSub(au, PAGE_SIZE, PAGE_SIZE);
      PageCompare(a, au - PAGE_SIZE);
    } else {
      PageCompare(a, au);
    }
  }

  /**
   * The page arithmetic of the boundaries, apart from any bundle: an address
   * inside the allocation is on a page from `lo` to `hi`, or on a dropped
   * end page.
   */
  lemma PagesInside(a: nat, ptr: nat, tailStart: nat, ad: nat, au: nat, first: bool, last: bool)
    requires ad % PAGE_SIZE == 0 && au % PAGE_SIZE == 0
    requires ad <= ptr <= a < tailStart <= au
    ensures var lo := ad + (if first then PAGE_SIZE else 0);
            var hi := au - (if last then PAGE_SIZE else 0);
            var start := PageOf(a) * PAGE_SIZE;
            (lo <= start < hi) || (start == ad && first) || (start == au - PAGE_SIZE && last)
  {
    PageCompare(a, ad);
    PageCompare(a, au);
    MultipleAdd(ad, PAGE_SIZE, PAGE_SIZE);
    PageCompare(a, ad + PAGE_SIZE);
  }

  /** Small blocks: the boundaries never include the page of a live block outside the allocation. */
  lemma SmallSpanSpares(b: Bundle, ptr: nat, size: nat, q: nat)
    requires BundleValid(b) && b.blockSize < PAGE_SIZE
    requires b.buffer <= ptr && (ptr - b.buffer) % b.blockSize == 0
    requires ptr + AlignUp(size, b.blockSize) <= BundleEnd(b)
    requires q < |b.alloc| && b.alloc[q]
    requires !(ptr <= Addr(b, q) < ptr + AlignUp(size, b.blockSize))
    ensures !InSpan(BlockPage(b, q), MapRegionBoundaries(b, ptr, size))
  {
    var a := Addr(b, q);
    var ad, au := AlignDown(ptr, PAGE_SIZE), AlignUp(ptr + size, PAGE_SIZE);
    var tailStart := ptr + AlignUp(size, b.blockSize);
    assert tailStart <= au < tailStart + PAGE_SIZE by { BoundaryArith(b, ptr, size); }
    var first := LiveBlockIn(b, ad, ptr);
    var last := LiveBlockIn(b, tailStart, au);
    assert ad <= a < ptr ==> first by { assert b.alloc[q]; }
    assert tailStart <= a < au ==> last by { assert b.alloc[q]; }
    PagesOutside(a, ptr, tailStart, ad, au, first, last);
  }

  /** Small blocks: a block of the allocation is on a page of the boundaries or on a page shared with a live block. */
  lemma SmallSpanCovers(b: Bundle, ptr: nat, size: nat, q: nat)
    requires BundleValid(b) && b.blockSize < PAGE_SIZE
    requires b.buffer <= ptr && (ptr - b.buffer) % b.blockSize == 0
    requires ptr + AlignUp(size, b.blockSize) <= BundleEnd(b)
    requires ptr <= Addr(b, q) < ptr + AlignUp(size, b.blockSize)
    ensures InSpan(BlockPage(b, q), MapRegionBoundaries(b, ptr, size)) ||
            exists r :: 0 <= r < |b.alloc| && b.alloc[r] && !(ptr <= Addr(b, r) < ptr + AlignUp(size, b.blockSize))
                        && BlockPage(b, r) == BlockPage(b, q)
  {
    BoundaryArith(b, ptr, size);
    var ad, au := AlignDown(ptr, PAGE_SIZE), AlignUp(ptr + size, PAGE_SIZE);
    var tailStart := ptr + AlignUp(size, b.blockSize);
    var pg := BlockPage(b, q);
    SmallCoverCases(b, ptr, size, q);
    if !InSpan(pg, MapRegionBoundaries(b, ptr, size)) {
      if pg * PAGE_SIZE == ad && LiveBlockIn(b, ad, ptr) {
        var r: nat :| r < |b.alloc| && b.alloc[r] && ad <= Addr(b, r) < ptr;
        assert BlockPage(b, r) == pg;
      } else {
        var r: nat :| r < |b.alloc| && b.alloc[r] && tailStart <= Addr(b, r) < au;
        assert BlockPage(b, r) == pg;
      }
    }
  }

  /** The case analysis behind `SmallSpanCovers`: a block of the allocation left out of the boundaries is on a dropped end page. */
  lemma SmallCoverCases(b: Bundle, ptr: nat, size: nat, q: nat)
    requires BundleValid(b) && b.blockSize < PAGE_SIZE
    requires b.buffer <= ptr && (ptr - b.buffer) % b.blockSize == 0
    requires ptr + AlignUp(size, b.blockSize) <= BundleEnd(b)
    requires ptr <= Addr(b, q) < ptr + AlignUp(size, b.blockSize)
    ensures InSpan(BlockPage(b, q), MapRegionBoundaries(b, ptr, size)) ||
            (BlockPage(b, q) * PAGE_SIZE == AlignDown(ptr, PAGE_SIZE) && LiveBlockIn(b, AlignDown(ptr, PAGE_SIZE), ptr)) ||
            (BlockPage(b, q) * PAGE_SIZE == AlignUp(ptr + size, PAGE_SIZE) - PAGE_SIZE &&
             LiveBlockIn(b, ptr + AlignUp(size, b.blockSize), AlignUp(ptr + size, PAGE_SIZE)))
  {
    var ad, au := AlignDown(ptr, PAGE_SIZE), AlignUp(ptr + size, PAGE_SIZE);
    var tailStart := ptr + AlignUp(size, b.blockSize);
    assert tailStart <= au by { BoundaryArith(b, ptr, size); }
    PagesInside(Addr(b, q), ptr, tailStart, ad, au, LiveBlockIn(b, ad, ptr), LiveBlockIn(b, tailStart, au));
  }
}

=== FILE: vmh_registry.dfy ===
/**
 * The list of virtual memory heaps and the operations that create, find,
 * destroy and rebuild them: `vmh_init_heap`, `vmh_get_heap_by_attribute`,
 * `vmh_free_heap`, `vmh_reconfigure_heap` and the default configuration.
 *
 * The driver's region table is a constant of the registry; the list of heaps
 * is a sequence the methods reassign.
 */
module VmhRegistry {
  import opened Common
  import opened Align
  import opened VmhBitmaps
  import opened VmhPages
  import opened VmhHeap

  /** Attribute of the per-core heap regions (`MEM_REG_ATTR_CORE_HEAP`). */
  const MEM_REG_ATTR_CORE_HEAP: int := 1
  const ENOTEMPTY: int := 39
  /** Bundles of the default configuration, and the block size of the first one (a cache line). */
  const DEFAULT_CONFIG_ALOCATORS_COUNT: nat := 5
  const DCACHE_LINE_SIZE: nat := 64

  /** One entry of `vmh_heap_config.block_bundles_table`; a zero block size marks an unused entry. */
  datatype BundleCfg = BundleCfg(blockSize: nat, numberOfBlocks: nat)

  /** The bytes taken by the first `n` entries of a configuration. */
  function PrefixTotal(cfg: seq<BundleCfg>, n: nat): (t: nat)
    requires n <= |cfg|
  {
    if n == 0 then 0 else PrefixTotal(cfg, n - 1) + cfg[n - 1].blockSize * cfg[n - 1].numberOfBlocks
  }

  /**
   * The check of `vmh_init_heap`: every used entry has a power-of-two block
   * size, and the memory of the entries up to and including it fits in the
   * region and ends on a page boundary.
   */
  predicate ConfigFits(cfg: seq<BundleCfg>, regionSize: nat)
  {
    forall n :: 0 <= n < |cfg| && cfg[n].blockSize > 0 ==>
      IsPowerOfTwo(cfg[n].blockSize) && PrefixTotal(cfg, n + 1) <= regionSize &&
      PrefixTotal(cfg, n + 1) % PAGE_SIZE == 0
  }

  /** One more than the largest value of the 32-bit `size_t` the running total is kept in. */
  const SIZE_T_LIMIT: nat := 0x1_0000_0000

  /**
   * The running total as `vmh_init_heap` keeps it in a 32-bit `size_t`:
   * each entry's product and each sum wrap modulo 2^32.
   */
  function PrefixTotalAsWritten(cfg: seq<BundleCfg>, n: nat): (t: nat)
    requires n <= |cfg|
    ensures t < SIZE_T_LIMIT
  {
    if n == 0 then 0
    else (PrefixTotalAsWritten(cfg, n - 1) + cfg[n - 1].blockSize * cfg[n - 1].numberOfBlocks % SIZE_T_LIMIT) % SIZE_T_LIMIT
  }

  /** The check of `vmh_init_heap` as written: the same tests on the wrapped running total. */
  predicate ConfigFitsAsWritten(cfg: seq<BundleCfg>, regionSize: nat)
  {
    forall n :: 0 <= n < |cfg| && cfg[n].blockSize > 0 ==>
      IsPowerOfTwo(cfg[n].blockSize) && PrefixTotalAsWritten(cfg, n + 1) <= regionSize &&
      PrefixTotalAsWritten(cfg, n + 1) % PAGE_SIZE == 0
  }

  /** The bundle `vmh_init_heap` builds for entry `n`: its memory follows the earlier entries', its bitmaps are clear. */
  function BuiltBundle(cfg: seq<BundleCfg>, base: nat, n: nat): (r: Option<Bundle>)
    requires n < |cfg|
  {
    if cfg[n].blockSize == 0 then None
    else Some(Bundle(base + PrefixTotal(cfg, n), cfg[n].blockSize, cfg[n].numberOfBlocks,
                     Cleared(cfg[n].numberOfBlocks), Cleared(cfg[n].numberOfBlocks)))
  }

  function BuiltBundles(cfg: seq<BundleCfg>, base: nat): (r: seq<Option<Bundle>>)
  {
    seq(|cfg|, n requires 0 <= n < |cfg| => BuiltBundle(cfg, base, n))
  }

  /**
   * The region a heap takes: the core's own region, or the first non-core
   * region with the attribute.
   */
  predicate RegionFor(regions: seq<Region>, cpuCount: nat, attr: int, coreId: nat, r: Region)
  {
    if attr == MEM_REG_ATTR_CORE_HEAP then coreId < |regions| && r == regions[coreId]
    else exists i :: cpuCount <= i < |regions| && regions[i] == r && r.attr == attr &&
                     forall j :: cpuCount <= j < i ==> regions[j].attr != attr
  }

  // ---------------------------------------------------------------------
  // Properties of configurations
  // ---------------------------------------------------------------------

  lemma {:induction false} PrefixMono(cfg: seq<BundleCfg>, m: nat, n: nat)
    requires m <= n <= |cfg|
    ensures PrefixTotal(cfg, m) <= PrefixTotal(cfg, n)
    decreases n - m
  {
    if m < n {
      PrefixMono(cfg, m, n - 1);
    }
  }

  /** Under a fitting configuration every prefix of the memory fits in the region and is page aligned. */
  lemma {:induction false} PrefixAligned(cfg: seq<BundleCfg>, regionSize: nat, n: nat)
    requires ConfigFits(cfg, regionSize) && n <= |cfg|
    ensures PrefixTotal(cfg, n) <= regionSize && PrefixTotal(cfg, n) % PAGE_SIZE == 0
  {
    if n > 0 && cfg[n - 1].blockSize == 0 {
      PrefixAligned(cfg, regionSize, n - 1);
    }
  }

  /** While the true total stays below 2^32, the wrapped running total is the true one. */
  lemma {:induction false} PrefixTotalNoWrap(cfg: seq<BundleCfg>, n: nat)
    requires n <= |cfg| && PrefixTotal(cfg, n) < SIZE_T_LIMIT
    ensures PrefixTotalAsWritten(cfg, n) == PrefixTotal(cfg, n)
  {
    if n > 0 {
      PrefixMono(cfg, n - 1, n);
      PrefixTotalNoWrap(cfg, n - 1);
      var prev, p := PrefixTotal(cfg, n - 1), cfg[n - 1].blockSize * cfg[n - 1].numberOfBlocks;
      DivModUnique(p, SIZE_T_LIMIT, 0, p);
      DivModUnique(prev + p, SIZE_T_LIMIT, 0, prev + p);
    }
  }

  /** When the whole configuration takes less than 4 GiB, the check as written and the exact check agree. */
  lemma ConfigChecksAgree(cfg: seq<BundleCfg>, regionSize: nat)
    requires PrefixTotal(cfg, |cfg|) < SIZE_T_LIMIT
    ensures ConfigFitsAsWritten(cfg, regionSize) <==> ConfigFits(cfg, regionSize)
  {
    forall m | 1 <= m <= |cfg|
      ensures PrefixTotalAsWritten(cfg, m) == PrefixTotal(cfg, m)
    {
      PrefixMono(cfg, m, |cfg|);
      PrefixTotalNoWrap(cfg, m);
    }
  }

  /**
   * On a region a 32-bit `size_t` can describe, every configuration the exact
   * check accepts passes the check as written too: the exact check only
   * refuses more, namely the configurations whose total wraps.
   */
  lemma ExactCheckStricter(cfg: seq<BundleCfg>, regionSize: nat)
    requires regionSize < SIZE_T_LIMIT && ConfigFits(cfg, regionSize)
    ensures ConfigFitsAsWritten(cfg, regionSize)
  {
    PrefixAligned(cfg, regionSize, |cfg|);
    ConfigChecksAgree(cfg, regionSize);
  }

  /**
   * One bundle of 2^20 page-sized blocks: the product wraps to 0, so the
   * check as written accepts the configuration on any region, and the bundle
   * `vmh_init_heap` lays out ends 4 GiB past the region base, beyond any
   * region below 4 GiB. The exact check refuses it.
   */
  lemma WrappedTotalAccepted(region: Region)
    requires region.size < SIZE_T_LIMIT
    ensures var cfg := [BundleCfg(PAGE_SIZE, 0x10_0000)] + seq(MAX_MEMORY_ALLOCATORS_COUNT - 1, _ => BundleCfg(0, 0));
            ConfigFitsAsWritten(cfg, region.size) && !ConfigFits(cfg, region.size) &&
            BundleEnd(BuiltBundle(cfg, region.addr, 0).value) == region.addr + SIZE_T_LIMIT > region.addr + region.size
  {
    var cfg := [BundleCfg(PAGE_SIZE, 0x10_0000)] + seq(MAX_MEMORY_ALLOCATORS_COUNT - 1, _ => BundleCfg(0, 0));
    PageSizeIsPowerOfTwo();
    assert PrefixTotal(cfg, 1) == SIZE_T_LIMIT;
    assert PrefixTotalAsWritten(cfg, 1) == 0;
    assert forall n :: 1 <= n < |cfg| ==> cfg[n].blockSize == 0;
    BuiltBundleEnd(cfg, region.addr, 0);
  }

  /**
   * A fitting configuration placed at a page-aligned region gives a valid
   * heap layout: page-aligned power-of-two bundles inside the region, in slot
   * order, not overlapping, with clear bitmaps.
   */
  lemma BuiltLayoutValid(cfg: seq<BundleCfg>, region: Region, contiguous: bool)
    requires |cfg| == MAX_MEMORY_ALLOCATORS_COUNT && ConfigFits(cfg, region.size)
    requires region.addr % PAGE_SIZE == 0
    ensures LayoutValid(BuiltBundles(cfg, region.addr), region, contiguous)
    ensures forall m :: AllBacked(BuiltBundles(cfg, region.addr), m)
    ensures HeapEmpty(BuiltBundles(cfg, region.addr))
  {
    var bundles := BuiltBundles(cfg, region.addr);
    forall n | 0 <= n < |bundles| && bundles[n].Some?
      ensures BundleValid(bundles[n].value) && BundleWellFormed(bundles[n].value, contiguous)
      ensures region.addr <= bundles[n].value.buffer
      ensures BundleEnd(bundles[n].value) <= region.addr + region.size
    {
      BuiltBundleFits(cfg, region, contiguous, n);
    }
    forall i, j | 0 <= i < j < |bundles| && bundles[i].Some? && bundles[j].Some?
      ensures BundleEnd(bundles[i].value) <= bundles[j].value.buffer
    {
      BuiltBundleEnd(cfg, region.addr, i);
      PrefixMono(cfg, i + 1, j);
    }
  }

  /** Bundle `n` ends where the memory of the first `n + 1` entries ends. */
  lemma BuiltBundleEnd(cfg: seq<BundleCfg>, base: nat, n: nat)
    requires n < |cfg| && cfg[n].blockSize > 0
    ensures BundleEnd(BuiltBundle(cfg, base, n).value) == base + PrefixTotal(cfg, n + 1)
  {
    var c := cfg[n];
    assert c.numberOfBlocks * c.blockSize == c.blockSize * c.numberOfBlocks;
  }

  /** A built bundle is a valid, well-formed bundle inside the region. */
  lemma BuiltBundleFits(cfg: seq<BundleCfg>, region: Region, contiguous: bool, n: nat)
    requires ConfigFits(cfg, region.size) && region.addr % PAGE_SIZE == 0
    requires n < |cfg| && cfg[n].blockSize > 0
    ensures var b := BuiltBundle(cfg, region.addr, n).value;
            BundleValid(b) && BundleWellFormed(b, contiguous) &&
            region.addr <= b.buffer && BundleEnd(b) <= region.addr + region.size
  {
    var b := BuiltBundle(cfg, region.addr, n).value;
    PrefixAligned(cfg, region.size, n);
    PrefixAligned(cfg, region.size, n + 1);
    BuiltBundleEnd(cfg, region.addr, n);
    MultipleAdd(region.addr, PrefixTotal(cfg, n), PAGE_SIZE);
    MultipleAdd(region.addr, PrefixTotal(cfg, n + 1), PAGE_SIZE);
  }

  /** The static buffer configuration of the per-core heaps (`static_hp_buffers`). */
  function StaticHeapBuffers(): (cfg: seq<BundleCfg>)
    ensures |cfg| == MAX_MEMORY_ALLOCATORS_COUNT
  {
    [BundleCfg(128, 32), BundleCfg(512, 8), BundleCfg(1024, 44), BundleCfg(2048, 8), BundleCfg(4096, 11),
     BundleCfg(8192, 10), BundleCfg(65536, 3), BundleCfg(131072, 1), BundleCfg(524288, 1), BundleCfg(0, 0)]
  }

  /** The static configuration takes exactly 1 MiB and fits every region of at least that size. */
  lemma StaticConfigFits(regionSize: nat)
    ensures PrefixTotal(StaticHeapBuffers(), MAX_MEMORY_ALLOCATORS_COUNT) == 0x10_0000
    ensures ConfigFits(StaticHeapBuffers(), regionSize) <==> regionSize >= 0x10_0000
  {
    var cfg := StaticHeapBuffers();
    StaticPrefixTotals();
    if regionSize >= 0x10_0000 {
      forall n | 0 <= n < |cfg| && cfg[n].blockSize > 0
        ensures IsPowerOfTwo(cfg[n].blockSize) && PrefixTotal(cfg, n + 1) <= regionSize
        ensures PrefixTotal(cfg, n + 1) % PAGE_SIZE == 0
      {
        StaticEntryFits(n);
      }
    } else {
      assert cfg[8].blockSize > 0 && !(PrefixTotal(cfg, 9) <= regionSize);
    }
  }

  /** The running totals of the static configuration, entry by entry. */
  lemma StaticPrefixTotals()
    ensures var cfg := StaticHeapBuffers();
            PrefixTotal(cfg, 1) == 0x1000 && PrefixTotal(cfg, 2) == 0x2000 && PrefixTotal(cfg, 3) == 0xD000 &&
            PrefixTotal(cfg, 4) == 0x1_1000 && PrefixTotal(cfg, 5) == 0x1_C000 && PrefixTotal(cfg, 6) == 0x3_0000 &&
            PrefixTotal(cfg, 7) == 0x6_0000 && PrefixTotal(cfg, 8) == 0x8_0000 && PrefixTotal(cfg, 9) == 0x10_0000 &&
            PrefixTotal(cfg, 10) == 0x10_0000
  {
    var cfg := StaticHeapBuffers();
    assert PrefixTotal(cfg, 1) == 0x1000;
    assert PrefixTotal(cfg, 2) == 0x2000;
    assert PrefixTotal(cfg, 3) == 0xD000;
    assert PrefixTotal(cfg, 4) == 0x1_1000;
    assert PrefixTotal(cfg, 5) == 0x1_C000;
    assert PrefixTotal(cfg, 6) == 0x3_0000;
    assert PrefixTotal(cfg, 7) == 0x6_0000;
    assert PrefixTotal(cfg, 8) == 0x8_0000;
    assert PrefixTotal(cfg, 9) == 0x10_0000;
  }

  /** Every used entry of the static configuration has a power-of-two block size and ends on a page within 1 MiB. */
  lemma StaticEntryFits(n: nat)
    requires n < MAX_MEMORY_ALLOCATORS_COUNT && StaticHeapBuffers()[n].blockSize > 0
    ensures var cfg := StaticHeapBuffers();
            IsPowerOfTwo(cfg[n].blockSize) && PrefixTotal(cfg, n + 1) <= 0x10_0000 &&
            PrefixTotal(cfg, n + 1) % PAGE_SIZE == 0
  {
    StaticPrefixTotals();
    PowersUpTo();
  }

  lemma PowersUpTo()
    ensures IsPowerOfTwo(64) && IsPowerOfTwo(128) && IsPowerOfTwo(256) && IsPowerOfTwo(512)
    ensures IsPowerOfTwo(1024) && IsPowerOfTwo(2048) && IsPowerOfTwo(4096) && IsPowerOfTwo(8192)
    ensures IsPowerOfTwo(65536) && IsPowerOfTwo(131072) && IsPowerOfTwo(524288)
  {
    PageSizeIsPowerOfTwo();
    assert IsPowerOfTwo(8192);
    assert IsPowerOfTwo(16384);
    assert IsPowerOfTwo(32768);
    assert IsPowerOfTwo(65536);
    assert IsPowerOfTwo(131072);
    assert IsPowerOfTwo(262144);
    assert IsPowerOfTwo(524288);
  }

  /**
   * `vmh_get_default_heap_config`: the region split into five equal
   * page-aligned shares, one per block size from a cache line (64 bytes) up
   * to 1024 bytes, each holding as many blocks as fit; the other entries
   * unused.
   */
  method DefaultHeapConfig(region: Region) returns (cfg: seq<BundleCfg>)
    ensures cfg == DefaultConfig(region)
    ensures |cfg| == MAX_MEMORY_ALLOCATORS_COUNT
    ensures forall n :: 0 <= n < DEFAULT_CONFIG_ALOCATORS_COUNT ==> cfg[n].blockSize == DefaultBlockSize(n)
    ensures forall n :: 0 <= n < DEFAULT_CONFIG_ALOCATORS_COUNT ==>
              cfg[n].blockSize * cfg[n].numberOfBlocks == AlignDown(region.size / DEFAULT_CONFIG_ALOCATORS_COUNT, PAGE_SIZE)
    ensures forall n :: 0 <= n < DEFAULT_CONFIG_ALOCATORS_COUNT ==> IsPowerOfTwo(cfg[n].blockSize)
    ensures forall n :: 0 <= n < DEFAULT_CONFIG_ALOCATORS_COUNT ==> DCACHE_LINE_SIZE <= cfg[n].blockSize <= 1024
    ensures forall n :: DEFAULT_CONFIG_ALOCATORS_COUNT <= n < |cfg| ==> cfg[n].blockSize == 0
    ensures ConfigFits(cfg, region.size)
  {
    var share := AlignDown(region.size / DEFAULT_CONFIG_ALOCATORS_COUNT, PAGE_SIZE);
    cfg := seq(MAX_MEMORY_ALLOCATORS_COUNT, _ => BundleCfg(0, 0));
    var i := 0;
    var blockSize := DCACHE_LINE_SIZE;
    while i < DEFAULT_CONFIG_ALOCATORS_COUNT
      invariant 0 <= i <= DEFAULT_CONFIG_ALOCATORS_COUNT
      invariant blockSize == DefaultBlockSize(i)
      invariant DefaultFilled(cfg, i, share)
      invariant forall n :: 0 <= n < i ==> cfg[n] == DefaultEntry(share, n)
      invariant forall n :: i <= n < |cfg| ==> cfg[n] == BundleCfg(0, 0)
    {
      DefaultStep(cfg, i, share);
      cfg := cfg[i := BundleCfg(blockSize, share / blockSize)];
      blockSize := blockSize * 2;
      i := i + 1;
    }
    DefaultConfigFits(cfg, region.size, share);
    DefaultConfigIs(cfg, region);
  }

  /** A table whose every entry is the default one is the default configuration. */
  lemma DefaultConfigIs(cfg: seq<BundleCfg>, region: Region)
    requires |cfg| == MAX_MEMORY_ALLOCATORS_COUNT
    requires forall n :: 0 <= n < DEFAULT_CONFIG_ALOCATORS_COUNT ==>
               cfg[n] == DefaultEntry(AlignDown(region.size / DEFAULT_CONFIG_ALOCATORS_COUNT, PAGE_SIZE), n)
    requires forall n :: DEFAULT_CONFIG_ALOCATORS_COUNT <= n < |cfg| ==> cfg[n] == BundleCfg(0, 0)
    ensures cfg == DefaultConfig(region)
  {
  }

  /** The block size of entry `i` of the default configuration, `DCACHE_LINE_SIZE << i`: a cache line doubled `i` times. */
  function DefaultBlockSize(i: nat): (r: nat)
    ensures r >= DCACHE_LINE_SIZE
  {
    if i == 0 then DCACHE_LINE_SIZE else 2 * DefaultBlockSize(i - 1)
  }

  /**
   * The configuration `vmh_get_default_heap_config` fills in: entry `i` below
   * five has blocks of `DCACHE_LINE_SIZE << i` bytes, as many as fit in a
   * page-aligned fifth of the region; the other entries are unused.
   */
  function DefaultConfig(region: Region): (cfg: seq<BundleCfg>)
    ensures |cfg| == MAX_MEMORY_ALLOCATORS_COUNT
  {
    var share := AlignDown(region.size / DEFAULT_CONFIG_ALOCATORS_COUNT, PAGE_SIZE);
    seq(MAX_MEMORY_ALLOCATORS_COUNT, n requires 0 <= n => DefaultEntry(share, n))
  }

  /** Entry `n` of the default configuration when each bundle gets `share` bytes. */
  function DefaultEntry(share: nat, n: nat): BundleCfg
  {
    if n < DEFAULT_CONFIG_ALOCATORS_COUNT then
      var bs := DefaultBlockSize(n);
      DivIsNat(share, bs);
      BundleCfg(bs, share / bs)
    else BundleCfg(0, 0)
  }

  /** The five block sizes of the default configuration. */
  lemma DefaultBlockSizes()
    ensures DefaultBlockSize(0) == 64 && DefaultBlockSize(1) == 128 && DefaultBlockSize(2) == 256
    ensures DefaultBlockSize(3) == 512 && DefaultBlockSize(4) == 1024
  {
    assert DefaultBlockSize(2) == 256;
    assert DefaultBlockSize(3) == 512;
  }

  /**
   * The first `i` entries hold `share` bytes of blocks of a cache line
   * doubled once per entry, a power of two up to 1024; the rest are unused.
   */
  predicate DefaultFilled(cfg: seq<BundleCfg>, i: nat, share: nat)
  {
    |cfg| == MAX_MEMORY_ALLOCATORS_COUNT && i <= |cfg| &&
    (forall n :: 0 <= n < i ==>
       cfg[n].blockSize == DefaultBlockSize(n) &&
       cfg[n].blockSize * cfg[n].numberOfBlocks == share && IsPowerOfTwo(cfg[n].blockSize) &&
       DCACHE_LINE_SIZE <= cfg[n].blockSize <= 1024) &&
    (forall n :: i <= n < |cfg| ==> cfg[n].blockSize == 0)
  }

  /** One turn of the loop of `vmh_get_default_heap_config` fills entry `i` and doubles the block size. */
  lemma DefaultStep(cfg: seq<BundleCfg>, i: nat, share: nat)
    requires i < DEFAULT_CONFIG_ALOCATORS_COUNT && DefaultFilled(cfg, i, share)
    requires share % PAGE_SIZE == 0
    ensures DefaultBlockSize(i) > 0 && DefaultBlockSize(i) * 2 == DefaultBlockSize(i + 1)
    ensures share / DefaultBlockSize(i) >= 0
    ensures DefaultFilled(cfg[i := BundleCfg(DefaultBlockSize(i), share / DefaultBlockSize(i))], i + 1, share)
  {
    PowersUpTo();
    DefaultBlockSizes();
    assert i == 0 || i == 1 || i == 2 || i == 3 || i == 4;
    SharePerBlock(share, DefaultBlockSize(i));
  }

  /** A page-aligned share divides into blocks of 64 to 1024 bytes without remainder. */
  lemma SharePerBlock(share: nat, bs: nat)
    requires share % PAGE_SIZE == 0
    requires bs == 64 || bs == 128 || bs == 256 || bs == 512 || bs == 1024
    ensures bs * (share / bs) == share
  {
    MultipleTrans(share, PAGE_SIZE, bs);
  }

  /** Five equal page-aligned shares of at most a fifth of the region fit it. */
  lemma DefaultConfigFits(cfg: seq<BundleCfg>, regionSize: nat, share: nat)
    requires |cfg| == MAX_MEMORY_ALLOCATORS_COUNT
    requires share == AlignDown(regionSize / DEFAULT_CONFIG_ALOCATORS_COUNT, PAGE_SIZE)
    requires forall n :: 0 <= n < DEFAULT_CONFIG_ALOCATORS_COUNT ==>
               cfg[n].blockSize * cfg[n].numberOfBlocks == share && IsPowerOfTwo(cfg[n].blockSize)
    requires forall n :: DEFAULT_CONFIG_ALOCATORS_COUNT <= n < |cfg| ==> cfg[n].blockSize == 0
    ensures ConfigFits(cfg, regionSize)
  {
    assert PrefixTotal(cfg, 1) == share;
    assert PrefixTotal(cfg, 2) == 2 * share;
    assert PrefixTotal(cfg, 3) == 3 * share;
    assert PrefixTotal(cfg, 4) == 4 * share;
    assert PrefixTotal(cfg, 5) == 5 * share;
    MultipleAdd(share, share, PAGE_SIZE);
    MultipleAdd(2 * share, share, PAGE_SIZE);
    MultipleAdd(3 * share, share, PAGE_SIZE);
    MultipleAdd(4 * share, share, PAGE_SIZE);
    assert 5 * share <= regionSize;
    forall n | 0 <= n < |cfg| && cfg[n].blockSize > 0
      ensures PrefixTotal(cfg, n + 1) <= regionSize && PrefixTotal(cfg, n + 1) % PAGE_SIZE == 0
    {
      assert n < DEFAULT_CONFIG_ALOCATORS_COUNT;
      assert PrefixTotal(cfg, n + 1) == (n + 1) * share;
    }
  }

  // ---------------------------------------------------------------------
  // The list of heaps
  // ---------------------------------------------------------------------

  class HeapRegistry {
    /** The driver's virtual region table: one region per core, then the other regions. */
    const regions: seq<Region>
    const cpuCount: nat
    /** `vmh_list`. */
    var heaps: seq<VmHeap>

    /**
     * The region table starts with one region per core, every region starts
     * on a page; every listed heap is valid, uses a region of the table and
     * no two heaps share a region.
     */
    ghost predicate Valid()
      reads this, heaps
    {
      cpuCount <= |regions| &&
      (forall r :: r in regions ==> r.addr % PAGE_SIZE == 0) &&
      (forall h :: h in heaps ==> h.Valid() && h.region in regions) &&
      (forall i, j :: 0 <= i < j < |heaps| ==> heaps[i].region != heaps[j].region)
    }

    constructor (regions: seq<Region>, cpuCount: nat)
      requires cpuCount <= |regions| && forall r :: r in regions ==> r.addr % PAGE_SIZE == 0
      ensures Valid() && this.regions == regions && this.cpuCount == cpuCount && heaps == []
    {
      this.regions := regions;
      this.cpuCount := cpuCount;
      heaps := [];
    }

    /** The lookup key of `vmh_get_heap_by_attribute`: the core's region address, or the attribute. */
    predicate Matches(h: VmHeap, attr: int, coreId: nat)
      requires attr == MEM_REG_ATTR_CORE_HEAP ==> coreId < |regions|
    {
      if attr == MEM_REG_ATTR_CORE_HEAP then h.region.addr == regions[coreId].addr else h.region.attr == attr
    }

    /**
     * `vmh_get_heap_by_attribute`: the first heap of the list that matches;
     * `null` when none does.
     */
    method GetHeapByAttribute(attr: int, coreId: nat) returns (h: VmHeap?)
      requires attr == MEM_REG_ATTR_CORE_HEAP ==> coreId < |regions|
      ensures h != null ==> exists i :: 0 <= i < |heaps| && heaps[i] == h && Matches(h, attr, coreId) &&
                                        forall j :: 0 <= j < i ==> !Matches(heaps[j], attr, coreId)
      ensures h == null ==> forall j :: 0 <= j < |heaps| ==> !Matches(heaps[j], attr, coreId)
    {
      var i := 0;
      while i < |heaps|
        invariant 0 <= i <= |heaps|
        invariant forall j :: 0 <= j < i ==> !Matches(heaps[j], attr, coreId)
      {
        if Matches(heaps[i], attr, coreId) {
          return heaps[i];
        }
        i := i + 1;
      }
      return null;
    }

    /**
     * The region selection of `vmh_init_heap`: the core's own region for a
     * core heap, else the first non-core region with the attribute.
     */
    method SelectRegion(attr: int, coreId: nat) returns (r: Option<Region>)
      requires Valid() && (attr == MEM_REG_ATTR_CORE_HEAP ==> coreId < cpuCount)
      ensures r.Some? ==> RegionFor(regions, cpuCount, attr, coreId, r.value) && r.value in regions
      ensures r.None? ==> attr != MEM_REG_ATTR_CORE_HEAP &&
                          forall i :: cpuCount <= i < |regions| ==> regions[i].attr != attr
    {
      if attr == MEM_REG_ATTR_CORE_HEAP {
        return Some(regions[coreId]);
      }
      var i := cpuCount;
      while i < |regions|
        invariant cpuCount <= i <= |regions|
        invariant forall j :: cpuCount <= j < i ==> regions[j].attr != attr
      {
        if regions[i].attr == attr {
          return Some(regions[i]);
        }
        i := i + 1;
      }
      return None;
    }

    /** The validation loop of `vmh_init_heap`: the configuration's verdict, entry by entry. */
    method CheckConfig(cfg: seq<BundleCfg>, regionSize: nat) returns (ok: bool)
      ensures ok <==> ConfigFits(cfg, regionSize)
    {
      var total := 0;
      var i := 0;
      while i < |cfg|
        invariant 0 <= i <= |cfg| && total == PrefixTotal(cfg, i)
        invariant forall n :: 0 <= n < i && cfg[n].blockSize > 0 ==>
                    IsPowerOfTwo(cfg[n].blockSize) && PrefixTotal(cfg, n + 1) <= regionSize &&
                    PrefixTotal(cfg, n + 1) % PAGE_SIZE == 0
      {
        if cfg[i].blockSize > 0 {
          if !IsPowerOfTwo(cfg[i].blockSize) {
            return false;
          }
          total := total + cfg[i].blockSize * cfg[i].numberOfBlocks;
          if total > regionSize || total % PAGE_SIZE != 0 {
            return false;
          }
        }
        i := i + 1;
      }
      return true;
    }

    /** The build loop of `vmh_init_heap`: one bundle per used entry, each after the previous ones. */
    method BuildBundles(cfg: seq<BundleCfg>, base: nat) returns (bundles: seq<Option<Bundle>>)
      ensures bundles == BuiltBundles(cfg, base)
    {
      bundles := [];
      var offset := 0;
      var i := 0;
      while i < |cfg|
        invariant 0 <= i <= |cfg| && offset == PrefixTotal(cfg, i)
        invariant bundles == BuiltBundles(cfg, base)[..i]
      {
        if cfg[i].blockSize == 0 {
          bundles := bundles + [None];
        } else {
          var n := cfg[i].numberOfBlocks;
          bundles := bundles + [Some(Bundle(base + offset, cfg[i].blockSize, n, Cleared(n), Cleared(n)))];
        }
        offset := offset + cfg[i].blockSize * cfg[i].numberOfBlocks;
        i := i + 1;
      }
    }

    /**
     * `vmh_init_heap`: refuse a second heap for the same attribute (or
     * core), find the region, take the default configuration when none is
     * given, refuse a configuration that does not fit, then build the
     * bundles and append the heap to the list. Any bootstrap allocation may
     * fail, and then nothing is created.
     */
    method InitHeap(cfg: Option<seq<BundleCfg>>, attr: int, coreId: nat, contiguous: bool) returns (h: VmHeap?)
      requires Valid() && (attr == MEM_REG_ATTR_CORE_HEAP ==> coreId < cpuCount)
      requires cfg.Some? ==> |cfg.value| == MAX_MEMORY_ALLOCATORS_COUNT
      modifies this
      ensures Valid()
      ensures h == null ==> heaps == old(heaps)
      ensures (exists j :: 0 <= j < |old(heaps)| && Matches(old(heaps)[j], attr, coreId)) ==> h == null
      ensures cfg.Some? && (forall r :: RegionFor(regions, cpuCount, attr, coreId, r) ==> !ConfigFits(cfg.value, r.size))
              ==> h == null
      ensures h != null ==>
                fresh(h) && heaps == old(heaps) + [h] &&
                h.coreId == coreId && h.contiguous == contiguous &&
                RegionFor(regions, cpuCount, attr, coreId, h.region) &&
                h.Valid() && HeapEmpty(h.bundles) &&
                (cfg.Some? ==> ConfigFits(cfg.value, h.region.size) && h.bundles == BuiltBundles(cfg.value, h.region.addr)) &&
                (cfg.None? ==> ConfigFits(DefaultConfig(h.region), h.region.size) &&
                               h.bundles == BuiltBundles(DefaultConfig(h.region), h.region.addr))
    {
      var existing := GetHeapByAttribute(attr, coreId);
      if existing != null {
        return null;
      }
      var outOfMemory: bool :| true;
      if outOfMemory {
        return null;
      }
      var region := SelectRegion(attr, coreId);
      if region.None? {
        return null;
      }
      var r := region.value;
      var c;
      if cfg.None? {
        c := DefaultHeapConfig(r);
      } else {
        c := cfg.value;
      }
      var ok := CheckConfig(c, r.size);
      if !ok {
        return null;
      }
      var bundles := BuildBundles(c, r.addr);
      BuiltLayoutValid(c, r, contiguous);
      UniqueRegion(attr, coreId, r);
      h := AppendHeap(coreId, r, contiguous, bundles);
    }

    /** The end of `vmh_init_heap`: a new heap over a region no listed heap uses goes to the end of the list. */
    method AppendHeap(coreId: nat, r: Region, contiguous: bool, bundles: seq<Option<Bundle>>) returns (h: VmHeap)
      requires Valid() && r in regions && LayoutValid(bundles, r, contiguous)
      requires forall j :: 0 <= j < |heaps| ==> heaps[j].region != r
      modifies this
      ensures Valid() && fresh(h) && heaps == old(heaps) + [h]
      ensures h.coreId == coreId && h.region == r && h.contiguous == contiguous && h.bundles == bundles
    {
      h := new VmHeap(coreId, r, contiguous, bundles);
      heaps := heaps + [h];
    }

    /** A region chosen for a key that no listed heap matches is not used by any listed heap. */
    lemma UniqueRegion(attr: int, coreId: nat, r: Region)
      requires Valid() && (attr == MEM_REG_ATTR_CORE_HEAP ==> coreId < cpuCount)
      requires RegionFor(regions, cpuCount, attr, coreId, r)
      requires forall j :: 0 <= j < |heaps| ==> !Matches(heaps[j], attr, coreId)
      ensures forall j :: 0 <= j < |heaps| ==> heaps[j].region != r
    {
    }

    /**
     * `vmh_free_heap`: refuse with `-ENOTEMPTY` while any bundle has an
     * allocated block; otherwise take the heap off the list.
     */
    method FreeHeap(h: VmHeap) returns (ret: int)
      requires Valid() && h in heaps
      modifies this
      ensures Valid()
      ensures ret == 0 || ret == -ENOTEMPTY
      ensures ret == 0 <==> HeapEmpty(h.bundles)
      ensures ret != 0 ==> heaps == old(heaps)
      ensures ret == 0 ==> h !in heaps
      ensures ret == 0 ==>
                exists i :: 0 <= i < |old(heaps)| && old(heaps)[i] == h && heaps == old(heaps)[..i] + old(heaps)[i + 1..]
    {
      var i := 0;
      while i < MAX_MEMORY_ALLOCATORS_COUNT
        invariant 0 <= i <= MAX_MEMORY_ALLOCATORS_COUNT
        invariant forall j :: 0 <= j < i && h.bundles[j].Some? ==> RegionClear(h.bundles[j].value.alloc, 0, h.bundles[j].value.numBlocks)
      {
        if h.bundles[i].Some? && !RegionClear(h.bundles[i].value.alloc, 0, h.bundles[i].value.numBlocks) {
          return -ENOTEMPTY;
        }
        i := i + 1;
      }
      var k := 0;
      while heaps[k] != h
        invariant 0 <= k < |heaps| && h in heaps[k..]
        decreases |heaps| - k
      {
        k := k + 1;
      }
      ghost var before := heaps;
      heaps := heaps[..k] + heaps[k + 1..];
      forall j | 0 <= j < |heaps|
        ensures heaps[j] != h
      {
        if j < k {
          assert before[j].region != before[k].region;
        } else {
          assert heaps[j] == before[j + 1];
          assert before[k].region != before[j + 1].region;
        }
      }
      return 0;
    }

    /**
     * `vmh_reconfigure_heap`: free the heap, then build a new one on the
     * same region attribute with the given configuration; `null` when the
     * heap still has allocations or the new heap cannot be built.
     */
    method ReconfigureHeap(h: VmHeap, cfg: Option<seq<BundleCfg>>, coreId: nat, contiguous: bool)
      returns (h': VmHeap?)
      requires Valid() && h in heaps
      requires cfg.Some? ==> |cfg.value| == MAX_MEMORY_ALLOCATORS_COUNT
      requires h.region.attr == MEM_REG_ATTR_CORE_HEAP ==> coreId < cpuCount
      modifies this
      ensures Valid()
      ensures !HeapEmpty(h.bundles) ==> h' == null && heaps == old(heaps)
      ensures HeapEmpty(h.bundles) ==>
                exists i :: 0 <= i < |old(heaps)| && old(heaps)[i] == h &&
                  heaps == old(heaps)[..i] + old(heaps)[i + 1..] + (if h' == null then [] else [h'])
      ensures (exists j :: 0 <= j < |old(heaps)| && old(heaps)[j] != h && Matches(old(heaps)[j], h.region.attr, coreId))
              ==> h' == null
      ensures cfg.Some? && (forall r :: RegionFor(regions, cpuCount, h.region.attr, coreId, r) ==> !ConfigFits(cfg.value, r.size))
              ==> h' == null
      ensures h' != null ==>
                fresh(h') && h !in heaps &&
                h'.coreId == coreId && h'.contiguous == contiguous &&
                RegionFor(regions, cpuCount, h.region.attr, coreId, h'.region) &&
                h'.Valid() && HeapEmpty(h'.bundles) &&
                (cfg.Some? ==> ConfigFits(cfg.value, h'.region.size) && h'.bundles == BuiltBundles(cfg.value, h'.region.addr)) &&
                (cfg.None? ==> ConfigFits(DefaultConfig(h'.region), h'.region.size) &&
                               h'.bundles == BuiltBundles(DefaultConfig(h'.region), h'.region.addr))
    {
      var attr := h.region.attr;
      var ret := FreeHeap(h);
      if ret != 0 {
        return null;
      }
      ghost var i :| 0 <= i < |old(heaps)| && old(heaps)[i] == h && heaps == old(heaps)[..i] + old(heaps)[i + 1..];
      forall j | 0 <= j < |old(heaps)| && old(heaps)[j] != h
        ensures old(heaps)[j] in heaps
      {
        if j < i {
          assert heaps[j] == old(heaps)[j];
        } else if j > i {
          assert heaps[j - 1] == old(heaps)[j];
        }
      }
      h' := InitHeap(cfg, attr, coreId, contiguous);
    }
  }

  /** A heap that holds a live allocation is not empty, so `vmh_free_heap` refuses it. */
  lemma AllocatedHeapNotEmpty(bundles: seq<Option<Bundle>>, i: nat, p: nat, k: nat)
    requires i < |bundles| && bundles[i].Some? && 1 <= k
    requires var b := bundles[i].value; p + k <= |b.alloc| && |b.sizes| == |b.alloc| && b.numBlocks == |b.alloc|
    ensures !HeapEmpty(bundles[i := Some(AllocInBundle(bundles[i].value, p, k))])
  {
    var b' := AllocInBundle(bundles[i].value, p, k);
    var bundles' := bundles[i := Some(b')];
    assert bundles'[i] == Some(b') && b'.alloc[p];
    assert !RegionClear(bundles'[i].value.alloc, 0, bundles'[i].value.numBlocks);
  }

  /** No bundle of the heap holds an allocated block. */
  predicate HeapEmpty(bundles: seq<Option<Bundle>>)
  {
    forall i :: 0 <= i < |bundles| && bundles[i].Some? ==> RegionClear(bundles[i].value.alloc, 0, bundles[i].value.numBlocks)
  }
}
